=== FILE: README.md ===
# PDF Galaxy Pro — a Dafny model of the PDF tool screens

PDF Galaxy Pro is a browser application with a set of PDF tools. Each tool
is a React screen over pdf-lib (building and saving documents), pdf.js
(reading and rendering pages), Tesseract (recognising text), JSZip
(archives), fabric (the page editor's canvas) and the Gemini service
(formatting text as a Word document). This project models what those
screens decide:

- which files they accept;
- how they build page lists, names, positions, colours and text;
- how their state changes on each user action and on each library
  success or failure;
- what they hand to the download helper.

The libraries themselves are parameters. A page count, a page size, a
text item, a recognised word or a "the library threw" flag is passed in,
and the model computes what the screen does with it.

Module layout, one module per source file plus four shared modules:

| module | file | models |
|---|---|---|
| `Base` | base.dfy | optional values, files, downloads, page sizes |
| `JsText` | js_text.dfy | the JavaScript string and number operations the screens use: `trim`, `join`, `startsWith`, `indexOf`, `replace`, `String(n)`, `parseInt`, `%` |
| `FileNames` | file_names.dfy | `name.replace('.pdf', '')` stems and `page_N.ext` archive entry names |
| `Lists` | lists.dfy | `filter` by index and the two-`splice` move |
| `Rotation` | rotation.dfy | `(r + d + 360) % 360` |
| `MergePdf` | merge_pdf.dfy | tools/MergePdf.tsx |
| `InteractiveEditor` | editor.dfy | tools/InteractiveEditorPdf.tsx |
| `RotatePdf` | rotate_pdf.dfy | tools/RotatePdf.tsx |
| `ImageToPdf` | image_to_pdf.dfy | tools/ImageToPdf.tsx |
| `AddPageNumbers` | page_numbers.dfy | tools/AddPageNumbersPdf.tsx |
| `AddWatermark` | watermark.dfy | tools/AddWatermarkPdf.tsx |
| `ProtectPdf` | protect_pdf.dfy | tools/ProtectPdf.tsx |
| `OcrPdf` | ocr_pdf.dfy | tools/OcrPdf.tsx |
| `ExtractText` | extract_text.dfy | tools/ExtractText.tsx |
| `PdfToWord` | pdf_to_word.dfy | tools/PdfToWord.tsx |
| `SplitPdf` | split_pdf.dfy | tools/SplitPdf.tsx |
| `PdfToImage` | pdf_to_image.dfy | tools/PdfToImage.tsx |
| `Gemini` | gemini.dfy | services/geminiService.ts |

How the source is modelled:

- Each screen is a class whose fields are the screen's `useState`
  variables (and, for the merge tool, its refs). Each handler is a method
  that reassigns them. A `setState` becomes a field assignment, and one
  handler runs as one step.
- Every page loop in a handler is a module-level method with loop
  invariants. The method is proved equal to a recursive specification
  function, and the properties are proved about that function.
- `window.confirm` answers, the outcome of each library call and whether
  the clipboard accepts a write are method parameters.
- The Arabic error messages become one error datatype per screen. The
  Gemini service keeps its messages, because they are what it throws.

## Model

| member | source | states |
|---|---|---|
| Base.OrZero | tools/RotatePdf.tsx:94 | `x \|\| 0`: a present non-zero rotation is kept; a missing one, or 0, gives 0 |
| JsText.BlankConcat | tools/ExtractText.tsx:86-89 | a concatenation is blank exactly when both parts are blank |
| JsText.TrimStart | tools/ExtractText.tsx:89 | the result is a suffix of the input; what was cut is all whitespace; the result does not start with whitespace |
| JsText.TrimEnd | tools/ExtractText.tsx:89 | the result is a prefix; what was cut is all whitespace; the result does not end with whitespace |
| JsText.TrimEmptyIffBlank | tools/ExtractText.tsx:89 | `!s.trim()` holds exactly when `s` is blank |
| JsText.TrimIsInnerSegment | services/geminiService.ts:116 | trimming gives a contiguous segment of the input |
| JsText.TrimKeepsUnpadded | services/geminiService.ts:116 | a string with no leading or trailing whitespace is its own trim |
| JsText.JoinSpaceBlank | tools/ExtractText.tsx:85 | items joined by spaces are blank exactly when every item is blank |
| JsText.IndexFrom | tools/AddPageNumbersPdf.tsx:46-54 | finds the first occurrence at or after the start, and none is skipped; `None` means there is no occurrence |
| JsText.ReplaceFirst | tools/SplitPdf.tsx:47 | a string pattern is replaced at most once; without an occurrence nothing changes; otherwise the length changes by the difference of the lengths |
| JsText.ReplaceFirstAt | tools/SplitPdf.tsx:47 | at the first occurrence of the pattern the result is the text before it, the replacement, and the text after it |
| JsText.NatToString | tools/SplitPdf.tsx:43 | the decimal rendering is non-empty, all digits, and a single digit exactly below 10 |
| JsText.ParseRendered | tools/ImageToPdf.tsx:105-113 | `parseInt(String(n))` gives back `n` |
| JsText.NatToStringInjective | tools/SplitPdf.tsx:43 | two numbers render alike exactly when they are equal |
| JsText.JsRem | tools/RotatePdf.tsx:110 | JavaScript `%`: the remainder takes the sign of the dividend and lies strictly between `-b` and `b` |
| JsText.Utf16Length | tools/ProtectPdf.tsx:16-17 | `s.length` counts UTF-16 code units: at least one and at most two per character |
| JsText.Utf16LengthConcat | tools/OcrPdf.tsx:89 | the code-unit length of a concatenation is the sum of the lengths |
| FileNames.OutputStem | tools/SplitPdf.tsx:47 | the first ".pdf" is removed (4 characters fewer); a name without one is unchanged |
| FileNames.OutputName | tools/AddPageNumbersPdf.tsx:64 | the download name is exactly the stem followed by the tool's suffix; a name without ".pdf" keeps all of it, one with ".pdf" loses those 4 characters |
| FileNames.StemCutsFirstPdf | tools/SplitPdf.tsx:47 | for `a + ".pdf" + b` with no ".pdf" in `a`, the stem is `a + b`: only the first occurrence goes |
| FileNames.StemOfPdfName | tools/PdfToImage.tsx:67 | `a + ".pdf"` strips back to `a` |
| FileNames.PageEntryName | tools/PdfToImage.tsx:62 | "page_", then exactly the decimal digits of `n`, then "." and the extension |
| FileNames.PageEntryNameReadsBack | tools/PdfToImage.tsx:62 | the digits between "page_" and the extension parse back to `n` |
| FileNames.EntryNamesDistinct | tools/SplitPdf.tsx:43 | different page numbers give different entry names, so no archive entry overwrites another |
| Lists.RemoveAt | tools/InteractiveEditorPdf.tsx:190 | `filter((_, i) => i !== k)`: one element fewer, elements before `k` kept and later ones shifted down; an index past the end changes nothing |
| Lists.RemoveAtMultiset | tools/ImageToPdf.tsx:31-35 | removal drops exactly the element at `k` from the multiset |
| Lists.Moved | tools/MergePdf.tsx:166-168 | the two `splice` calls keep the length |
| Lists.MovedAt | tools/MergePdf.tsx:166-168 | every position of the moved list, stated as the source index it comes from |
| Lists.MovedPermutation | tools/MergePdf.tsx:166-168 | a move is a permutation |
| Lists.MovedInverse | tools/ImageToPdf.tsx:111-119 | dragging back from the drop index to the start index restores the list |
| Lists.MovedInPlace | tools/ImageToPdf.tsx:111-119 | moving an item onto its own index changes nothing |
| Lists.Filter | tools/MergePdf.tsx:81 | `filter`: an element is in the result exactly when it is in the input and passes, and the result is no longer |
| Lists.FilterConcat | tools/ImageToPdf.tsx:26 | filtering works piece by piece, so the kept elements stay in input order |
| Lists.FilterCount | tools/ImageToPdf.tsx:53-61 | the result has exactly as many elements as the input has passing positions |
| Lists.FilterMultiset | tools/MergePdf.tsx:89 | a passing element keeps its multiplicity; a failing one is gone |
| Rotation.Rotate | tools/RotatePdf.tsx:110 | the result lies in (-360, 360); with a non-negative sum it lies in [0, 360) and is congruent to `r + d` modulo 360 |
| Rotation.StepStaysInRange | tools/RotatePdf.tsx:110 | a ±90 step from [0, 360) stays in [0, 360) |
| Rotation.StepKeepsQuarterTurn | tools/InteractiveEditorPdf.tsx:204 | a ±90 step keeps an angle a multiple of 90 in [0, 360) |
| Rotation.ClockwiseStep | tools/RotatePdf.tsx:110 | +90 adds 90, wrapping 270 to 0 |
| Rotation.CounterClockwiseStep | tools/RotatePdf.tsx:110 | -90 subtracts 90, wrapping 0 to 270 |
| Rotation.FourStepsRestore | tools/RotatePdf.tsx:110 | four clockwise steps restore the angle |
| Rotation.OppositeStepsCancel | tools/RotatePdf.tsx:110 | a step and the opposite step cancel, in either order |
| Rotation.NegativeExactlyBelowGuard | tools/InteractiveEditorPdf.tsx:204 | the result is negative exactly when `r + d` is below -360 and not a whole number of turns, as JavaScript's `%` keeps the dividend's sign |
| MergePdf.PdfFiles | tools/MergePdf.tsx:81 | a file is kept exactly when it was selected and has the PDF MIME type |
| MergePdf.PdfFilesInOrder | tools/MergePdf.tsx:81 | the PDF files of a concatenation are those of each part in turn; one file is kept exactly when it is a PDF, so order and duplicates are kept |
| MergePdf.Registered | tools/MergePdf.tsx:32-36 | the map gains every new name and never overwrites an existing key |
| MergePdf.FileRecords | tools/MergePdf.tsx:48-66 | with a canvas, one record per page with the file's name and page index; without one, none |
| MergePdf.FailedNames | tools/MergePdf.tsx:67-72 | exactly the names of the uploads whose reading threw |
| MergePdf.LastFailure | tools/MergePdf.tsx:67-72 | there is an error exactly when some upload threw |
| MergePdf.WithoutId | tools/MergePdf.tsx:89 | a record is kept exactly when its id differs, and the grid never grows |
| MergePdf.WithoutIdInOrder | tools/MergePdf.tsx:89 | removal works piece by piece, so the remaining records keep grid order; one record goes exactly when it carries the id |
| MergePdf.Distinct | tools/MergePdf.tsx:117 | the same names without duplicates |
| MergePdf.RecordNames | tools/MergePdf.tsx:117 | one name per record, covering exactly the names the records use |
| MergePdf.RegisteredKeepsFirst | tools/MergePdf.tsx:32-36 | a new name maps to the first file that carried it in the batch |
| MergePdf.WithoutIdKeepsOthers | tools/MergePdf.tsx:89 | every record with another id keeps its multiplicity |
| MergePdf.MergedPagesFollowRecords | tools/MergePdf.tsx:128-137 | when every record's file is loaded, the merged document has one page per record, in record order, copying that record's page |
| MergePdf.MergedPagesCount | tools/MergePdf.tsx:132-136 | the merge never adds pages, and a record whose file is missing is dropped silently |
| MergePdf.MergedPagesAgree | tools/MergePdf.tsx:118-137 | the merge depends only on the files of the names the records use |
| MergePdf.BatchRecordsShape | tools/MergePdf.tsx:40-75 | with a canvas, a batch adds one record per page of every upload that read; every record names one of the uploads |
| MergePdf.BatchKeepsResolved | tools/MergePdf.tsx:32-75 | after a batch, every record's file is in the map unless its name belonged to a failed upload |
| MergePdf.MergeCountIsSumOfPageCounts | tools/MergePdf.tsx:27-153 | uploading cleanly read files into an empty tool and merging gives as many pages as the uploads had |
| MergePdf.FailedReuploadOrphansRecords | tools/MergePdf.tsx:71 | for any grid record whose name belongs to a failed upload in a batch: the record stays in the grid, its name is no longer in the map, and the merge has fewer pages than the grid has records |
| MergePdf.RegisterFiles | tools/MergePdf.tsx:32-36 | the registration loop computes `Registered` |
| MergePdf.ReadPages | tools/MergePdf.tsx:48-66 | the inner loop computes `FileRecords` |
| MergePdf.ReadBatch | tools/MergePdf.tsx:40-73 | the outer loop gives the batch records, removes failed names from the map and leaves the last failure |
| MergePdf.LoadDistinct | tools/MergePdf.tsx:117-125 | exactly the used names present in the map are loaded, each with its own file, without duplicates |
| MergePdf.CopyPages | tools/MergePdf.tsx:128-137 | the copy loop computes `MergedPages` |
| MergePdf.MergeTool.constructor | tools/MergePdf.tsx:20-25 | an empty grid, map and drag state |
| MergePdf.MergeTool.ProcessFiles | tools/MergePdf.tsx:27-78 | new map = registered minus failed names; records appended in upload order; error = last failure |
| MergePdf.MergeTool.OnFilesSelected | tools/MergePdf.tsx:80-85 | only the PDF files are processed, and nothing happens without any |
| MergePdf.MergeTool.RemovePage | tools/MergePdf.tsx:87-99 | records with the id are dropped; the map keeps exactly the names still used; resolution is preserved |
| MergePdf.MergeTool.DragStart | tools/MergePdf.tsx:215 | records the dragged index |
| MergePdf.MergeTool.DragEnter | tools/MergePdf.tsx:216 | records the hovered index |
| MergePdf.MergeTool.HandleSort | tools/MergePdf.tsx:159-174 | with two different indices, moves the record; otherwise nothing moves; both refs are cleared; always a permutation |
| MergePdf.MergeTool.HandleMerge | tools/MergePdf.tsx:101-153 | no records is an error; otherwise the merged pages go to "merged_document.pdf" and the grid and map are cleared, or a failure keeps them |
| InteractiveEditor.LoadPages | tools/InteractiveEditorPdf.tsx:96-107 | one record per page, in order, keeping that page's position, with an empty scene and rotation `page.rotate \|\| 0`; every record lies within the document |
| InteractiveEditor.WithScene | tools/InteractiveEditorPdf.tsx:177-183 | only the record at `k` changes, and only its scene |
| InteractiveEditor.SnapshotSurvivesOtherCommits | tools/InteractiveEditorPdf.tsx:170-185 | a scene committed for one page survives commits for other pages |
| InteractiveEditor.LaterCommitWins | tools/InteractiveEditorPdf.tsx:274-276 | committing twice for the same page keeps the later scene |
| InteractiveEditor.ClampedIndex | tools/InteractiveEditorPdf.tsx:191-193 | after a deletion the current index is moved to the last page only when it falls off the end |
| InteractiveEditor.Rotated | tools/InteractiveEditorPdf.tsx:202-213 | the new rotation is `(r + d + 360) % 360` and the thumbnail the re-rendered one; the scene and source page are kept; a ±90 step keeps a quarter-turn rotation in [0, 360) |
| InteractiveEditor.NewShape | tools/InteractiveEditorPdf.tsx:232-250 | rectangles and ellipses are 100 by 50 and centred; text starts 50 left and 15 above the centre |
| InteractiveEditor.OutputFor | tools/InteractiveEditorPdf.tsx:289-316 | the source page at the record's own position (its page object's `pageNumber - 1`) is copied with the record's rotation, with an overlay exactly when the scene is non-empty; this is the corrected read, see Findings |
| InteractiveEditor.ExportAsWritten | tools/InteractiveEditorPdf.tsx:287-293 | the export as written: each page is copied by the `pageIndex` read off its page object; it succeeds exactly when every read is a defined index of the document, and then copies those indices with each record's rotation and overlay |
| InteractiveEditor.AsWrittenSaveFails | tools/InteractiveEditorPdf.tsx:292 | with `pageIndex` undefined on every page object, saving any non-empty document fails |
| InteractiveEditor.CorrectedExportAgrees | tools/InteractiveEditorPdf.tsx:287-316 | reading each page's own position, the export of records within the document never fails and copies exactly `OutputFor` of each record |
| InteractiveEditor.EditsKeepPositionsWithin | tools/InteractiveEditorPdf.tsx:177-213 | committing a scene, rotating and deleting keep every record's page within the document |
| InteractiveEditor.ExportPages | tools/InteractiveEditorPdf.tsx:287-317 | one output page per record, in order |
| InteractiveEditor.SaveExportsSnapshotOfCurrentPage | tools/InteractiveEditorPdf.tsx:273-317 | saving exports the live canvas for the current page and the stored scene for every other page |
| InteractiveEditor.EditorTool.constructor | tools/InteractiveEditorPdf.tsx:31-39 | no file, no pages, no canvas |
| InteractiveEditor.EditorTool.OnFilesSelected | tools/InteractiveEditorPdf.tsx:45-56 | the first file replaces the document and the pages; the canvas is dropped |
| InteractiveEditor.EditorTool.LoadPdf | tools/InteractiveEditorPdf.tsx:88-115 | a file that does not open is an error with the document flag kept; a page failure after opening sets the document but keeps the records, with an error; otherwise the document is set and the records are those of `LoadPages` |
| InteractiveEditor.EditorTool.InitCanvas | tools/InteractiveEditorPdf.tsx:151-158 | a canvas exists once there are pages |
| InteractiveEditor.EditorTool.SelectPage | tools/InteractiveEditorPdf.tsx:170-185 | with a canvas and another index, the live scene is committed to the current page, then the index changes; otherwise nothing |
| InteractiveEditor.EditorTool.DeletePage | tools/InteractiveEditorPdf.tsx:187-200 | once confirmed, the record is removed and the index is clamped; deleting the last page clears the file |
| InteractiveEditor.EditorTool.RotatePage | tools/InteractiveEditorPdf.tsx:202-213 | only the record at the index changes; all-quarter-turn rotations are preserved |
| InteractiveEditor.EditorTool.AddShape | tools/InteractiveEditorPdf.tsx:232-250 | a shape exactly when there is a canvas |
| InteractiveEditor.EditorTool.HandleSave | tools/InteractiveEditorPdf.tsx:266-328 | without a canvas or file, an error; otherwise the exported pages of the records with the live scene committed, named stem + "_edited.pdf" |
| RotatePdf.InitialRotations | tools/RotatePdf.tsx:91-96 | one rotation per page, each `page.rotate \|\| 0` |
| RotatePdf.RotatedSlot | tools/RotatePdf.tsx:106-113 | a negative index changes nothing; otherwise the list grows to cover the index |
| RotatePdf.RotatedSlotOnlyTouchesIndex | tools/RotatePdf.tsx:108-110 | only the slot of the current page changes, to the rotated value |
| RotatePdf.RotatedSlotKeepsQuarterTurns | tools/RotatePdf.tsx:106-113 | ±90 steps keep every rotation a quarter turn |
| RotatePdf.FourTurnsRestore | tools/RotatePdf.tsx:106-113 | four clockwise clicks restore the list |
| RotatePdf.OppositeTurnsCancel | tools/RotatePdf.tsx:106-113 | a click each way restores the list |
| RotatePdf.RotateSlot | tools/RotatePdf.tsx:108-111 | computes `RotatedSlot` |
| RotatePdf.PrevPage | tools/RotatePdf.tsx:156 | `max(1, p - 1)` |
| RotatePdf.NextPage | tools/RotatePdf.tsx:160 | `min(total, p + 1)`: one more below the total, the total otherwise |
| RotatePdf.ApplyRotations | tools/RotatePdf.tsx:128-131 | every page gets its stored rotation |
| RotatePdf.RotateTool.constructor | tools/RotatePdf.tsx:12-18 | the initial screen, page 1 |
| RotatePdf.RotateTool.OnFilesSelected | tools/RotatePdf.tsx:73-104 | resets to page 1; an unreadable file clears the file with an error; otherwise page count and initial rotations |
| RotatePdf.RotateTool.HandleRotate | tools/RotatePdf.tsx:106-113 | the current page's slot is rotated; quarter turns are preserved |
| RotatePdf.RotateTool.Prev | tools/RotatePdf.tsx:156 | previous page, staying within 1..total |
| RotatePdf.RotateTool.Next | tools/RotatePdf.tsx:160 | next page, staying within 1..total |
| RotatePdf.RotateTool.HandleSave | tools/RotatePdf.tsx:115-147 | a page-count mismatch or failure is an error; otherwise the stored rotations are applied, saved as stem + "_rotated.pdf" and the screen reset; with no file or on a failure every other field is unchanged |
| ImageToPdf.ImageFiles | tools/ImageToPdf.tsx:26 | a file is kept exactly when it was selected and its type starts with "image/" |
| ImageToPdf.ImageFilesInOrder | tools/ImageToPdf.tsx:26 | the images of a concatenation are those of each part in turn; one file is kept exactly when it is an image |
| ImageToPdf.MoveFile | tools/ImageToPdf.tsx:111-119 | the dropped file lands at the drop index; the list is a permutation |
| ImageToPdf.PageDims | tools/ImageToPdf.tsx:13-16 | A4 is 595.28 by 841.89, Letter 612 by 792; portrait is taller than wide, landscape wider |
| ImageToPdf.LandscapeSwapsPortrait | tools/ImageToPdf.tsx:63-66 | landscape swaps the portrait sides |
| ImageToPdf.FitImage | tools/ImageToPdf.tsx:70-83 | the image keeps its aspect ratio, fits the page, touches one pair of sides and is centred |
| ImageToPdf.FitBounds | tools/ImageToPdf.tsx:70-80 | a wider-than-page image fills the width, otherwise the height |
| ImageToPdf.EmbeddableFiles | tools/ImageToPdf.tsx:53-61 | a file becomes a page exactly when it is in the list and is a PNG or a JPEG |
| ImageToPdf.EmbeddableInOrder | tools/ImageToPdf.tsx:53-61 | the pages follow list order: the selection works piece by piece, and one file passes exactly when it is a JPEG or PNG |
| ImageToPdf.EmbeddableCount | tools/ImageToPdf.tsx:53-61 | as many pages as the list has JPEG and PNG positions |
| ImageToPdf.ConvertedPagesShape | tools/ImageToPdf.tsx:43-89 | one page per embeddable image, each of the chosen page size |
| ImageToPdf.ConvertImages | tools/ImageToPdf.tsx:43-89 | the page loop computes `ConvertedPages`: one page per JPEG or PNG, in list order, each of the chosen page size |
| ImageToPdf.ImageTool.constructor | tools/ImageToPdf.tsx:19-23 | no files, A4 portrait |
| ImageToPdf.ImageTool.OnFilesSelected | tools/ImageToPdf.tsx:25-29 | the image files are appended; the list holds only images |
| ImageToPdf.ImageTool.RemoveFile | tools/ImageToPdf.tsx:31-35 | once confirmed, exactly that file is removed |
| ImageToPdf.ImageTool.DragStart | tools/ImageToPdf.tsx:105-107 | the index is stored as text that parses back to it |
| ImageToPdf.ImageTool.OnDrop | tools/ImageToPdf.tsx:111-119 | the dragged file moves to the drop index; a permutation |
| ImageToPdf.ImageTool.SetPageSize | tools/ImageToPdf.tsx:130 | stores the page size |
| ImageToPdf.ImageTool.SetOrientation | tools/ImageToPdf.tsx:137 | stores the orientation |
| ImageToPdf.ImageTool.HandleConversion | tools/ImageToPdf.tsx:37-102 | no images is an error; otherwise the converted pages, named "converted-images.pdf", and the list cleared |
| AddPageNumbers.Label | tools/AddPageNumbersPdf.tsx:41 | exactly the digits of i+1, " / ", and the digits of n: the two digit runs are found at the two ends, and the length is their sum plus 3 |
| AddPageNumbers.LabelsDistinct | tools/AddPageNumbersPdf.tsx:41 | different pages get different labels |
| AddPageNumbers.BottomTest | tools/AddPageNumbersPdf.tsx:46 | `includes('bottom')` holds exactly for the three bottom positions |
| AddPageNumbers.LeftTest | tools/AddPageNumbersPdf.tsx:52 | `includes('left')` holds exactly for the two left positions |
| AddPageNumbers.CenterTest | tools/AddPageNumbersPdf.tsx:54 | `includes('center')` holds exactly for the two centre positions |
| AddPageNumbers.Anchor | tools/AddPageNumbersPdf.tsx:44-58 | bottom positions sit at the margin, top ones a font size and margin below the top; left, centre and right as written |
| AddPageNumbers.AnchorsMirror | tools/AddPageNumbersPdf.tsx:52-58 | right mirrors left, centre is centred, top mirrors bottom |
| AddPageNumbers.NumberPages | tools/AddPageNumbersPdf.tsx:38-61 | one stamp per page with its label and anchor |
| AddPageNumbers.PageNumbersTool.constructor | tools/AddPageNumbersPdf.tsx:12-17 | bottom-centre, size 12, margin 20 |
| AddPageNumbers.PageNumbersTool.OnFilesSelected | tools/AddPageNumbersPdf.tsx:19-24 | the first file becomes the document |
| AddPageNumbers.PageNumbersTool.SetPosition | tools/AddPageNumbersPdf.tsx:83 | stores the position |
| AddPageNumbers.PageNumbersTool.HandleAddNumbers | tools/AddPageNumbersPdf.tsx:26-71 | page `i` gets the label "i+1 / n" at the anchor of the chosen position, font size and margin; saved as stem + "_numbered.pdf" and the file cleared; a failure keeps the file |
| AddWatermark.HexValue | tools/AddWatermarkPdf.tsx:47-49 | a hex digit's value is below 16 |
| AddWatermark.PairValue | tools/AddWatermarkPdf.tsx:47-49 | two hex digits give a byte |
| AddWatermark.HexToRgb | tools/AddWatermarkPdf.tsx:43-52 | a well-formed colour gives each channel over 255; anything else gives black; channels lie in [0, 1] |
| AddWatermark.HexDigit | tools/AddWatermarkPdf.tsx:44 | the digit reads back as its value |
| AddWatermark.LowerCase | tools/AddWatermarkPdf.tsx:44 | same length, every ASCII letter lowered and every other character kept |
| AddWatermark.HexDigitIgnoresCase | tools/AddWatermarkPdf.tsx:44 | a character is a hex digit exactly when its lower case is, with the same value |
| AddWatermark.FormatHex | tools/AddWatermarkPdf.tsx:20 | "#" followed by six characters |
| AddWatermark.HexRoundTrip | tools/AddWatermarkPdf.tsx:43-52 | a formatted colour parses back to its channels |
| AddWatermark.HashIsOptional | tools/AddWatermarkPdf.tsx:44 | the leading "#" may be omitted |
| AddWatermark.CaseInsensitive | tools/AddWatermarkPdf.tsx:44 | for every string: it is accepted exactly when its lower-case spelling is, and both give the same colour |
| AddWatermark.MalformedIsBlack | tools/AddWatermarkPdf.tsx:51 | short, doubled-"#" and non-hex colours give black |
| AddWatermark.TextMarkOn | tools/AddWatermarkPdf.tsx:75-85 | the text is centred horizontally at half height, turned 45 degrees |
| AddWatermark.ImageMarkOn | tools/AddWatermarkPdf.tsx:94-102 | the image is scaled to half and centred on the page |
| AddWatermark.MarkWithText | tools/AddWatermarkPdf.tsx:74-86 | one text mark per page |
| AddWatermark.MarkWithImage | tools/AddWatermarkPdf.tsx:93-103 | one image mark per page |
| AddWatermark.WatermarkTool.constructor | tools/AddWatermarkPdf.tsx:12-22 | text mark, red, size 50 |
| AddWatermark.WatermarkTool.OnPdfSelected | tools/AddWatermarkPdf.tsx:27-32 | the first file becomes the document |
| AddWatermark.WatermarkTool.OnImageSelected | tools/AddWatermarkPdf.tsx:34-41 | only an image is accepted; anything else is an error |
| AddWatermark.WatermarkTool.SetWatermarkType | tools/AddWatermarkPdf.tsx:125-126 | stores the watermark type |
| AddWatermark.WatermarkTool.SetTextOptions | tools/AddWatermarkPdf.tsx:134-138 | stores the text and colour |
| AddWatermark.WatermarkTool.HandleAddWatermark | tools/AddWatermarkPdf.tsx:54-117 | an image mark without an image is an error that leaves both files; otherwise every page is marked, saved as stem + "_watermarked.pdf" and both files cleared |
| ProtectPdf.RawScore | tools/ProtectPdf.tsx:16-20 | at most 5, and 5 exactly when the password has at least 12 UTF-16 code units and meets the other criteria |
| ProtectPdf.CalculatePasswordStrength | tools/ProtectPdf.tsx:12-33 | empty shows nothing; otherwise a score of 1..5 with its label, raw 0 and 1 both showing as 1 |
| ProtectPdf.RawScoreMonotone | tools/ProtectPdf.tsx:16-20 | typing more never lowers the score |
| ProtectPdf.LowerCaseOnlyAtMostWeak | tools/ProtectPdf.tsx:16-29 | lower-case letters alone score at most 2 |
| ProtectPdf.AstralPasswordScore | tools/ProtectPdf.tsx:16-20 | four characters beyond the Basic Multilingual Plane count as 8 code units and score 2 |
| ProtectPdf.Validate | tools/ProtectPdf.tsx:104-113 | redaction always passes; encryption needs a non-empty password equal to its confirmation |
| ProtectPdf.IsButtonDisabled | tools/ProtectPdf.tsx:165 | disabled while loading or exactly when validation fails |
| ProtectPdf.MakeSaveOptions | tools/ProtectPdf.tsx:132-143 | an owner password is set exactly when one was typed |
| ProtectPdf.RedactPages | tools/ProtectPdf.tsx:147-151 | one black rectangle covering each whole page |
| ProtectPdf.ProtectTool.constructor | tools/ProtectPdf.tsx:71-83 | the default options |
| ProtectPdf.ProtectTool.OnFilesSelected | tools/ProtectPdf.tsx:85-99 | the first file, with the options reset |
| ProtectPdf.ProtectTool.HandleProtect | tools/ProtectPdf.tsx:101-163 | validation errors and a declined confirmation stop it; a failure is an error; otherwise the encryption options, or one black rectangle covering page `i` for every page, as stem + "_protected.pdf" and the file cleared |
| OcrPdf.Sanitize | tools/OcrPdf.tsx:79 | the result is no longer and has no direction marks |
| OcrPdf.SanitizeConcat | tools/OcrPdf.tsx:79 | sanitizing distributes over concatenation |
| OcrPdf.SanitizeKeepsClean | tools/OcrPdf.tsx:79 | clean text is unchanged |
| OcrPdf.SanitizeIdempotent | tools/OcrPdf.tsx:79 | sanitizing twice is sanitizing once |
| OcrPdf.SanitizeEmptyIffOnlyMarks | tools/OcrPdf.tsx:79-81 | a word is skipped exactly when it holds only direction marks |
| OcrPdf.MappedBoxInsidePage | tools/OcrPdf.tsx:82-84 | a box inside the canvas maps inside the page |
| OcrPdf.FontSize | tools/OcrPdf.tsx:89 | the size times the length in UTF-16 code units is 1.5 times the width; positive for a positive width |
| OcrPdf.WordRun | tools/OcrPdf.tsx:76-97 | a word gives a run exactly when it has text after sanitizing and drawing succeeds; the run's text, position and font size (1.5 × mapped width / UTF-16 length) are pinned |
| OcrPdf.TextLayerAppend | tools/OcrPdf.tsx:76-98 | the text layer of two word lists is the concatenation of their layers |
| OcrPdf.TextLayerSplit | tools/OcrPdf.tsx:76-98 | the layer splits at any word |
| OcrPdf.TextLayerClean | tools/OcrPdf.tsx:76-98 | at most one run per word, and no run has direction marks or is empty |
| OcrPdf.DrawWords | tools/OcrPdf.tsx:76-98 | the word loop computes `TextLayer` |
| OcrPdf.RenderedCount | tools/OcrPdf.tsx:62 | counts the pages with a drawing context |
| OcrPdf.RenderedPagesSnoc | tools/OcrPdf.tsx:56-62 | one more source page is rendered exactly when it got a context, after the earlier ones |
| OcrPdf.SearchablePagesShape | tools/OcrPdf.tsx:56-74 | output page `j` is built from the `j`-th source page that got a context, with that page's size and text layer; as many output pages as rendered pages |
| OcrPdf.OcrPages | tools/OcrPdf.tsx:56-99 | the page loop computes `SearchablePages` |
| OcrPdf.OcrTool.constructor | tools/OcrPdf.tsx:12-16 | no file, no error |
| OcrPdf.OcrTool.OnFilesSelected | tools/OcrPdf.tsx:18-25 | the first file, with error, progress and status reset |
| OcrPdf.OcrTool.HandleOcr | tools/OcrPdf.tsx:27-113 | the searchable pages saved as stem + "_searchable.pdf" and the file cleared; a failure keeps the file; progress and status reset |
| ExtractText.PageBreakBlank | tools/ExtractText.tsx:86 | the page break is blank |
| ExtractText.PageText | tools/ExtractText.tsx:85-86 | a page's text is blank exactly when all its items are |
| ExtractText.LayerBlankIffItemsBlank | tools/ExtractText.tsx:82-91 | recognition runs exactly when every item of every page is blank |
| ExtractText.ReadLayer | tools/ExtractText.tsx:82-87 | the layer loop computes `LayerText` |
| ExtractText.RecognisedBlankIffPagesBlank | tools/ExtractText.tsx:51-65 | the recognised text is blank exactly when every recognised page is |
| ExtractText.RunOcr | tools/ExtractText.tsx:51-65 | the recognition loop computes `RecognisedText`, skipping pages without a context |
| ExtractText.Outcome | tools/ExtractText.tsx:89-97 | the layer text if not blank, else the recognised text if not blank, else the "no text" error; extracted text is never blank |
| ExtractText.ExtractTool.constructor | tools/ExtractText.tsx:13-19 | the cleared screen |
| ExtractText.ExtractTool.ResetState | tools/ExtractText.tsx:21-29 | the cleared screen |
| ExtractText.ExtractTool.OnFilesSelected | tools/ExtractText.tsx:31-36 | a reset, then the first file |
| ExtractText.ExtractTool.HandleExtract | tools/ExtractText.tsx:69-107 | text or error as `Outcome` says; a failure is an error; progress and status reset |
| ExtractText.ExtractTool.HandleDownload | tools/ExtractText.tsx:109-113 | the text as stem + ".txt" when the text is non-empty and a file exists; a missing or empty text gives nothing |
| ExtractText.ExtractTool.HandleCopy | tools/ExtractText.tsx:115-121 | marks copied when the text is non-empty, as `!extractedText` refuses `""`, and the clipboard accepts it; a rejected write leaves the flag |
| PdfToWord.PagesWithItems | tools/PdfToWord.tsx:123 | only pages with items, all taken from the input |
| PdfToWord.LayerTextSnoc | tools/PdfToWord.tsx:121-126 | appending a page appends its text |
| PdfToWord.WordLayerSkipsEmptyPages | tools/PdfToWord.tsx:121-126 | the assembled text is the extractor's text over the pages with items |
| PdfToWord.WordLayerBlankIffItemsBlank | tools/PdfToWord.tsx:121-131 | recognition is asked for exactly when every item is blank |
| PdfToWord.PagesWithItemsKeeps | tools/PdfToWord.tsx:123 | every page with items survives |
| PdfToWord.ReadWordLayer | tools/PdfToWord.tsx:119-126 | the layer loop computes `WordLayerText` |
| PdfToWord.WordTool.constructor | tools/PdfToWord.tsx:12-17 | the cleared screen |
| PdfToWord.WordTool.ResetState | tools/PdfToWord.tsx:19-26 | the cleared screen |
| PdfToWord.WordTool.OnFilesSelected | tools/PdfToWord.tsx:28-33 | a reset, then the first file |
| PdfToWord.WordTool.ProcessConversion | tools/PdfToWord.tsx:35-58 | blank text is refused; a rejected formatting is an error; otherwise the HTML as stem + ".doc" and a reset |
| PdfToWord.WordTool.HandleInitialCheck | tools/PdfToWord.tsx:109-142 | blank text asks for recognition; other text is converted |
| PdfToWord.WordTool.RunOcrAndConvert | tools/PdfToWord.tsx:60-107 | the recognised text is converted; blank recognised text is an error |
| SplitPdf.SplitEntries | tools/SplitPdf.tsx:38-44 | one entry per page, "page_{i+1}.pdf" holding page `i`, with distinct names |
| SplitPdf.SplitTool.constructor | tools/SplitPdf.tsx:11-13 | no file |
| SplitPdf.SplitTool.OnFilesSelected | tools/SplitPdf.tsx:15-20 | the first file |
| SplitPdf.SplitTool.HandleSplit | tools/SplitPdf.tsx:22-56 | no file is an error; otherwise the entries as stem + "_split.zip" and the file cleared |
| PdfToImage.MimeFor | tools/PdfToImage.tsx:58 | "image/jpeg" or "image/png", as chosen |
| PdfToImage.ConvertPages | tools/PdfToImage.tsx:41-63 | fails exactly when some page lacks a context; otherwise entry `i` is "page_{i+1}.{format}" |
| PdfToImage.EntryNamesUnique | tools/PdfToImage.tsx:62 | entry names are distinct |
| PdfToImage.PdfToImageTool.constructor | tools/PdfToImage.tsx:13-17 | JPEG, no file |
| PdfToImage.PdfToImageTool.OnFilesSelected | tools/PdfToImage.tsx:19-25 | the first file, with error and status reset |
| PdfToImage.PdfToImageTool.SetImageFormat | tools/PdfToImage.tsx:97 | stores the format |
| PdfToImage.PdfToImageTool.HandleConversion | tools/PdfToImage.tsx:27-79 | no file is an error; a missing context or failure is an error; otherwise the images as stem + ".zip" |
| Gemini.WrapThrown | services/geminiService.ts:121-127 | an `Error` is rethrown as is; any other value is wrapped with the prefix |
| Gemini.WrapIdempotent | services/geminiService.ts:121-127 | wrapping twice is wrapping once |
| Gemini.Split | services/geminiService.ts:30 | at least one part, none containing the separator |
| Gemini.SplitJoin | services/geminiService.ts:30 | joining the parts with the separator restores the string |
| Gemini.SplitWithoutSep | services/geminiService.ts:30 | a string without the separator is one part |
| Gemini.SplitAtFirst | services/geminiService.ts:30 | the first part ends at the first separator |
| Gemini.FileToBase64 | services/geminiService.ts:27-33 | the second comma-separated part, which has no comma |
| Gemini.FileToBase64OfDataUrl | services/geminiService.ts:27-33 | a data URL yields its payload |
| Gemini.FileToGenerativePart | services/geminiService.ts:40-48 | the file's MIME type and the data URL's payload |
| Gemini.WordHtmlTemplate | services/geminiService.ts:58-95 | the content between the fixed Word prefix and suffix |
| Gemini.WordBody | services/geminiService.ts:58-95 | reading the body back recovers the content length |
| Gemini.WordBodyOfTemplate | services/geminiService.ts:58-95 | the template's body is the content |
| Gemini.StripOpeningFence | services/geminiService.ts:117 | a leading "```html" is removed with the newline after it, or alone when no newline follows; other text is kept |
| Gemini.StripClosingFence | services/geminiService.ts:117 | a trailing fence is removed with the newline before it, or alone when none precedes; other text is kept |
| Gemini.StripFencedReply | services/geminiService.ts:116-117 | a fenced reply gives its body |
| Gemini.UnfencedReplyOnlyTrimmed | services/geminiService.ts:116-117 | an unfenced reply is only trimmed |
| Gemini.FirstInline | services/geminiService.ts:185-190 | the first part with inline data, and none is skipped |
| Gemini.EditedImage | services/geminiService.ts:185-191 | the first inline part as a data URL, or the "no image" error |
| Gemini.GeneratedImage | services/geminiService.ts:168-169 | the first image as a JPEG data URL; no image makes the property access throw an `Error` object |
| Gemini.GeneratedImageReadsBack | services/geminiService.ts:168-169 | the data URL reads back to the image bytes |
| Gemini.GeminiService.constructor | services/geminiService.ts:5 | no client |
| Gemini.GeminiService.GetAiClient | services/geminiService.ts:11-24 | a cached client is reused; a missing key throws; otherwise a client is created and cached |
| Gemini.GeminiService.ConvertTextToHtml | services/geminiService.ts:98-128 | the trimmed, unfenced reply in the Word template, or an error object; the cached client is kept, created from the key, or left absent without one |
| Gemini.GeminiService.GetChatResponse | services/geminiService.ts:130-145 | the trimmed reply, or an error object; the cached client is kept, created from the key, or left absent without one |

## Left out

- Library internals are not modelled: pdf.js rendering, thumbnails, pdf-lib serialisation, Tesseract recognition, JSZip compression and fabric's canvas. Their results are parameters.
- The Gemini request contents are not modelled: prompts, model names and generation settings. `analyzeImage` returns the reply text unchanged and has no model.
- Asynchrony is not modelled. Each handler runs as one atomic step, so interleavings, stale closures and render cancellation are absent.
- Loading messages, progress percentages and in-progress status texts are not modelled. Only the points where a screen clears them are.
- `Date.now()` in record ids is a parameter.
- JavaScript numbers are 64-bit floating point, and the model computes with exact reals. The equalities below hold in the program only up to rounding.
- ImageToPdf.FitImage: the preserved aspect ratio, the centring and `p.width <= page.width` hold up to rounding; when the two aspect ratios are nearly equal, `pageHeight * imageAspectRatio` can exceed the page width by one unit in the last place, and the comparison of the ratios is itself decided on rounded values.
- OcrPdf.FontSize: `size × length == 1.5 × width` holds up to rounding, as do MapX, MapY and MapWidth.
- AddWatermark.HexToRgb: each channel is the byte over 255 as an exact real, where the program holds the nearest double.
- AddPageNumbers.Anchor: the centred and right-aligned coordinates are exact reals, where the program rounds each subtraction and halving.
- Opacity, fonts, colours other than the watermark's and the `download` helper's Blob handling are not modelled.
- Form inputs other than the selectors are not modelled: font size, margin, text size and opacities. They are fields or parameters.
- RotatePdf.RotatedSlot: a write past the end of the JavaScript array leaves holes, and the model fills them with 0. `handleRotate` reads a hole back as 0 through `|| 0`, but the `forEach` in `handleSave` skips it and leaves that page's rotation as the document had it, where the model applies 0.
- InteractiveEditor.EditorTool.RotatePage: an index past the end makes the source throw, while the model leaves the records unchanged.
- InteractiveEditor.ExportPages: a per-page overlay failure is swallowed by the source, and the model treats every overlay as drawn.
- OcrPdf.MapX: a canvas of zero width or height is excluded by a precondition, because the source then divides by zero. MapY, MapWidth, WordRun, TextLayer, DrawWords, OcrPages and HandleOcr carry the same precondition.
- ImageToPdf.FitImage: images of zero width or height are excluded by a precondition, because the source then divides by zero. ConvertImages and ImageToPdf.ImageTool.HandleConversion carry the same precondition.
- MergePdf.MergeTool.HandleSort: the indices are required to lie within the grid. Drag events only come from existing cards.
- ImageToPdf.ImageTool.OnDrop: the stored text is required to be a rendered index within the list. `DragStart` stores only such text.
- PdfToWord.WordTool.ProcessConversion: the file is required to be present, because the source reads `file!`.
- ExtractText.ExtractTool.HandleCopy: the two-second timer that resets the copied flag is not modelled.
- CompressPdf, the AI image and video screens, the chatbot, and the application's views and components are not part of this model.

## Findings

| source | as written | input that shows it | evidently intended | confidence | as-written member | corrected member |
|---|---|---|---|---|---|---|
| tools/InteractiveEditorPdf.tsx:292 | `copyPages(pdfDocToLoad, [pageData.originalPage.pageIndex])` reads `pageIndex` off the pdf.js page object, which in pdf.js 3.11 (App.tsx:19) exposes its position only as `pageNumber`, counted from 1; the read is `undefined`, `copyPages` finds no page and throws, and the catch at :322-324 reports the fatal-save error | any PDF with at least one page, saved from the editor | copy the page at `originalPage.pageNumber - 1`, the record's own position | medium, not executed; rests on the pdf.js page API, which is not part of this model | InteractiveEditor.AsWrittenSaveFails | InteractiveEditor.CorrectedExportAgrees |

=== FILE: base.dfy ===
/** Values shared by every tool screen: optional values, selected files and
    the downloads a successful operation hands to the browser. */
module Base {

  /** A value that may be absent (a JavaScript `null` or `undefined`). */
  datatype Option<+T> = None | Some(value: T)

  /** A file chosen by the user. `blob` stands for the file's bytes: two
      uploads with the same name but different contents differ in `blob`. */
  datatype File = File(name: string, mime: string, blob: nat)

  /** What a tool hands to the `download` helper: the payload, the file name
      offered to the user, and the MIME type. */
  datatype Download<C> = Download(content: C, name: string, mime: string)

  /** A page size in PDF points, as the PDF library reports it. */
  datatype Size = Size(width: real, height: real)

  const PdfMime: string := "application/pdf"
  const ZipMime: string := "application/zip"

  /** `x || 0` on a number that may be missing. */
  function OrZero(x: Option<int>): (r: int)
    ensures x.Some? && x.value != 0 ==> r == x.value
    ensures x.None? || x.value == 0 ==> r == 0
  {
    match x
    case Some(v) => v
    case None => 0
  }
}

=== FILE: editor.dfy ===
/** The interactive page editor: one record per page holding the scene drawn
    over it (as the canvas library's JSON string), the page it comes from and
    its rotation; page selection with a snapshot of the live canvas, deletion
    with index clamping, per-page rotation, and export. */
module InteractiveEditor {
  import opened Base
  import opened JsText
  import opened Lists
  import opened Rotation
  import opened FileNames

  /** One editor page. `originalPageIndex` stands for the pdf.js page object
      the record keeps: its position in the document counted from 0, which
      the page object exposes as `pageNumber - 1`. */
  datatype PageData = PageData(fabricJSON: string, thumbnail: string, originalPageIndex: nat, rotation: int)

  /** How loading the chosen file through the renderer went: the document
      could not be opened, or it opened and then reading or rendering one of
      its pages threw, or every page gave its `rotate` attribute and
      thumbnail. */
  datatype DocLoad = Unreadable | PageFailed | Opened(rotates: seq<Option<int>>, thumbnails: seq<string>)

  datatype EditorError = LoadFailed | SaveUnavailable | SaveFailed

  /** One page of the saved document: a copy of source page `sourcePageIndex`
      turned to `rotation`, with the scene drawn over it if there is one. */
  datatype OutputPage = OutputPage(sourcePageIndex: nat, rotation: int, overlay: Option<string>)

  datatype ShapeKind = Rect | Ellipse | Text

  /** A new canvas object: its kind, top-left corner and extent (the text
      object's extent depends on its font and is not fixed). */
  datatype Shape = Shape(kind: ShapeKind, left: real, top: real, width: Option<real>, height: Option<real>)

  const EditedSuffix: string := "_edited.pdf"

  // ---------------------------------------------------------------------------
  // Loading
  // ---------------------------------------------------------------------------

  /** The loading loop of `loadPdf`: one record per page, in page order, with an
      empty scene and the page's own rotation or 0. */
  method LoadPages(rotates: seq<Option<int>>, thumbnails: seq<string>) returns (data: seq<PageData>)
    requires |thumbnails| == |rotates|
    ensures |data| == |rotates|
    ensures forall i :: 0 <= i < |data| ==>
              data[i].fabricJSON == "" && data[i].originalPageIndex == i
              && data[i].rotation == OrZero(rotates[i]) && data[i].thumbnail == thumbnails[i]
    ensures PositionsWithin(data, |rotates|)
  {
    data := [];
    var i := 1;
    while i <= |rotates|
      invariant 1 <= i <= |rotates| + 1
      invariant |data| == i - 1
      invariant forall k :: 0 <= k < |data| ==>
                  data[k].fabricJSON == "" && data[k].originalPageIndex == k
                  && data[k].rotation == OrZero(rotates[k]) && data[k].thumbnail == thumbnails[k]
    {
      data := data + [PageData("", thumbnails[i - 1], i - 1, OrZero(rotates[i - 1]))];
      i := i + 1;
    }
  }

  // ---------------------------------------------------------------------------
  // Scene snapshots
  // ---------------------------------------------------------------------------

  /** `pages.map((d, idx) => idx === k ? { ...d, fabricJSON: json } : d)`. */
  function WithScene(pages: seq<PageData>, k: nat, json: string): (r: seq<PageData>)
    ensures |r| == |pages|
    ensures forall i :: 0 <= i < |r| && i != k ==> r[i] == pages[i]
    ensures k < |r| ==> r[k].fabricJSON == json && r[k].thumbnail == pages[k].thumbnail
                        && r[k].originalPageIndex == pages[k].originalPageIndex && r[k].rotation == pages[k].rotation
  {
    seq(|pages|, i requires 0 <= i < |pages| => if i == k then pages[i].(fabricJSON := json) else pages[i])
  }

  /** A snapshot committed for one page survives commits for other pages. */
  lemma SnapshotSurvivesOtherCommits(pages: seq<PageData>, k: nat, j: nat, a: string, b: string)
    requires k < |pages| && j != k
    ensures WithScene(WithScene(pages, k, a), j, b)[k].fabricJSON == a
  {
  }

  /** Committing twice for the same page keeps only the later snapshot. */
  lemma LaterCommitWins(pages: seq<PageData>, k: nat, a: string, b: string)
    ensures WithScene(WithScene(pages, k, a), k, b) == WithScene(pages, k, b)
  {
    var x := WithScene(WithScene(pages, k, a), k, b);
    var y := WithScene(pages, k, b);
    assert forall i :: 0 <= i < |x| ==> x[i] == y[i];
  }

  // ---------------------------------------------------------------------------
  // Deletion, rotation, shapes
  // ---------------------------------------------------------------------------

  /** The current index after a deletion leaves `newLength` pages: moved to the
      last page if it fell off the end, otherwise kept. */
  function ClampedIndex(current: nat, newLength: nat): (r: nat)
    ensures newLength > 0 ==> r < newLength
    ensures current < newLength || newLength == 0 ==> r == current
    ensures current >= newLength > 0 ==> r == newLength - 1
  {
    if current >= newLength && newLength > 0 then newLength - 1 else current
  }

  /** Every stored rotation is a quarter turn. */
  predicate AllQuarterTurns(pages: seq<PageData>) {
    forall i :: 0 <= i < |pages| ==> IsQuarterTurn(pages[i].rotation)
  }

  /** The record `handleRotatePage` stores: the new rotation and thumbnail. */
  function Rotated(p: PageData, degrees: int, thumbnail: string): (q: PageData)
    ensures q.fabricJSON == p.fabricJSON && q.originalPageIndex == p.originalPageIndex
    ensures q.thumbnail == thumbnail
    ensures q.rotation == Rotate(p.rotation, degrees)
    ensures IsQuarterTurn(p.rotation) && IsStep(degrees) ==> IsQuarterTurn(q.rotation)
    ensures 0 <= p.rotation < 360 && IsStep(degrees) ==> 0 <= q.rotation < 360
  {
    p.(rotation := Rotate(p.rotation, degrees), thumbnail := thumbnail)
  }

  /** `addShape`: rectangles and ellipses are 100 by 50 and centred on the
      canvas centre; text starts 50 left of and 15 above it. */
  function NewShape(kind: ShapeKind, cx: real, cy: real): (s: Shape)
    ensures s.kind == kind
    ensures kind != Text ==> s.width == Some(100.0) && s.height == Some(50.0)
                             && s.left + 50.0 == cx && s.top + 25.0 == cy
    ensures kind == Text ==> s.width.None? && s.left == cx - 50.0 && s.top == cy - 15.0
  {
    match kind
    case Rect => Shape(Rect, cx - 50.0, cy - 25.0, Some(100.0), Some(50.0))
    case Ellipse => Shape(Ellipse, cx - 50.0, cy - 25.0, Some(100.0), Some(50.0))
    case Text => Shape(Text, cx - 50.0, cy - 15.0, None, None)
  }

  // ---------------------------------------------------------------------------
  // Export
  // ---------------------------------------------------------------------------

  /** The output page for one record: a copy of its source page with its
      rotation, and an overlay only when its scene string is non-empty. */
  function OutputFor(p: PageData): (o: OutputPage)
    ensures o.sourcePageIndex == p.originalPageIndex && o.rotation == p.rotation
    ensures o.overlay.Some? <==> p.fabricJSON != ""
    ensures o.overlay.Some? ==> o.overlay.value == p.fabricJSON
  {
    OutputPage(p.originalPageIndex, p.rotation, if p.fabricJSON != "" then Some(p.fabricJSON) else None)
  }

  /** The export loop of `handleSave`: one output page per record, in record
      order. */
  method ExportPages(finalPages: seq<PageData>) returns (out: seq<OutputPage>)
    ensures |out| == |finalPages|
    ensures forall i :: 0 <= i < |out| ==> out[i] == OutputFor(finalPages[i])
  {
    out := [];
    var i := 0;
    while i < |finalPages|
      invariant 0 <= i <= |finalPages|
      invariant |out| == i
      invariant forall k :: 0 <= k < i ==> out[k] == OutputFor(finalPages[k])
    {
      var pageData := finalPages[i];
      var overlay: Option<string> := None;
      if pageData.fabricJSON != "" {
        overlay := Some(pageData.fabricJSON);
      }
      out := out + [OutputPage(pageData.originalPageIndex, pageData.rotation, overlay)];
      i := i + 1;
    }
  }

  // ---------------------------------------------------------------------------
  // The page index the export copies
  // ---------------------------------------------------------------------------

  /** The export loop as the source writes it. Each record's page is copied by
      the `pageIndex` property read off its pdf.js page object: `indexRead[i]`,
      `None` where the property is `undefined`. pdf-lib's `copyPages` finds no
      page of the `pageCount`-page document for a missing or out-of-range
      index and throws, and the whole save fails (`None`). */
  function ExportAsWritten(finalPages: seq<PageData>, indexRead: seq<Option<nat>>, pageCount: nat): (r: Option<seq<OutputPage>>)
    requires |indexRead| == |finalPages|
    ensures r.Some? <==> forall i :: 0 <= i < |finalPages| ==> indexRead[i].Some? && indexRead[i].value < pageCount
    ensures r.Some? ==> |r.value| == |finalPages|
    ensures r.Some? ==> forall i :: 0 <= i < |finalPages| ==>
              r.value[i] == OutputPage(indexRead[i].value, finalPages[i].rotation, OutputFor(finalPages[i]).overlay)
  {
    if finalPages == [] then Some([])
    else
      var k := |finalPages| - 1;
      var front := ExportAsWritten(finalPages[..k], indexRead[..k], pageCount);
      if front.None? || indexRead[k].None? || indexRead[k].value >= pageCount then None
      else Some(front.value + [OutputPage(indexRead[k].value, finalPages[k].rotation, OutputFor(finalPages[k]).overlay)])
  }

  /** `n` reads of a property the object does not have. */
  function UndefinedReads(n: nat): (r: seq<Option<nat>>)
    ensures |r| == n && forall i :: 0 <= i < n ==> r[i].None?
  {
    seq(n, _ => None)
  }

  /** The page objects of the pdf.js 3.11 renderer expose `pageNumber`, counted
      from 1, and no `pageIndex`: every read is `undefined`, so saving a
      document with any page at all fails with the fatal-save error. */
  lemma AsWrittenSaveFails(finalPages: seq<PageData>, pageCount: nat)
    requires finalPages != []
    ensures ExportAsWritten(finalPages, UndefinedReads(|finalPages|), pageCount).None?
  {
    assert UndefinedReads(|finalPages|)[0].None?;
  }

  /** The intended read: each page object's own position, `pageNumber - 1`. */
  function PositionsRead(pages: seq<PageData>): (r: seq<Option<nat>>)
    ensures |r| == |pages|
    ensures forall i :: 0 <= i < |pages| ==> r[i] == Some(pages[i].originalPageIndex)
  {
    seq(|pages|, i requires 0 <= i < |pages| => Some(pages[i].originalPageIndex))
  }

  /** Every record names a page of an `n`-page document. */
  predicate PositionsWithin(pages: seq<PageData>, n: nat) {
    forall i :: 0 <= i < |pages| ==> pages[i].originalPageIndex < n
  }

  /** With each page's position read, saving records of the document never
      fails for want of a page and copies exactly the pages `OutputFor` names:
      the export the rest of this model uses. */
  lemma CorrectedExportAgrees(finalPages: seq<PageData>, pageCount: nat)
    requires PositionsWithin(finalPages, pageCount)
    ensures ExportAsWritten(finalPages, PositionsRead(finalPages), pageCount).Some?
    ensures forall i :: 0 <= i < |finalPages| ==>
              ExportAsWritten(finalPages, PositionsRead(finalPages), pageCount).value[i] == OutputFor(finalPages[i])
  {
  }

  /** Committing a scene, rotating a page and deleting a page keep every
      record within the document `LoadPages` read them from. */
  lemma EditsKeepPositionsWithin(pages: seq<PageData>, n: nat, k: nat, json: string, degrees: int, thumbnail: string)
    requires PositionsWithin(pages, n)
    ensures PositionsWithin(WithScene(pages, k, json), n)
    ensures k < |pages| ==> PositionsWithin(pages[k := Rotated(pages[k], degrees, thumbnail)], n)
    ensures PositionsWithin(RemoveAt(pages, k), n)
  {
    var removed := RemoveAt(pages, k);
    forall i | 0 <= i < |removed| ensures removed[i].originalPageIndex < n {
      if i < k {
        assert removed[i] == pages[i];
      } else {
        assert removed[i] == pages[i + 1];
      }
    }
  }

  /** Saving right after a selection exports the live canvas for the current
      page and the stored scenes for all others. */
  lemma SaveExportsSnapshotOfCurrentPage(pages: seq<PageData>, current: nat, snapshot: string, i: nat)
    requires i < |pages|
    ensures OutputFor(WithScene(pages, current, snapshot)[i]).overlay ==
              if i == current then (if snapshot != "" then Some(snapshot) else None)
              else OutputFor(pages[i]).overlay
  {
  }

  // ---------------------------------------------------------------------------
  // The screen
  // ---------------------------------------------------------------------------

  class EditorTool {
    var file: Option<File>
    var hasDoc: bool
    var pagesData: seq<PageData>
    var currentPageIndex: nat
    var hasCanvas: bool
    var error: Option<EditorError>

    constructor ()
      ensures file == None && !hasDoc && pagesData == [] && currentPageIndex == 0
      ensures !hasCanvas && error == None
    {
      file := None;
      hasDoc := false;
      pagesData := [];
      currentPageIndex := 0;
      hasCanvas := false;
      error := None;
    }

    /** `onFilesSelected`: the first file replaces the document; the canvas is
        disposed and the pages are cleared. */
    method OnFilesSelected(files: seq<File>)
      modifies this`file, this`hasDoc, this`pagesData, this`currentPageIndex, this`hasCanvas
      ensures files == [] ==> file == old(file) && hasDoc == old(hasDoc) && pagesData == old(pagesData)
                              && currentPageIndex == old(currentPageIndex) && hasCanvas == old(hasCanvas)
      ensures files != [] ==> file == Some(files[0]) && !hasDoc && pagesData == [] && currentPageIndex == 0 && !hasCanvas
    {
      if |files| > 0 {
        hasCanvas := false;
        file := Some(files[0]);
        hasDoc := false;
        pagesData := [];
        currentPageIndex := 0;
      }
    }

    /** `loadPdf`: builds the records for the chosen file, or reports a file
        the renderer cannot read. A page that fails after the document opened
        leaves the document set (`setPdfDoc` has already run) and the records
        as they were. */
    method LoadPdf(load: DocLoad)
      requires load.Opened? ==> |load.thumbnails| == |load.rotates|
      modifies this`hasDoc, this`pagesData, this`error
      ensures file.None? ==> hasDoc == old(hasDoc) && pagesData == old(pagesData) && error == old(error)
      ensures file.Some? && load.Unreadable? ==>
                hasDoc == old(hasDoc) && pagesData == old(pagesData) && error == Some(LoadFailed)
      ensures file.Some? && load.PageFailed? ==> hasDoc && pagesData == old(pagesData) && error == Some(LoadFailed)
      ensures file.Some? && load.Opened? ==>
                hasDoc && error == old(error) && |pagesData| == |load.rotates|
                && forall i :: 0 <= i < |pagesData| ==>
                     pagesData[i].fabricJSON == "" && pagesData[i].originalPageIndex == i
                     && pagesData[i].rotation == OrZero(load.rotates[i])
    {
      if file.None? {
        return;
      }
      match load
      case Unreadable =>
        error := Some(LoadFailed);
      case PageFailed =>
        hasDoc := true;
        error := Some(LoadFailed);
      case Opened(rotates, thumbnails) =>
        hasDoc := true;
        var data := LoadPages(rotates, thumbnails);
        pagesData := data;
    }

    /** The canvas is created once pages exist and the page area is shown. */
    method InitCanvas()
      modifies this`hasCanvas
      ensures hasCanvas == (old(hasCanvas) || pagesData != [])
    {
      if pagesData != [] {
        hasCanvas := true;
      }
    }

    /** `handleSelectPage`: commits the live canvas `snapshot` to the current
        page and shows page `index`; selecting the current page, or selecting
        with no canvas, does nothing. */
    method SelectPage(index: nat, snapshot: string)
      modifies this`pagesData, this`currentPageIndex
      ensures index == old(currentPageIndex) || !hasCanvas ==>
                pagesData == old(pagesData) && currentPageIndex == old(currentPageIndex)
      ensures index != old(currentPageIndex) && hasCanvas ==>
                pagesData == WithScene(old(pagesData), old(currentPageIndex), snapshot) && currentPageIndex == index
    {
      if index == currentPageIndex || !hasCanvas {
        return;
      }
      pagesData := WithScene(pagesData, currentPageIndex, snapshot);
      currentPageIndex := index;
    }

    /** `handleDeletePage`: once confirmed, drops the record at `index`; the
        current index is clamped to the remaining pages, and deleting the
        last page clears the file. */
    method DeletePage(index: nat, confirmed: bool)
      modifies this`pagesData, this`currentPageIndex, this`file
      ensures !confirmed ==> pagesData == old(pagesData) && currentPageIndex == old(currentPageIndex) && file == old(file)
      ensures confirmed ==> pagesData == RemoveAt(old(pagesData), index)
                            && currentPageIndex == ClampedIndex(old(currentPageIndex), |pagesData|)
      ensures confirmed && pagesData != [] ==> currentPageIndex < |pagesData| && file == old(file)
      ensures confirmed && pagesData == [] ==> file == None
    {
      if confirmed {
        var newPages := RemoveAt(pagesData, index);
        if currentPageIndex >= |newPages| && |newPages| > 0 {
          currentPageIndex := |newPages| - 1;
        } else if |newPages| == 0 {
          file := None;
        }
        pagesData := newPages;
      }
    }

    /** `handleRotatePage`: turns one record by `degrees` and stores the new
        thumbnail; every other record is untouched. An index with no record
        makes the handler throw before it changes anything. */
    method RotatePage(index: nat, degrees: int, newThumbnail: string)
      modifies this`pagesData
      ensures index >= |old(pagesData)| ==> pagesData == old(pagesData)
      ensures index < |old(pagesData)| ==> pagesData == old(pagesData)[index := Rotated(old(pagesData)[index], degrees, newThumbnail)]
      ensures |pagesData| == |old(pagesData)|
      ensures IsStep(degrees) && old(AllQuarterTurns(pagesData)) ==> AllQuarterTurns(pagesData)
    {
      if index >= |pagesData| {
        return;
      }
      var pageData := pagesData[index];
      var newPagesData := pagesData;
      newPagesData := newPagesData[index := Rotated(pageData, degrees, newThumbnail)];
      pagesData := newPagesData;
    }

    /** `addShape`: with a canvas, the new object; without, nothing. */
    function AddShape(kind: ShapeKind, cx: real, cy: real): (s: Option<Shape>)
      reads this
      ensures s.Some? <==> hasCanvas
      ensures s.Some? ==> s.value == NewShape(kind, cx, cy)
    {
      if hasCanvas then Some(NewShape(kind, cx, cy)) else None
    }

    /** `handleSave`: commits the live canvas to a copy of the records (the
        stored records keep their old scene), then exports one page per record
        and names the result after the input. Each record's page is copied by
        its position, the corrected read of `CorrectedExportAgrees`. */
    method HandleSave(snapshot: string, libraryFails: bool) returns (out: Option<Download<seq<OutputPage>>>)
      modifies this`error
      ensures !hasCanvas || file.None? ==> out == None && error == Some(SaveUnavailable)
      ensures hasCanvas && file.Some? && libraryFails ==> out == None && error == Some(SaveFailed)
      ensures hasCanvas && file.Some? && !libraryFails ==>
                error == old(error) && out.Some?
                && out.value.name == OutputName(file.value.name, EditedSuffix) && out.value.mime == PdfMime
                && |out.value.content| == |pagesData|
                && forall i :: 0 <= i < |pagesData| ==>
                     out.value.content[i] == OutputFor(WithScene(pagesData, currentPageIndex, snapshot)[i])
    {
      if !hasCanvas || file.None? {
        error := Some(SaveUnavailable);
        return None;
      }
      var finalPagesData := WithScene(pagesData, currentPageIndex, snapshot);
      if libraryFails {
        error := Some(SaveFailed);
        return None;
      }
      var pages := ExportPages(finalPagesData);
      out := Some(Download(pages, OutputName(file.value.name, EditedSuffix), PdfMime));
    }
  }
}

=== FILE: extract_text.dfy ===
/** The extract-text tool: reads the text layer of every page; when the whole
    result is blank it falls back to recognising rendered pages; the text can
    then be downloaded as a `.txt` file or copied. */
module ExtractText {
  import opened Base
  import opened JsText
  import opened FileNames

  /** What ends every page's text. */
  const PageBreak: string := "\n\n"

  const TextMime: string := "text/plain"

  lemma PageBreakBlank()
    ensures IsBlank(PageBreak)
  {
  }

  /** One page of the text layer: its items' strings joined by spaces, then a
      blank line. */
  function PageText(items: seq<string>): (t: string)
    ensures IsBlank(t) <==> forall i :: 0 <= i < |items| ==> IsBlank(items[i])
  {
    JoinSpaceBlank(items);
    BlankConcat(Join(items, " "), PageBreak);
    Join(items, " ") + PageBreak
  }

  /** Whether every text item of every page is blank. */
  predicate AllItemsBlank(pages: seq<seq<string>>) {
    forall p, i :: 0 <= p < |pages| && 0 <= i < |pages[p]| ==> IsBlank(pages[p][i])
  }

  /** The whole text layer, page after page. */
  function LayerText(pages: seq<seq<string>>): string {
    if pages == [] then ""
    else LayerText(pages[..|pages| - 1]) + PageText(pages[|pages| - 1])
  }

  /** The text layer is blank exactly when every item of every page is, which
      is when the recognition fallback runs. */
  lemma {:induction false} LayerBlankIffItemsBlank(pages: seq<seq<string>>)
    ensures IsBlank(LayerText(pages)) <==> AllItemsBlank(pages)
  {
    if pages != [] {
      var k := |pages| - 1;
      LayerBlankIffItemsBlank(pages[..k]);
      BlankConcat(LayerText(pages[..k]), PageText(pages[k]));
      assert forall p :: 0 <= p < k ==> pages[..k][p] == pages[p];
    }
  }

  /** The first loop of `handleExtract`. */
  method ReadLayer(pages: seq<seq<string>>) returns (fullText: string)
    ensures fullText == LayerText(pages)
  {
    fullText := "";
    var i := 1;
    while i <= |pages|
      invariant 1 <= i <= |pages| + 1
      invariant fullText == LayerText(pages[..i - 1])
    {
      assert pages[..i][..i - 1] == pages[..i - 1];
      var pageText := Join(pages[i - 1], " ");
      fullText := fullText + pageText + PageBreak;
      i := i + 1;
    }
    assert pages[..i - 1] == pages;
  }

  /** The recognised text: for each page that had a canvas context
      (`Some`), its text followed by a blank line; pages without one are
      skipped. */
  function RecognisedText(pages: seq<Option<string>>): string {
    if pages == [] then ""
    else
      var k := |pages| - 1;
      RecognisedText(pages[..k]) + (if pages[k].Some? then pages[k].value + PageBreak else "")
  }

  /** The recognised text is blank exactly when every recognised page is. */
  lemma {:induction false} RecognisedBlankIffPagesBlank(pages: seq<Option<string>>)
    ensures IsBlank(RecognisedText(pages)) <==> forall p :: 0 <= p < |pages| && pages[p].Some? ==> IsBlank(pages[p].value)
  {
    if pages != [] {
      var k := |pages| - 1;
      var front := pages[..k];
      RecognisedBlankIffPagesBlank(front);
      var last := if pages[k].Some? then pages[k].value + PageBreak else "";
      assert RecognisedText(pages) == RecognisedText(front) + last;
      BlankConcat(RecognisedText(front), last);
      assert IsBlank(last) <==> pages[k].None? || IsBlank(pages[k].value) by {
        if pages[k].Some? {
          BlankConcat(pages[k].value, PageBreak);
        }
      }
      assert forall p :: 0 <= p < k ==> front[p] == pages[p];
    }
  }

  /** `runOcr`'s page loop. */
  method RunOcr(pages: seq<Option<string>>) returns (fullText: string)
    ensures fullText == RecognisedText(pages)
  {
    fullText := "";
    var i := 1;
    while i <= |pages|
      invariant 1 <= i <= |pages| + 1
      invariant fullText == RecognisedText(pages[..i - 1])
    {
      assert pages[..i][..i - 1] == pages[..i - 1];
      if pages[i - 1].None? {
        i := i + 1;
        continue;
      }
      fullText := fullText + pages[i - 1].value + PageBreak;
      i := i + 1;
    }
    assert pages[..i - 1] == pages;
  }

  datatype ExtractError = NoTextFound | ExtractFailed

  /** The decision of `handleExtract` once both texts are known: the layer
      text if it is not blank, otherwise the recognised text if that is not
      blank, otherwise the "no text" error. */
  function Outcome(layer: string, recognised: string): (r: Result)
    ensures r.Extracted? ==> !IsBlank(r.text)
    ensures r.Extracted? <==> !IsBlank(layer) || !IsBlank(recognised)
    ensures !IsBlank(layer) ==> r == Extracted(layer)
    ensures IsBlank(layer) && !IsBlank(recognised) ==> r == Extracted(recognised)
    ensures r.Failed? ==> r.err == NoTextFound
  {
    if !IsBlank(layer) then Extracted(layer)
    else if !IsBlank(recognised) then Extracted(recognised)
    else Failed(NoTextFound)
  }

  datatype Result = Extracted(text: string) | Failed(err: ExtractError)

  class ExtractTool {
    var file: Option<File>
    var isLoading: bool
    var status: string
    var error: Option<ExtractError>
    var extractedText: Option<string>
    var ocrProgress: nat
    var copied: bool

    /** The state of an idle screen with no file. */
    ghost predicate Cleared()
      reads this
    {
      file.None? && !isLoading && status == "" && error.None? && extractedText.None? && ocrProgress == 0 && !copied
    }

    constructor ()
      ensures Cleared()
    {
      file := None;
      isLoading := false;
      status := "";
      error := None;
      extractedText := None;
      ocrProgress := 0;
      copied := false;
    }

    /** `resetState`, also the "extract another file" button. */
    method ResetState()
      modifies this
      ensures Cleared()
    {
      file := None;
      isLoading := false;
      status := "";
      error := None;
      extractedText := None;
      ocrProgress := 0;
      copied := false;
    }

    /** `onFilesSelected`: a reset, then the first file. */
    method OnFilesSelected(files: seq<File>)
      modifies this
      ensures files == [] ==> file == old(file) && isLoading == old(isLoading) && status == old(status)
                              && error == old(error) && extractedText == old(extractedText)
                              && ocrProgress == old(ocrProgress) && copied == old(copied)
      ensures files != [] ==> file == Some(files[0]) && !isLoading && status == "" && error.None?
                              && extractedText.None? && ocrProgress == 0 && !copied
    {
      if |files| > 0 {
        ResetState();
        file := Some(files[0]);
      }
    }

    /** `handleExtract`: the text layer first, recognition only when it is
        blank. `pages` holds each page's text items, `recognised` what
        recognition gives for each page; `libraryFails` is any rejection along
        the way. Both loops run over the pages of the same document, so the
        two sequences are equally long. */
    method HandleExtract(pages: seq<seq<string>>, recognised: seq<Option<string>>, libraryFails: bool)
      requires |recognised| == |pages|
      modifies this`isLoading, this`status, this`error, this`extractedText, this`ocrProgress
      ensures old(file).None? ==> isLoading == old(isLoading) && status == old(status) && error == old(error)
                                  && extractedText == old(extractedText) && ocrProgress == old(ocrProgress)
      ensures old(file).Some? ==> !isLoading && status == "" && ocrProgress == 0
      ensures old(file).Some? && libraryFails ==> error == Some(ExtractFailed) && extractedText.None?
      ensures old(file).Some? && !libraryFails ==>
                match Outcome(LayerText(pages), RecognisedText(recognised))
                case Extracted(t) => extractedText == Some(t) && error.None?
                case Failed(e) => extractedText.None? && error == Some(e)
    {
      if file.None? {
        return;
      }
      isLoading := true;
      error := None;
      extractedText := None;
      if libraryFails {
        error := Some(ExtractFailed);
      } else {
        var fullText := ReadLayer(pages);
        var layer := fullText;
        if IsBlank(fullText) {
          fullText := RunOcr(recognised);
        }
        if IsBlank(fullText) {
          error := Some(NoTextFound);
        } else {
          extractedText := Some(fullText);
        }
        assert IsBlank(layer) ==> fullText == RecognisedText(recognised);
      }
      isLoading := false;
      status := "";
      ocrProgress := 0;
    }

    /** `handleDownload`: the text as stem + ".txt". An empty text is falsy
        in JavaScript and is refused like a missing one. */
    method HandleDownload() returns (out: Option<Download<string>>)
      ensures extractedText.None? || extractedText.value == "" || file.None? ==> out == None
      ensures extractedText.Some? && extractedText.value != "" && file.Some? ==>
                out == Some(Download(extractedText.value, OutputStem(file.value.name) + ".txt", TextMime))
    {
      if extractedText.None? || extractedText.value == "" || file.None? {
        return None;
      }
      out := Some(Download(extractedText.value, OutputStem(file.value.name) + ".txt", TextMime));
    }

    /** `handleCopy`: an empty text is falsy and nothing is written; otherwise
        the text goes to the clipboard, and the copied flag is set only when
        the clipboard accepts it (`accepted`); a rejected write leaves it. */
    method HandleCopy(accepted: bool)
      modifies this`copied
      ensures copied == (old(copied) || (accepted && extractedText.Some? && extractedText.value != ""))
    {
      if extractedText.Some? && extractedText.value != "" && accepted {
        copied := true;
      }
    }
  }
}

=== FILE: file_names.dfy ===
/** How the tools name what they produce: the output stem every tool derives
    with `name.replace('.pdf', '')`, the per-page archive entry names, and the
    MIME tests on selected files. */
module FileNames {
  import opened Base
  import opened JsText

  /** The stem every tool builds its output name from: `name.replace('.pdf', '')`.
      A string pattern makes `replace` remove the FIRST occurrence of ".pdf",
      wherever it stands, and nothing else. */
  function OutputStem(name: string): (stem: string)
    ensures !Contains(name, ".pdf") ==> stem == name
    ensures Contains(name, ".pdf") ==> |stem| == |name| - 4
  {
    ReplaceFirst(name, ".pdf", "")
  }

  /** The download name of a tool: stem followed by a fixed suffix such as
      "_split.zip" or "_rotated.pdf". */
  function OutputName(name: string, suffix: string): (r: string)
    ensures EndsWith(r, suffix)
    ensures |r| == |OutputStem(name)| + |suffix| && r[..|OutputStem(name)|] == OutputStem(name)
    ensures !Contains(name, ".pdf") ==> r == name + suffix
    ensures Contains(name, ".pdf") ==> |r| == |name| - 4 + |suffix|
  {
    var r := OutputStem(name) + suffix;
    assert r[|r| - |suffix|..] == suffix;
    r
  }

  /** For a name `a + ".pdf" + b` where `a` holds no ".pdf", the stem is `a + b`:
      only the first ".pdf" goes, and any later one stays. */
  lemma StemCutsFirstPdf(a: string, b: string)
    requires !Contains(a, ".pdf")
    ensures OutputStem(a + ".pdf" + b) == a + b
  {
    var n := a + ".pdf" + b;
    assert n[|a|..|a| + 4] == ".pdf";
    assert OccursAt(n, ".pdf", |a|);
    forall k: nat | k < |a| ensures !OccursAt(n, ".pdf", k) {
      if k + 4 <= |a| {
        assert n[k..k + 4] == a[k..k + 4];
        assert !OccursAt(a, ".pdf", k);
      } else {
        assert n[k..k + 4][|a| - k] == n[|a|] == '.';
        assert ".pdf"[|a| - k] != '.';
      }
    }
    ReplaceFirstAt(n, ".pdf", "", |a|);
    assert n[..|a|] == a;
    assert n[|a| + 4..] == b;
  }

  /** The common case: stripping a name that ends in its only ".pdf". */
  lemma StemOfPdfName(a: string)
    requires !Contains(a, ".pdf")
    ensures OutputStem(a + ".pdf") == a
  {
    StemCutsFirstPdf(a, "");
    assert a + ".pdf" + "" == a + ".pdf";
    assert a + "" == a;
  }

  /** `page_${n}.${ext}`, the archive entry name of page `n`. */
  function PageEntryName(n: nat, ext: string): (r: string)
    ensures StartsWith(r, "page_") && EndsWith(r, "." + ext)
    ensures |r| >= 7 + |ext|
    ensures var digits := r[5..|r| - |ext| - 1];
            digits == NatToString(n)
  {
    var d := NatToString(n);
    var r := "page_" + d + "." + ext;
    assert r[..5] == "page_";
    assert r[|r| - |"." + ext|..] == "." + ext;
    assert r[5..5 + |d|] == d;
    r
  }

  /** The digits of an entry name parse back to its page number. */
  lemma PageEntryNameReadsBack(n: nat, ext: string)
    ensures var r := PageEntryName(n, ext);
            var digits := r[5..|r| - |ext| - 1];
            && (forall i :: 0 <= i < |digits| ==> '0' <= digits[i] <= '9')
            && ParseDecimal(digits) == n
  {
    ParseRendered(n);
  }

  /** Different page numbers give different entry names, so no archive entry
      overwrites another. */
  lemma EntryNamesDistinct(a: nat, b: nat, ext: string)
    requires a != b
    ensures PageEntryName(a, ext) != PageEntryName(b, ext)
  {
    var sa, sb := NatToString(a), NatToString(b);
    NatToStringInjective(a, b);
    DigitRunsDiffer(sa, sb, "." + ext);
    PrefixKeepsDifference("page_", sa + ("." + ext), sb + ("." + ext));
    assert PageEntryName(a, ext) == "page_" + (sa + ("." + ext));
    assert PageEntryName(b, ext) == "page_" + (sb + ("." + ext));
  }

  /** `f.type.startsWith('image/')`. */
  predicate IsImageMime(mime: string) {
    StartsWith(mime, "image/")
  }
}

=== FILE: gemini.dfy ===
/** The service that talks to the remote model: a lazily created, cached
    client; conversion of extracted text into a Word-compatible HTML document;
    chat; and the image endpoints, which return data URLs. The remote calls
    themselves are parameters: what the model replied, or what it threw. */
module Gemini {
  import opened Base
  import opened JsText

  // ---------------------------------------------------------------------------
  // Thrown values and results
  // ---------------------------------------------------------------------------

  /** A value a JavaScript `throw` can carry: an `Error` with its message, or
      any other value with its `String(...)` rendering. */
  datatype Thrown = ErrorObject(message: string) | OtherValue(repr: string)

  /** A call that either returns a value or throws. */
  datatype Outcome<T> = Ok(value: T) | Threw(thrown: Thrown)

  /** The catch blocks of `convertTextToHtml` and `getChatResponse`: an
      `Error` is rethrown as it is, anything else is wrapped in a new `Error`
      whose message is `prefix` followed by the value's rendering. */
  function WrapThrown(prefix: string, t: Thrown): (r: Thrown)
    ensures r.ErrorObject?
    ensures t.ErrorObject? ==> r == t
    ensures t.OtherValue? ==> r.message == prefix + t.repr
  {
    match t
    case ErrorObject(_) => t
    case OtherValue(repr) => ErrorObject(prefix + repr)
  }

  /** Wrapping twice is wrapping once. */
  lemma WrapIdempotent(prefix: string, t: Thrown)
    ensures WrapThrown(prefix, WrapThrown(prefix, t)) == WrapThrown(prefix, t)
  {
  }

  const ConvertFailurePrefix: string := "Failed to convert text to HTML using Gemini API. Reason: "
  const ChatFailurePrefix: string := "Failed to get a response from the AI assistant. Reason: "
  const NoImageMessage: string := "No image was generated by the model."

  /** The message thrown when no API key is configured. */
  const MissingKeyMessage: string :=
    "\U{0645}\U{0641}\U{062A}\U{0627}\U{062D} API \U{0627}\U{0644}\U{062E}\U{0627}\U{0635} \U{0628}\U{0640} Gemini "
    + "\U{063A}\U{064A}\U{0631} \U{0645}\U{064F}\U{0639}\U{062F}. \U{064A}\U{0631}\U{062C}\U{0649} "
    + "\U{0625}\U{0639}\U{062F}\U{0627}\U{062F} \U{0645}\U{062A}\U{063A}\U{064A}\U{0631} "
    + "\U{0627}\U{0644}\U{0628}\U{064A}\U{0626}\U{0629} API_KEY \U{0641}\U{064A} \U{062E}\U{062F}\U{0645}\U{0629} "
    + "\U{0627}\U{0644}\U{0627}\U{0633}\U{062A}\U{0636}\U{0627}\U{0641}\U{0629} "
    + "\U{0627}\U{0644}\U{062E}\U{0627}\U{0635}\U{0629} \U{0628}\U{0643} (\U{0645}\U{062B}\U{0644} Netlify "
    + "\U{0623}\U{0648} Vercel) \U{062B}\U{0645} \U{0625}\U{0639}\U{0627}\U{062F}\U{0629} "
    + "\U{0646}\U{0634}\U{0631} \U{0627}\U{0644}\U{0645}\U{0648}\U{0642}\U{0639}."

  // ---------------------------------------------------------------------------
  // Data URLs
  // ---------------------------------------------------------------------------

  /** `s.split(sep)` for a one-character separator. */
  function Split(s: string, sep: char): (parts: seq<string>)
    ensures |parts| >= 1
    ensures forall i, j :: 0 <= i < |parts| && 0 <= j < |parts[i]| ==> parts[i][j] != sep
  {
    if s == [] then [""]
    else if s[0] == sep then [""] + Split(s[1..], sep)
    else
      var rest := Split(s[1..], sep);
      [[s[0]] + rest[0]] + rest[1..]
  }

  /** Joining the parts with the separator gives back the string. */
  lemma {:induction false} SplitJoin(s: string, sep: char)
    ensures Join(Split(s, sep), [sep]) == s
  {
    if s != [] {
      SplitJoin(s[1..], sep);
      var rest := Split(s[1..], sep);
      if s[0] != sep && |rest| > 1 {
        assert Split(s, sep)[1..] == rest[1..];
      }
    }
  }

  /** A string without the separator splits into itself alone. */
  lemma {:induction false} SplitWithoutSep(s: string, sep: char)
    requires forall i :: 0 <= i < |s| ==> s[i] != sep
    ensures Split(s, sep) == [s]
  {
    if s != [] {
      SplitWithoutSep(s[1..], sep);
      assert [s[0]] + s[1..] == s;
    }
  }

  /** Splitting `a + sep + b`, where `a` has no separator, gives `a` followed
      by the parts of `b`. */
  lemma {:induction false} SplitAtFirst(a: string, b: string, sep: char)
    requires forall i :: 0 <= i < |a| ==> a[i] != sep
    ensures Split(a + [sep] + b, sep) == [a] + Split(b, sep)
  {
    if a == [] {
      assert a + [sep] + b == [sep] + b;
      assert ([sep] + b)[1..] == b;
    } else {
      var s := a + [sep] + b;
      assert s[0] == a[0] && s[1..] == a[1..] + [sep] + b;
      SplitAtFirst(a[1..], b, sep);
      assert [a[0]] + a[1..] == a;
    }
  }

  /** `data:${mimeType};base64,${data}`. */
  function DataUrl(mime: string, data: string): string {
    "data:" + mime + ";base64," + data
  }

  /** `fileToBase64`: the part of a data URL after its first comma, up to the
      next one (`result.split(',')[1]`); `None` stands for `undefined`, when
      there is no comma. */
  function FileToBase64(dataUrl: string): (r: Option<string>)
    ensures r.Some? ==> forall i :: 0 <= i < |r.value| ==> r.value[i] != ','
  {
    var parts := Split(dataUrl, ',');
    if |parts| > 1 then Some(parts[1]) else None
  }

  /** Reading back a data URL whose MIME type and payload hold no comma gives
      the payload. */
  lemma FileToBase64OfDataUrl(mime: string, data: string)
    requires forall i :: 0 <= i < |mime| ==> mime[i] != ','
    requires forall i :: 0 <= i < |data| ==> data[i] != ','
    ensures FileToBase64(DataUrl(mime, data)) == Some(data)
  {
    var head := "data:" + mime + ";base64";
    assert DataUrl(mime, data) == head + [','] + data;
    forall i | 0 <= i < |head| ensures head[i] != ',' {
      if 5 <= i < 5 + |mime| {
        assert head[i] == mime[i - 5];
      }
    }
    SplitAtFirst(head, data, ',');
    SplitWithoutSep(data, ',');
  }

  /** An inline part of a request or a response: base64 data and its MIME
      type. */
  datatype InlineData = InlineData(data: Option<string>, mimeType: string)

  /** `fileToGenerativePart`: the file's data URL read back as base64, with
      the file's own type. */
  function FileToGenerativePart(file: File, dataUrl: string): (p: InlineData)
    ensures p.mimeType == file.mime
    ensures forall m, d :: (dataUrl == DataUrl(m, d) && (forall i :: 0 <= i < |m| ==> m[i] != ',')
                            && (forall i :: 0 <= i < |d| ==> d[i] != ',')) ==> p.data == Some(d)
  {
    forall m, d | dataUrl == DataUrl(m, d) && (forall i :: 0 <= i < |m| ==> m[i] != ',')
                  && (forall i :: 0 <= i < |d| ==> d[i] != ',')
      ensures FileToBase64(dataUrl) == Some(d)
    {
      FileToBase64OfDataUrl(m, d);
    }
    InlineData(FileToBase64(dataUrl), file.mime)
  }

  // ---------------------------------------------------------------------------
  // Word documents
  // ---------------------------------------------------------------------------

  /** The fixed text before the body content in `createWordHtmlTemplate`. */
  const WordPrefix: string :=
    "\n<html xmlns:w=\"urn:schemas-microsoft-com:office:word\" xmlns=\"http://www.w3.org/TR/REC-html40\">\n"
    + "<head>\n<meta charset=\"UTF-8\">\n<meta name=ProgId content=Word.Document>\n"
    + "<meta name=Generator content=\"PDF Galaxy Pro\">\n<title>Converted Document</title>\n<style>\n<!--\n"
    + "@page WordSection1 {\n    size: 8.5in 11.0in;\n    margin: 1.0in 1.0in 1.0in 1.0in;\n}\n"
    + "div.WordSection1 {\n    page: WordSection1;\n}\n"
    + "body {\n    direction: rtl;\n    font-family: \"Arial\", sans-serif;\n    font-size: 12pt;\n}\n"
    + "p {\n    margin: 0 0 10pt 0;\n}\n"
    + "h1, h2, h3, h4, h5, h6 {\n    font-family: \"Arial\", sans-serif;\n    font-weight: bold;\n}\n"
    + "-->\n</style>\n</head>\n<body lang=\"AR-SA\">\n<div class=\"WordSection1\">\n"

  /** The fixed text after the body content. */
  const WordSuffix: string := "\n</div>\n</body>\n</html>\n"

  /** `createWordHtmlTemplate`. */
  function WordHtmlTemplate(content: string): (html: string)
    ensures StartsWith(html, WordPrefix) && EndsWith(html, WordSuffix)
    ensures |html| == |WordPrefix| + |content| + |WordSuffix|
  {
    var html := WordPrefix + content + WordSuffix;
    assert html[..|WordPrefix|] == WordPrefix;
    assert html[|html| - |WordSuffix|..] == WordSuffix;
    html
  }

  /** The body content of a document built from the template. */
  function WordBody(html: string): (body: Option<string>)
    ensures body.Some? ==> |html| == |WordPrefix| + |body.value| + |WordSuffix|
  {
    if |html| >= |WordPrefix| + |WordSuffix| && StartsWith(html, WordPrefix) && EndsWith(html, WordSuffix) then
      Some(html[|WordPrefix|..|html| - |WordSuffix|])
    else None
  }

  /** The template wraps the content without altering it: it can be read
      back exactly, so two different contents give two different documents. */
  lemma WordBodyOfTemplate(content: string)
    ensures WordBody(WordHtmlTemplate(content)) == Some(content)
  {
    var html := WordHtmlTemplate(content);
    assert html[|WordPrefix|..|html| - |WordSuffix|] == content;
  }

  // ---------------------------------------------------------------------------
  // Code fences
  // ---------------------------------------------------------------------------

  const OpeningFence: string := "```html"
  const ClosingFence: string := "```"

  /** `.replace(/^```html\n?/, '')`. */
  function StripOpeningFence(s: string): (r: string)
    ensures StartsWith(s, OpeningFence + "\n") ==> r == s[|OpeningFence| + 1..]
    ensures StartsWith(s, OpeningFence) && !StartsWith(s, OpeningFence + "\n") ==> r == s[|OpeningFence|..]
    ensures !StartsWith(s, OpeningFence) ==> r == s
  {
    if StartsWith(s, OpeningFence + "\n") then s[|OpeningFence| + 1..]
    else if StartsWith(s, OpeningFence) then s[|OpeningFence|..]
    else s
  }

  /** `.replace(/\n?```$/, '')`. */
  function StripClosingFence(s: string): (r: string)
    ensures EndsWith(s, "\n" + ClosingFence) ==> r == s[..|s| - |ClosingFence| - 1]
    ensures EndsWith(s, ClosingFence) && !EndsWith(s, "\n" + ClosingFence) ==> r == s[..|s| - |ClosingFence|]
    ensures !EndsWith(s, ClosingFence) ==> r == s
  {
    if EndsWith(s, "\n" + ClosingFence) then s[..|s| - |ClosingFence| - 1]
    else if EndsWith(s, ClosingFence) then s[..|s| - |ClosingFence|]
    else s
  }

  /** The body content `convertTextToHtml` takes from the model's reply:
      trimmed, then without a leading "```html" fence and a trailing "```"
      fence. */
  function StripFences(reply: string): string {
    StripClosingFence(StripOpeningFence(Trim(reply)))
  }

  /** A fenced reply gives back exactly what was between the fences. */
  lemma StripFencedReply(body: string)
    ensures StripFences(OpeningFence + "\n" + body + "\n" + ClosingFence) == body
  {
    var s := OpeningFence + "\n" + body + "\n" + ClosingFence;
    assert s[0] == '`' && s[|s| - 1] == '`';
    TrimKeepsUnpadded(s);
    assert s[..|OpeningFence| + 1] == OpeningFence + "\n";
    var t := s[|OpeningFence| + 1..];
    assert t == body + "\n" + ClosingFence;
    assert t[|t| - 4..] == "\n" + ClosingFence;
    assert t[..|t| - 4] == body;
  }

  /** A reply without fences is only trimmed. */
  lemma UnfencedReplyOnlyTrimmed(reply: string)
    requires !StartsWith(Trim(reply), "`") && !EndsWith(Trim(reply), "`")
    ensures StripFences(reply) == Trim(reply)
  {
    var t := Trim(reply);
    assert t == [] || t[..1] == [t[0]];
    assert !StartsWith(t, OpeningFence) by {
      if |t| >= |OpeningFence| {
        assert t[..|OpeningFence|][0] == t[0];
      }
    }
    assert t == [] || t[|t| - 1..] == [t[|t| - 1]];
    assert !EndsWith(t, ClosingFence) by {
      if |t| >= |ClosingFence| {
        assert t[|t| - |ClosingFence|..][|ClosingFence| - 1] == t[|t| - 1];
      }
    }
  }

  // ---------------------------------------------------------------------------
  // Endpoints without a client
  // ---------------------------------------------------------------------------

  /** A part of the image-editing reply. */
  datatype Part = Part(inlineData: Option<InlineData>)

  /** The index of the first part with inline data, if any. */
  function FirstInline(parts: seq<Part>): (r: Option<nat>)
    ensures r.Some? ==> r.value < |parts| && parts[r.value].inlineData.Some?
                        && forall k :: 0 <= k < r.value ==> parts[k].inlineData.None?
    ensures r.None? ==> forall k :: 0 <= k < |parts| ==> parts[k].inlineData.None?
  {
    if parts == [] then None
    else if parts[0].inlineData.Some? then Some(0)
    else
      var rest := FirstInline(parts[1..]);
      if rest.Some? then Some(rest.value + 1) else None
  }

  /** The data URL built from an inline part; a missing payload renders as
      "undefined", as a template literal does. */
  function InlineDataUrl(d: InlineData): string {
    DataUrl(d.mimeType, if d.data.Some? then d.data.value else "undefined")
  }

  /** The loop at the end of `editImage`: the first part with inline data
      becomes a data URL; with none, the "no image" error. */
  method EditedImage(parts: seq<Part>) returns (r: Outcome<string>)
    ensures FirstInline(parts).Some? ==> r == Ok(InlineDataUrl(parts[FirstInline(parts).value].inlineData.value))
    ensures FirstInline(parts).None? ==> r == Threw(ErrorObject(NoImageMessage))
  {
    for i := 0 to |parts|
      invariant forall k :: 0 <= k < i ==> parts[k].inlineData.None?
    {
      if parts[i].inlineData.Some? {
        return Ok(InlineDataUrl(parts[i].inlineData.value));
      }
    }
    return Threw(ErrorObject(NoImageMessage));
  }

  /** The message of the TypeError a property read on `undefined` throws
      (the wording is the V8 engine's). */
  const UndefinedImageMessage: string := "Cannot read properties of undefined (reading 'image')"

  /** The image endpoint's result: the first generated image's bytes as a
      JPEG data URL. An empty list makes the property access throw a
      TypeError, which is an `Error` object. */
  function GeneratedImage(imageBytes: seq<string>): (r: Outcome<string>)
    ensures r.Ok? <==> imageBytes != []
    ensures r.Ok? ==> r.value == DataUrl("image/jpeg", imageBytes[0])
    ensures imageBytes == [] ==> r.Threw? && r.thrown.ErrorObject?
  {
    if imageBytes == [] then Threw(ErrorObject(UndefinedImageMessage)) else Ok(DataUrl("image/jpeg", imageBytes[0]))
  }

  /** A generated image's payload can be read back from its data URL. */
  lemma GeneratedImageReadsBack(imageBytes: seq<string>)
    requires imageBytes != [] && forall i :: 0 <= i < |imageBytes[0]| ==> imageBytes[0][i] != ','
    ensures FileToBase64(GeneratedImage(imageBytes).value) == Some(imageBytes[0])
  {
    FileToBase64OfDataUrl("image/jpeg", imageBytes[0]);
  }

  // ---------------------------------------------------------------------------
  // The client and the text endpoints
  // ---------------------------------------------------------------------------

  /** A client created with an API key. */
  datatype Client = Client(apiKey: string)

  class GeminiService {
    /** The module-level `ai` variable. */
    var ai: Option<Client>

    constructor ()
      ensures ai == None
    {
      ai := None;
    }

    /** `getAiClient`: the cached client if there is one; otherwise a new
        client from a non-empty key, which is then cached; with no key, the
        missing-key error and nothing cached. */
    method GetAiClient(apiKey: Option<string>) returns (r: Outcome<Client>)
      modifies this
      ensures old(ai).Some? ==> r == Ok(old(ai).value) && ai == old(ai)
      ensures old(ai).None? && (apiKey.None? || apiKey.value == "") ==>
                r == Threw(ErrorObject(MissingKeyMessage)) && ai == None
      ensures old(ai).None? && apiKey.Some? && apiKey.value != "" ==>
                r == Ok(Client(apiKey.value)) && ai == Some(Client(apiKey.value))
    {
      if ai.Some? {
        return Ok(ai.value);
      }
      if apiKey.None? || apiKey.value == "" {
        return Threw(ErrorObject(MissingKeyMessage));
      }
      ai := Some(Client(apiKey.value));
      r := Ok(ai.value);
    }

    /** `convertTextToHtml`: `reply` is what the model answered, or what the
        request threw. The answer's fenced body is wrapped in the Word
        template; whatever was thrown leaves as an `Error`. */
    method ConvertTextToHtml(apiKey: Option<string>, reply: Outcome<string>) returns (r: Outcome<string>)
      modifies this
      ensures old(ai).Some? ==> ai == old(ai)
      ensures old(ai).None? && (apiKey.None? || apiKey.value == "") ==> ai == None
      ensures old(ai).None? && apiKey.Some? && apiKey.value != "" ==> ai == Some(Client(apiKey.value))
      ensures r.Threw? ==> r.thrown.ErrorObject?
      ensures old(ai).None? && (apiKey.None? || apiKey.value == "") ==> r == Threw(ErrorObject(MissingKeyMessage))
      ensures (old(ai).Some? || (apiKey.Some? && apiKey.value != "")) && reply.Ok? ==>
                r == Ok(WordHtmlTemplate(StripFences(reply.value)))
      ensures (old(ai).Some? || (apiKey.Some? && apiKey.value != "")) && reply.Threw? ==>
                r == Threw(WrapThrown(ConvertFailurePrefix, reply.thrown))
    {
      var client := GetAiClient(apiKey);
      if client.Threw? {
        return Threw(WrapThrown(ConvertFailurePrefix, client.thrown));
      }
      if reply.Threw? {
        return Threw(WrapThrown(ConvertFailurePrefix, reply.thrown));
      }
      var bodyContent := Trim(reply.value);
      bodyContent := StripClosingFence(StripOpeningFence(bodyContent));
      r := Ok(WordHtmlTemplate(bodyContent));
    }

    /** `getChatResponse`: the trimmed answer, or what was thrown as an
        `Error`. */
    method GetChatResponse(apiKey: Option<string>, reply: Outcome<string>) returns (r: Outcome<string>)
      modifies this
      ensures old(ai).Some? ==> ai == old(ai)
      ensures old(ai).None? && (apiKey.None? || apiKey.value == "") ==> ai == None
      ensures old(ai).None? && apiKey.Some? && apiKey.value != "" ==> ai == Some(Client(apiKey.value))
      ensures r.Threw? ==> r.thrown.ErrorObject?
      ensures old(ai).None? && (apiKey.None? || apiKey.value == "") ==> r == Threw(ErrorObject(MissingKeyMessage))
      ensures (old(ai).Some? || (apiKey.Some? && apiKey.value != "")) && reply.Ok? ==> r == Ok(Trim(reply.value))
      ensures (old(ai).Some? || (apiKey.Some? && apiKey.value != "")) && reply.Threw? ==>
                r == Threw(WrapThrown(ChatFailurePrefix, reply.thrown))
    {
      var client := GetAiClient(apiKey);
      if client.Threw? {
        return Threw(WrapThrown(ChatFailurePrefix, client.thrown));
      }
      if reply.Threw? {
        return Threw(WrapThrown(ChatFailurePrefix, reply.thrown));
      }
      r := Ok(Trim(reply.value));
    }
  }
}

=== FILE: image_to_pdf.dfy ===
/** The image-to-PDF tool: an ordered list of selected images (append, remove,
    drag to reorder) and a conversion that puts each JPEG or PNG on its own
    A4 or Letter page, scaled to fit and centred. */
module ImageToPdf {
  import opened Base
  import opened JsText
  import opened Lists
  import opened FileNames

  datatype PageSize = A4 | Letter
  datatype Orientation = Portrait | Landscape

  /** The pixel size the PDF library reports for an embedded image. */
  datatype Dims = Dims(width: real, height: real)

  /** Where an image is drawn: lower-left corner and drawn size. */
  datatype Placement = Placement(x: real, y: real, width: real, height: real)

  /** One page of the result: its size and the image drawn on it. */
  datatype ImagePage = ImagePage(image: File, pageWidth: real, pageHeight: real, placement: Placement)

  datatype ImageError = NoImages | ConversionFailed

  const ConvertedName: string := "converted-images.pdf"
  const JpegMime: string := "image/jpeg"
  const PngMime: string := "image/png"

  // ---------------------------------------------------------------------------
  // The file list
  // ---------------------------------------------------------------------------

  predicate IsImage(f: File) {
    IsImageMime(f.mime)
  }

  /** `selectedFiles.filter(f => f.type.startsWith('image/'))`. */
  function ImageFiles(selected: seq<File>): (r: seq<File>)
    ensures |r| <= |selected|
    ensures forall f :: f in r <==> f in selected && IsImageMime(f.mime)
  {
    Filter(selected, IsImage)
  }

  /** The images keep the order in which they were selected: the filter works
      piece by piece, and one file passes exactly when it is an image. */
  lemma ImageFilesInOrder(a: seq<File>, b: seq<File>, f: File)
    ensures ImageFiles(a + b) == ImageFiles(a) + ImageFiles(b)
    ensures ImageFiles([f]) == if IsImageMime(f.mime) then [f] else []
  {
    FilterConcat(a, b, IsImage);
    FilterSingle(f, IsImage);
  }

  /** The drop handler's edit: take the dragged element out of a copy of the
      list and insert it again at the drop index. */
  method MoveFile(files: seq<File>, draggedIndex: nat, dropIndex: nat) returns (newFiles: seq<File>)
    requires draggedIndex < |files| && dropIndex < |files|
    ensures newFiles == Moved(files, draggedIndex, dropIndex)
    ensures |newFiles| == |files| && multiset(newFiles) == multiset(files)
    ensures newFiles[dropIndex] == files[draggedIndex]
  {
    newFiles := files;
    var draggedItem := newFiles[draggedIndex];
    newFiles := newFiles[..draggedIndex] + newFiles[draggedIndex + 1..];
    newFiles := newFiles[..dropIndex] + [draggedItem] + newFiles[dropIndex..];
    MovedPermutation(files, draggedIndex, dropIndex);
    MovedAt(files, draggedIndex, dropIndex, dropIndex);
  }

  // ---------------------------------------------------------------------------
  // Page geometry
  // ---------------------------------------------------------------------------

  /** `PAGE_SIZES`, turned on its side for landscape. */
  function PageDims(size: PageSize, orientation: Orientation): (d: Dims)
    ensures d.width > 0.0 && d.height > 0.0
    ensures size == A4 && orientation == Portrait ==> d == Dims(595.28, 841.89)
    ensures size == Letter && orientation == Portrait ==> d == Dims(612.0, 792.0)
    ensures orientation == Portrait ==> d.width < d.height
    ensures orientation == Landscape ==> d.width > d.height
  {
    var portrait := match size
      case A4 => Dims(595.28, 841.89)
      case Letter => Dims(612.0, 792.0);
    if orientation == Portrait then portrait else Dims(portrait.height, portrait.width)
  }

  /** Landscape is portrait with width and height exchanged. */
  lemma LandscapeSwapsPortrait(size: PageSize)
    ensures PageDims(size, Landscape) == Dims(PageDims(size, Portrait).height, PageDims(size, Portrait).width)
  {
  }

  /** The fit-and-centre arithmetic of `handleConversion`: the image is scaled
      to the page width if it is relatively wider than the page, otherwise to
      the page height, and centred. */
  function FitImage(page: Dims, image: Dims): (p: Placement)
    requires page.width > 0.0 && page.height > 0.0 && image.width > 0.0 && image.height > 0.0
    ensures 0.0 < p.width <= page.width && 0.0 < p.height <= page.height
    ensures p.width * image.height == p.height * image.width
    ensures p.width == page.width || p.height == page.height
    ensures p.x >= 0.0 && p.y >= 0.0
    ensures p.x + p.width + p.x == page.width && p.y + p.height + p.y == page.height
  {
    var pageAspectRatio := page.width / page.height;
    var imageAspectRatio := image.width / image.height;
    var scaledWidth := if imageAspectRatio > pageAspectRatio then page.width else page.height * imageAspectRatio;
    var scaledHeight := if imageAspectRatio > pageAspectRatio then page.width / imageAspectRatio else page.height;
    FitBounds(page, image);
    Placement((page.width - scaledWidth) / 2.0, (page.height - scaledHeight) / 2.0, scaledWidth, scaledHeight)
  }

  /** The two branches of the fit: scaling to the width never overflows the
      height, and scaling to the height never overflows the width. */
  lemma FitBounds(page: Dims, image: Dims)
    requires page.width > 0.0 && page.height > 0.0 && image.width > 0.0 && image.height > 0.0
    ensures var ia, pa := image.width / image.height, page.width / page.height;
            && (ia > pa ==>
                  0.0 < page.width / ia <= page.height && page.width * image.height == (page.width / ia) * image.width)
            && (!(ia > pa) ==>
                  0.0 < page.height * ia <= page.width && (page.height * ia) * image.height == page.height * image.width)
  {
    var ia, pa := image.width / image.height, page.width / page.height;
    assert ia * image.height == image.width;
    assert pa * page.height == page.width;
    if ia > pa {
      var sh := page.width / ia;
      assert sh * ia == page.width;
      assert sh * ia <= page.height * ia by {
        assert page.width == pa * page.height;
        assert pa * page.height <= ia * page.height;
      }
      assert sh <= page.height;
      assert sh * image.width == sh * ia * image.height;
    } else {
      assert page.height * ia <= page.height * pa;
    }
  }

  /** The types the conversion embeds; every other image is skipped. */
  predicate Embeddable(f: File) {
    f.mime == JpegMime || f.mime == PngMime
  }

  /** The pages the conversion produces, image after image. */
  function ConvertedPages(files: seq<File>, dims: seq<Dims>, page: Dims): seq<ImagePage>
    requires |dims| == |files|
    requires page.width > 0.0 && page.height > 0.0
    requires forall i :: 0 <= i < |dims| ==> dims[i].width > 0.0 && dims[i].height > 0.0
  {
    if files == [] then []
    else
      var k := |files| - 1;
      ConvertedPages(files[..k], dims[..k], page)
      + (if Embeddable(files[k]) then [ImagePage(files[k], page.width, page.height, FitImage(page, dims[k]))] else [])
  }

  /** The images that make it into the document, in list order. */
  function EmbeddableFiles(files: seq<File>): (r: seq<File>)
    ensures forall f :: f in r <==> f in files && Embeddable(f)
  {
    Filter(files, Embeddable)
  }

  /** The embedded images keep list order: the selection works piece by
      piece, and one file passes exactly when it is a JPEG or a PNG. */
  lemma EmbeddableInOrder(a: seq<File>, b: seq<File>, f: File)
    ensures EmbeddableFiles(a + b) == EmbeddableFiles(a) + EmbeddableFiles(b)
    ensures EmbeddableFiles([f]) == if f.mime == JpegMime || f.mime == PngMime then [f] else []
  {
    FilterConcat(a, b, Embeddable);
    FilterSingle(f, Embeddable);
  }

  /** As many images are embedded as the list has JPEG and PNG entries. */
  lemma EmbeddableCount(files: seq<File>)
    ensures |EmbeddableFiles(files)| == |set i | 0 <= i < |files| && (files[i].mime == JpegMime || files[i].mime == PngMime)|
  {
    FilterCount(files, Embeddable);
    assert Passing(files, Embeddable) == set i | 0 <= i < |files| && (files[i].mime == JpegMime || files[i].mime == PngMime);
  }

  /** One page per JPEG or PNG, in list order, each page of the chosen size
      with its image fitted and centred. */
  lemma {:induction false} ConvertedPagesShape(files: seq<File>, dims: seq<Dims>, page: Dims)
    requires |dims| == |files|
    requires page.width > 0.0 && page.height > 0.0
    requires forall i :: 0 <= i < |dims| ==> dims[i].width > 0.0 && dims[i].height > 0.0
    ensures var pages := ConvertedPages(files, dims, page);
            && |pages| == |EmbeddableFiles(files)|
            && (forall i :: 0 <= i < |pages| ==> pages[i].image == EmbeddableFiles(files)[i])
            && (forall i :: 0 <= i < |pages| ==>
                  && pages[i].pageWidth == page.width && pages[i].pageHeight == page.height
                  && pages[i].placement.x >= 0.0 && pages[i].placement.y >= 0.0
                  && pages[i].placement.width <= page.width && pages[i].placement.height <= page.height)
  {
    if files != [] {
      var k := |files| - 1;
      ConvertedPagesShape(files[..k], dims[..k], page);
      assert files == files[..k] + [files[k]];
      EmbeddableInOrder(files[..k], [files[k]], files[k]);
    }
  }

  /** The conversion loop: every file is read, non-JPEG/PNG files are skipped,
      and every other file gets a page with its image fitted and centred. */
  method ConvertImages(files: seq<File>, dims: seq<Dims>, size: PageSize, orientation: Orientation)
    returns (pages: seq<ImagePage>)
    requires |dims| == |files|
    requires forall i :: 0 <= i < |dims| ==> dims[i].width > 0.0 && dims[i].height > 0.0
    ensures pages == ConvertedPages(files, dims, PageDims(size, orientation))
    ensures |pages| == |EmbeddableFiles(files)|
    ensures forall i :: 0 <= i < |pages| ==> pages[i].image == EmbeddableFiles(files)[i]
    ensures forall i :: 0 <= i < |pages| ==> pages[i].pageWidth == PageDims(size, orientation).width
                                             && pages[i].pageHeight == PageDims(size, orientation).height
  {
    pages := [];
    var pageDims := PageDims(size, orientation);
    var i := 0;
    while i < |files|
      invariant 0 <= i <= |files|
      invariant pages == ConvertedPages(files[..i], dims[..i], pageDims)
    {
      var file := files[i];
      assert files[..i + 1][..i] == files[..i] && dims[..i + 1][..i] == dims[..i];
      if !Embeddable(file) {
        i := i + 1;
        continue;
      }
      var placement := FitImage(pageDims, dims[i]);
      pages := pages + [ImagePage(file, pageDims.width, pageDims.height, placement)];
      i := i + 1;
    }
    assert files[..i] == files && dims[..i] == dims;
    ConvertedPagesShape(files, dims, pageDims);
  }

  // ---------------------------------------------------------------------------
  // The screen
  // ---------------------------------------------------------------------------

  class ImageTool {
    var files: seq<File>
    var error: Option<ImageError>
    var pageSize: PageSize
    var orientation: Orientation
    /** What the drag start wrote to the browser's drag data. */
    var dragData: Option<string>

    constructor ()
      ensures files == [] && error == None && pageSize == A4 && orientation == Portrait && dragData == None
    {
      files := [];
      error := None;
      pageSize := A4;
      orientation := Portrait;
      dragData := None;
    }

    /** Every file in the list is an image. */
    ghost predicate AllImages()
      reads this
    {
      forall f :: f in files ==> IsImageMime(f.mime)
    }

    /** `onFilesSelected`: the images among the selection are appended. */
    method OnFilesSelected(selected: seq<File>)
      modifies this`files, this`error
      ensures files == old(files) + ImageFiles(selected) && error == None
      ensures old(AllImages()) ==> AllImages()
    {
      files := files + ImageFiles(selected);
      error := None;
    }

    /** `handleRemoveFile`: once confirmed, drops the file at `index`. */
    method RemoveFile(index: nat, confirmed: bool)
      modifies this`files
      ensures !confirmed ==> files == old(files)
      ensures confirmed ==> files == RemoveAt(old(files), index)
      ensures confirmed && index < |old(files)| ==> multiset(files) + multiset{old(files)[index]} == multiset(old(files))
      ensures old(AllImages()) ==> AllImages()
    {
      if confirmed {
        if index < |files| {
          RemoveAtMultiset(files, index);
        }
        files := RemoveAt(files, index);
      }
    }

    /** `onDragStart`: the index is written as decimal text. */
    method DragStart(index: nat)
      modifies this`dragData
      ensures dragData == Some(NatToString(index))
      ensures ParseDecimal(dragData.value) == index
    {
      dragData := Some(NatToString(index));
      ParseRendered(index);
    }

    /** `onDrop`: parses the dragged index back and moves that file to the
        drop position. */
    method OnDrop(dropIndex: nat)
      requires dragData.Some? && forall i :: 0 <= i < |dragData.value| ==> '0' <= dragData.value[i] <= '9'
      requires ParseDecimal(dragData.value) < |files| && dropIndex < |files|
      modifies this`files
      ensures files == Moved(old(files), ParseDecimal(dragData.value), dropIndex)
      ensures multiset(files) == multiset(old(files))
    {
      var draggedIndex := ParseDecimal(dragData.value);
      files := MoveFile(files, draggedIndex, dropIndex);
    }

    method SetPageSize(size: PageSize)
      modifies this`pageSize
      ensures pageSize == size
    {
      pageSize := size;
    }

    method SetOrientation(o: Orientation)
      modifies this`orientation
      ensures orientation == o
    {
      orientation := o;
    }

    /** `handleConversion`: an empty list is an error; otherwise every JPEG and
        PNG becomes a page and the list is emptied. `dims[i]` is the size the
        PDF library reports for `files[i]`. */
    method HandleConversion(dims: seq<Dims>, libraryFails: bool) returns (out: Option<Download<seq<ImagePage>>>)
      requires |dims| == |files|
      requires forall i :: 0 <= i < |dims| ==> dims[i].width > 0.0 && dims[i].height > 0.0
      modifies this`files, this`error
      ensures old(files) == [] ==> out == None && error == Some(NoImages) && files == old(files)
      ensures old(files) != [] && libraryFails ==> out == None && error == Some(ConversionFailed) && files == old(files)
      ensures old(files) != [] && !libraryFails ==>
                out == Some(Download(ConvertedPages(old(files), dims, PageDims(pageSize, orientation)), ConvertedName, PdfMime))
                && error == None && files == []
    {
      if |files| == 0 {
        error := Some(NoImages);
        return None;
      }
      error := None;
      var pages := ConvertImages(files, dims, pageSize, orientation);
      if libraryFails {
        error := Some(ConversionFailed);
        return None;
      }
      out := Some(Download(pages, ConvertedName, PdfMime));
      files := [];
    }
  }
}

=== FILE: js_text.dfy ===
/** The pieces of JavaScript string and number semantics the tools rely on:
    `trim`, blank tests, `Array.prototype.join`, `startsWith`, first-match
    `String.prototype.replace` with a string pattern, decimal rendering of
    integers in template literals, `parseInt(_, 10)`, and the truncating `%`. */
module JsText {
  import opened Base

  // ---------------------------------------------------------------------------
  // Whitespace and trim
  // ---------------------------------------------------------------------------

  /** The code points `String.prototype.trim` removes: ECMAScript WhiteSpace
      (tab, vertical tab, form feed, space, no-break space, byte order mark and
      the Zs category) and LineTerminator (LF, CR, U+2028, U+2029). */
  predicate IsJsWhitespace(c: char) {
    || c == '\t' || c == '\n' || c == '\U{000B}' || c == '\U{000C}' || c == '\r'
    || c == ' ' || c == '\U{00A0}' || c == '\U{1680}'
    || ('\U{2000}' <= c <= '\U{200A}')
    || c == '\U{2028}' || c == '\U{2029}' || c == '\U{202F}' || c == '\U{205F}'
    || c == '\U{3000}' || c == '\U{FEFF}'
  }

  /** `!s.trim()`: the string holds nothing but whitespace. */
  predicate IsBlank(s: string) {
    forall i :: 0 <= i < |s| ==> IsJsWhitespace(s[i])
  }

  lemma BlankConcat(a: string, b: string)
    ensures IsBlank(a + b) <==> IsBlank(a) && IsBlank(b)
  {
    if IsBlank(a + b) {
      forall i | 0 <= i < |a| ensures IsJsWhitespace(a[i]) {
        assert a[i] == (a + b)[i];
      }
      forall i | 0 <= i < |b| ensures IsJsWhitespace(b[i]) {
        assert b[i] == (a + b)[|a| + i];
      }
    }
    if IsBlank(a) && IsBlank(b) {
      forall i | 0 <= i < |a + b| ensures IsJsWhitespace((a + b)[i]) {
        if i >= |a| {
          assert (a + b)[i] == b[i - |a|];
        }
      }
    }
  }

  /** Leading whitespace removed. */
  function TrimStart(s: string): (r: string)
    ensures |r| <= |s| && r == s[|s| - |r|..]
    ensures IsBlank(s[..|s| - |r|])
    ensures r == [] || !IsJsWhitespace(r[0])
  {
    if s != [] && IsJsWhitespace(s[0]) then
      var r := TrimStart(s[1..]);
      assert s[..|s| - |r|] == [s[0]] + s[1..][..|s[1..]| - |r|];
      r
    else
      s
  }

  /** Trailing whitespace removed. */
  function TrimEnd(s: string): (r: string)
    ensures |r| <= |s| && r == s[..|r|]
    ensures IsBlank(s[|r|..])
    ensures r == [] || !IsJsWhitespace(r[|r| - 1])
  {
    if s != [] && IsJsWhitespace(s[|s| - 1]) then
      var t := s[..|s| - 1];
      var r := TrimEnd(t);
      assert s[..|r|] == t[..|r|];
      assert s[|r|..] == t[|r|..] + [s[|s| - 1]];
      BlankConcat(t[|r|..], [s[|s| - 1]]);
      r
    else
      s
  }

  /** `String.prototype.trim`. */
  function Trim(s: string): string {
    TrimEnd(TrimStart(s))
  }

  /** Trimming yields the empty string exactly when the input is blank: the
      JavaScript test `!s.trim()` and the predicate `IsBlank` agree. */
  lemma TrimEmptyIffBlank(s: string)
    ensures Trim(s) == [] <==> IsBlank(s)
  {
    var t := TrimStart(s);
    assert s == s[..|s| - |t|] + t;
    BlankConcat(s[..|s| - |t|], t);
    TrimEndEmptyIffBlank(t);
  }

  lemma TrimEndEmptyIffBlank(t: string)
    ensures TrimEnd(t) == [] <==> IsBlank(t)
  {
    var u := TrimEnd(t);
    if u == [] {
      assert t[|u|..] == t;
    } else {
      assert u[|u| - 1] == t[|u| - 1];
    }
  }

  /** Trimming keeps every non-whitespace character: the result is a segment
      of the input whose removed prefix and suffix are blank. */
  lemma TrimIsInnerSegment(s: string)
    ensures exists i, j :: 0 <= i <= j <= |s| && Trim(s) == s[i..j]
                           && IsBlank(s[..i]) && IsBlank(s[j..])
  {
    var t := TrimStart(s);
    var u := TrimEnd(t);
    var i := |s| - |t|;
    var j := i + |u|;
    assert Trim(s) == u;
    assert s[i..j] == t[..|u|] == u;
    assert s[j..] == t[|u|..];
    assert Trim(s) == s[i..j] && IsBlank(s[..i]) && IsBlank(s[j..]);
  }

  /** A string that neither starts nor ends with whitespace is its own trim. */
  lemma TrimKeepsUnpadded(s: string)
    requires s != [] && !IsJsWhitespace(s[0]) && !IsJsWhitespace(s[|s| - 1])
    ensures Trim(s) == s
  {
    assert TrimStart(s) == s;
  }

  // ---------------------------------------------------------------------------
  // Join and startsWith
  // ---------------------------------------------------------------------------

  /** `items.join(sep)`. */
  function Join(items: seq<string>, sep: string): string {
    if |items| == 0 then ""
    else if |items| == 1 then items[0]
    else items[0] + sep + Join(items[1..], sep)
  }

  /** Joining with a single space is blank exactly when every item is blank. */
  lemma {:induction false} JoinSpaceBlank(items: seq<string>)
    ensures IsBlank(Join(items, " ")) <==> forall i :: 0 <= i < |items| ==> IsBlank(items[i])
  {
    if |items| > 1 {
      JoinSpaceBlank(items[1..]);
      BlankConcat(items[0], " ");
      BlankConcat(items[0] + " ", Join(items[1..], " "));
      assert forall i :: 1 <= i < |items| ==> items[i] == items[1..][i - 1];
    }
  }

  /** `s.startsWith(prefix)`. */
  predicate StartsWith(s: string, prefix: string) {
    |prefix| <= |s| && s[..|prefix|] == prefix
  }

  /** `s.endsWith(suffix)`. */
  predicate EndsWith(s: string, suffix: string) {
    |suffix| <= |s| && s[|s| - |suffix|..] == suffix
  }

  // ---------------------------------------------------------------------------
  // First occurrence and `replace` with a string pattern
  // ---------------------------------------------------------------------------

  predicate OccursAt(s: string, pat: string, k: nat) {
    k + |pat| <= |s| && s[k..k + |pat|] == pat
  }

  predicate Contains(s: string, pat: string) {
    exists k: nat | k <= |s| :: OccursAt(s, pat, k)
  }

  /** The first index at or after `from` where `pat` occurs. */
  function IndexFrom(s: string, pat: string, from: nat): (r: Option<nat>)
    decreases |s| - from
    ensures r.Some? ==> from <= r.value && OccursAt(s, pat, r.value)
    ensures r.Some? ==> forall k: nat :: from <= k < r.value ==> !OccursAt(s, pat, k)
    ensures r.None? ==> forall k: nat :: from <= k ==> !OccursAt(s, pat, k)
  {
    if from + |pat| > |s| then None
    else if s[from..from + |pat|] == pat then Some(from)
    else IndexFrom(s, pat, from + 1)
  }

  /** `s.indexOf(pat)`, as an option. */
  function IndexOf(s: string, pat: string): Option<nat> {
    IndexFrom(s, pat, 0)
  }

  /** `s.replace(pat, rep)` with a string pattern: only the first occurrence is
      replaced; a string without the pattern is returned unchanged. */
  function ReplaceFirst(s: string, pat: string, rep: string): (r: string)
    ensures !Contains(s, pat) ==> r == s
    ensures Contains(s, pat) ==> |r| == |s| - |pat| + |rep|
  {
    match IndexOf(s, pat)
    case None => s
    case Some(k) => s[..k] + rep + s[k + |pat|..]
  }

  /** Where the first occurrence stands, `replace` puts the replacement: the
      text before it, the replacement, and the text after it. */
  lemma ReplaceFirstAt(s: string, pat: string, rep: string, k: nat)
    requires OccursAt(s, pat, k) && forall j: nat :: j < k ==> !OccursAt(s, pat, j)
    ensures ReplaceFirst(s, pat, rep) == s[..k] + rep + s[k + |pat|..]
  {
  }

  // ---------------------------------------------------------------------------
  // String length
  // ---------------------------------------------------------------------------

  /** `s.length`: JavaScript counts UTF-16 code units, so a character beyond
      the Basic Multilingual Plane (a surrogate pair) counts twice. */
  function Utf16Length(s: string): (n: nat)
    ensures |s| <= n <= 2 * |s|
  {
    if s == [] then 0
    else Utf16Length(s[..|s| - 1]) + (if s[|s| - 1] as int > 0xFFFF then 2 else 1)
  }

  /** The length of a concatenation is the sum of the lengths. */
  lemma {:induction false} Utf16LengthConcat(a: string, b: string)
    ensures Utf16Length(a + b) == Utf16Length(a) + Utf16Length(b)
  {
    if b == [] {
      assert a + b == a;
    } else {
      var k := |b| - 1;
      Utf16LengthConcat(a, b[..k]);
      assert (a + b)[..|a + b| - 1] == a + b[..k];
      assert (a + b)[|a + b| - 1] == b[k];
    }
  }

  /** A string made only of characters beyond the Basic Multilingual Plane is
      twice as long in code units as in characters. */
  lemma {:induction false} Utf16LengthAllAstral(s: string)
    requires forall i :: 0 <= i < |s| ==> s[i] as int > 0xFFFF
    ensures Utf16Length(s) == 2 * |s|
  {
    if s != [] {
      Utf16LengthAllAstral(s[..|s| - 1]);
    }
  }

  // ---------------------------------------------------------------------------
  // Decimal rendering and parseInt
  // ---------------------------------------------------------------------------

  /** The decimal digit of `d`: it reads back as `d`. */
  function DigitChar(d: nat): (c: char)
    requires d < 10
    ensures '0' <= c <= '9' && (c as int) - ('0' as int) == d
  {
    (('0' as int) + d) as char
  }

  /** `String(n)` / `${n}` for a non-negative integer. */
  function NatToString(n: nat): (r: string)
    ensures 1 <= |r|
    ensures forall i :: 0 <= i < |r| ==> '0' <= r[i] <= '9'
    ensures n < 10 <==> |r| == 1
  {
    if n < 10 then [DigitChar(n)] else NatToString(n / 10) + [DigitChar(n % 10)]
  }

  /** `parseInt(s, 10)` on a string of decimal digits. */
  function ParseDecimal(s: string): nat
    requires forall i :: 0 <= i < |s| ==> '0' <= s[i] <= '9'
  {
    if s == [] then 0
    else ParseDecimal(s[..|s| - 1]) * 10 + ((s[|s| - 1] as int) - ('0' as int))
  }

  /** Rendering an index and parsing it back gives the index: the round trip
      the drag-and-drop handlers make through `dataTransfer`. */
  lemma {:induction false} ParseRendered(n: nat)
    ensures ParseDecimal(NatToString(n)) == n
  {
    var r := NatToString(n);
    if n >= 10 {
      ParseRendered(n / 10);
      assert r[..|r| - 1] == NatToString(n / 10);
    }
  }

  /** Two different digit runs followed by the same text that starts with a
      non-digit give different strings: the non-digit marks where each run
      ends. */
  lemma DigitRunsDiffer(a: string, b: string, rest: string)
    requires a != b
    requires forall i :: 0 <= i < |a| ==> '0' <= a[i] <= '9'
    requires forall i :: 0 <= i < |b| ==> '0' <= b[i] <= '9'
    requires rest != [] && !('0' <= rest[0] <= '9')
    ensures a + rest != b + rest
  {
    var x, y := a + rest, b + rest;
    if |a| == |b| {
      assert x[..|a|] == a;
      assert y[..|b|] == b;
    } else if |a| < |b| {
      assert x[|a|] == rest[0];
      assert y[|a|] == b[|a|];
    } else {
      assert y[|b|] == rest[0];
      assert x[|b|] == a[|b|];
    }
  }

  /** A common prefix keeps two strings apart. */
  lemma PrefixKeepsDifference(p: string, x: string, y: string)
    requires x != y
    ensures p + x != p + y
  {
    assert (p + x)[|p|..] == x;
    assert (p + y)[|p|..] == y;
  }

  /** Distinct numbers render as distinct strings. */
  lemma NatToStringInjective(a: nat, b: nat)
    ensures NatToString(a) == NatToString(b) <==> a == b
  {
    ParseRendered(a);
    ParseRendered(b);
  }

  // ---------------------------------------------------------------------------
  // Truncating remainder
  // ---------------------------------------------------------------------------

  /** JavaScript `a % b` for a positive divisor: the remainder takes the sign
      of the dividend (Dafny's `%` is Euclidean). */
  function JsRem(a: int, b: int): (r: int)
    requires b > 0
    ensures -b < r < b
    ensures a >= 0 ==> 0 <= r && r == a % b
    ensures a < 0 ==> r <= 0 && r == -((-a) % b)
  {
    if a >= 0 then a % b else -((-a) % b)
  }
}

=== FILE: lists.dfy ===
/** The list edits the screens make with `filter` and `splice`: keeping the
    elements that pass a test, dropping the element at an index, and moving
    one element to another index (drag and drop). */
module Lists {

  /** `s.filter(p)`: the elements that pass `p`, in list order. */
  function Filter<T(!new)>(s: seq<T>, p: T -> bool): (r: seq<T>)
    ensures |r| <= |s|
    ensures forall x :: x in r <==> x in s && p(x)
  {
    if s == [] then [] else (if p(s[0]) then [s[0]] else []) + Filter(s[1..], p)
  }

  /** Filtering a concatenation filters each part and keeps them in order;
      with the one-element case below this fixes the order of the result. */
  lemma {:induction false} FilterConcat<T(!new)>(a: seq<T>, b: seq<T>, p: T -> bool)
    ensures Filter(a + b, p) == Filter(a, p) + Filter(b, p)
  {
    if a == [] {
      assert a + b == b;
    } else {
      assert (a + b)[1..] == a[1..] + b;
      FilterConcat(a[1..], b, p);
    }
  }

  /** The last element of `a + b` is the last of `b`, and what comes before
      it is `a` followed by the rest of `b`. */
  lemma DropLastOfConcat<T>(a: seq<T>, b: seq<T>)
    requires b != []
    ensures (a + b)[..|a + b| - 1] == a + b[..|b| - 1]
    ensures (a + b)[|a + b| - 1] == b[|b| - 1]
  {
  }

  /** Concatenation regroups freely. */
  lemma AppendAssoc<T>(a: seq<T>, b: seq<T>, c: seq<T>)
    ensures a + b + c == a + (b + c)
  {
  }

  /** A one-element list is kept exactly when its element passes. */
  lemma FilterSingle<T(!new)>(x: T, p: T -> bool)
    ensures Filter([x], p) == if p(x) then [x] else []
  {
    assert [x][1..] == [];
  }

  /** The positions of `s` whose element passes `p`. */
  function Passing<T>(s: seq<T>, p: T -> bool): set<int> {
    set i | 0 <= i < |s| && p(s[i])
  }

  /** One more element adds its own position when it passes. */
  lemma PassingSnoc<T>(s: seq<T>, x: T, p: T -> bool)
    ensures Passing(s + [x], p) == Passing(s, p) + (if p(x) then {|s|} else {})
  {
    var t := s + [x];
    forall i | 0 <= i < |s| ensures t[i] == s[i] { }
  }

  /** The length of the result is the number of positions whose element
      passes. */
  lemma {:induction false} FilterCount<T(!new)>(s: seq<T>, p: T -> bool)
    ensures |Filter(s, p)| == |Passing(s, p)|
  {
    if s != [] {
      var k := |s| - 1;
      FilterCount(s[..k], p);
      assert s == s[..k] + [s[k]];
      FilterConcat(s[..k], [s[k]], p);
      FilterSingle(s[k], p);
      PassingSnoc(s[..k], s[k], p);
      assert k !in Passing(s[..k], p);
    }
  }

  /** Every element that passes keeps its multiplicity; every other one is
      gone. In particular the length of the result is the number of entries
      that pass. */
  lemma {:induction false} FilterMultiset<T(!new)>(s: seq<T>, p: T -> bool, x: T)
    ensures multiset(Filter(s, p))[x] == if p(x) then multiset(s)[x] else 0
  {
    if s != [] {
      FilterMultiset(s[1..], p, x);
      assert s == [s[0]] + s[1..];
    }
  }

  /** `s.filter((_, i) => i !== k)`: drops the element at `k`; an index past
      the end drops nothing. */
  function RemoveAt<T>(s: seq<T>, k: nat): (r: seq<T>)
    ensures k < |s| ==> |r| == |s| - 1
    ensures k >= |s| ==> r == s
    ensures forall i :: 0 <= i < k && i < |r| ==> r[i] == s[i]
    ensures forall i :: k <= i < |r| ==> r[i] == s[i + 1]
  {
    if k < |s| then s[..k] + s[k + 1..] else s
  }

  /** Removing one element removes exactly that element from the multiset. */
  lemma RemoveAtMultiset<T>(s: seq<T>, k: nat)
    requires k < |s|
    ensures multiset(RemoveAt(s, k)) + multiset{s[k]} == multiset(s)
  {
    assert s == s[..k] + [s[k]] + s[k + 1..];
  }

  /** Where element `i` of a moved list comes from. */
  function MoveSource(from: nat, to: nat, i: nat): nat {
    if i == to then from
    else if from < to && from <= i < to then i + 1
    else if to < from && to < i <= from then i - 1
    else i
  }

  /** `splice(from, 1)` followed by `splice(to, 0, item)`: the element at
      `from` is taken out and reinserted so that it ends at index `to`. */
  function Moved<T>(s: seq<T>, from: nat, to: nat): (r: seq<T>)
    requires from < |s| && to < |s|
    ensures |r| == |s|
  {
    var rest := s[..from] + s[from + 1..];
    rest[..to] + [s[from]] + rest[to..]
  }

  /** Every position of the moved list, described without reference to the
      splice: the moved element lands at `to`, the ones between the two
      indices shift by one towards `from`, and all others stay put. */
  lemma MovedAt<T>(s: seq<T>, from: nat, to: nat, i: nat)
    requires from < |s| && to < |s| && i < |s|
    ensures MoveSource(from, to, i) < |s|
    ensures Moved(s, from, to)[i] == s[MoveSource(from, to, i)]
  {
    var rest := s[..from] + s[from + 1..];
    assert forall j :: 0 <= j < |rest| ==> rest[j] == if j < from then s[j] else s[j + 1];
    var r := Moved(s, from, to);
    assert r == rest[..to] + [s[from]] + rest[to..];
    if i < to {
      assert r[i] == rest[i];
    } else if i > to {
      assert r[i] == rest[i - 1];
    }
  }

  /** Moving keeps the same elements with the same multiplicities. */
  lemma MovedPermutation<T>(s: seq<T>, from: nat, to: nat)
    requires from < |s| && to < |s|
    ensures multiset(Moved(s, from, to)) == multiset(s)
  {
    var rest := s[..from] + s[from + 1..];
    assert s == s[..from] + [s[from]] + s[from + 1..];
    assert multiset(s) == multiset(rest) + multiset{s[from]};
    assert rest == rest[..to] + rest[to..];
    assert multiset(rest) == multiset(rest[..to]) + multiset(rest[to..]);
    assert Moved(s, from, to) == rest[..to] + [s[from]] + rest[to..];
  }

  /** Dragging back from `to` to `from` undoes a move. */
  lemma MovedInverse<T>(s: seq<T>, from: nat, to: nat)
    requires from < |s| && to < |s|
    ensures Moved(Moved(s, from, to), to, from) == s
  {
    var m := Moved(s, from, to);
    var back := Moved(m, to, from);
    forall i | 0 <= i < |s| ensures back[i] == s[i] {
      MovedAt(m, to, from, i);
      MovedAt(s, from, to, MoveSource(to, from, i));
    }
  }

  /** Moving an element onto its own index changes nothing. */
  lemma MovedInPlace<T>(s: seq<T>, k: nat)
    requires k < |s|
    ensures Moved(s, k, k) == s
  {
    forall i | 0 <= i < |s| ensures Moved(s, k, k)[i] == s[i] {
      MovedAt(s, k, k, i);
    }
  }
}

=== FILE: merge_pdf.dfy ===
/** The merge tool: a grid of page records drawn from several uploaded PDFs,
    a map from file name to the uploaded file, drag-and-drop reordering,
    removal with release of unreferenced files, and the merge itself. */
module MergePdf {
  import opened Base
  import opened JsText
  import opened Lists

  /** One page in the merge grid (its thumbnail is left out). */
  datatype PagePreview = PagePreview(id: string, sourceFileName: string, sourcePageIndex: nat)

  /** What reading one upload through the PDF renderer gives: every page
      rendered, or an exception after `rendered` pages were already pushed
      (0 when the document itself could not be opened). */
  datatype ReadOutcome = Read(numPages: nat) | FailedAfter(rendered: nat)

  datatype MergeError = CannotProcess(fileName: string) | NothingToMerge | MergeFailed

  /** One page of the merged document: page `pageIndex` of `source`. */
  datatype MergedPage = MergedPage(source: File, pageIndex: nat)

  const MergedName: string := "merged_document.pdf"

  // ---------------------------------------------------------------------------
  // Specification functions
  // ---------------------------------------------------------------------------

  predicate IsPdf(f: File) {
    f.mime == PdfMime
  }

  /** `selectedFiles.filter(f => f.type === 'application/pdf')`. */
  function PdfFiles(selected: seq<File>): (r: seq<File>)
    ensures |r| <= |selected|
    ensures forall f :: f in r <==> f in selected && f.mime == PdfMime
  {
    Filter(selected, IsPdf)
  }

  /** The PDF files keep their order and multiplicity: the filter works
      piece by piece, and one file passes exactly when it is a PDF. */
  lemma PdfFilesInOrder(a: seq<File>, b: seq<File>, f: File)
    ensures PdfFiles(a + b) == PdfFiles(a) + PdfFiles(b)
    ensures PdfFiles([f]) == if f.mime == PdfMime then [f] else []
  {
    FilterConcat(a, b, IsPdf);
    FilterSingle(f, IsPdf);
  }

  /** The source map after registering `files` in order: a name already in the
      map keeps the File it has. */
  function Registered(m: map<string, File>, files: seq<File>): (r: map<string, File>)
    decreases |files|
    ensures r.Keys == m.Keys + set f | f in files :: f.name
    ensures forall n :: n in m ==> r[n] == m[n]
  {
    if files == [] then m
    else Registered(if files[0].name in m then m else m[files[0].name := files[0]], files[1..])
  }

  /** The id the grid gives page `j` of `name`: `${file.name}-${j}-${Date.now()}`. */
  function PageId(name: string, j: nat, now: nat): string {
    name + "-" + NatToString(j) + "-" + NatToString(now)
  }

  /** The records one upload contributes when `count` of its pages rendered;
      none when the browser gives no 2D canvas context. */
  function FileRecords(name: string, count: nat, canvasOk: bool, now: nat): (r: seq<PagePreview>)
    ensures canvasOk ==> |r| == count
    ensures !canvasOk ==> r == []
    ensures forall j :: 0 <= j < |r| ==> r[j].sourceFileName == name && r[j].sourcePageIndex == j
  {
    if !canvasOk || count == 0 then []
    else FileRecords(name, count - 1, canvasOk, now) + [PagePreview(PageId(name, count - 1, now), name, count - 1)]
  }

  function Rendered(o: ReadOutcome): nat {
    match o
    case Read(n) => n
    case FailedAfter(k) => k
  }

  /** The records a batch of uploads appends, file after file. */
  function BatchRecords(files: seq<File>, outcomes: seq<ReadOutcome>, canvasOk: bool, now: nat): seq<PagePreview>
    requires |files| == |outcomes|
  {
    if files == [] then []
    else
      var k := |files| - 1;
      BatchRecords(files[..k], outcomes[..k], canvasOk, now) + FileRecords(files[k].name, Rendered(outcomes[k]), canvasOk, now)
  }

  /** The names of the uploads whose reading threw. */
  function FailedNames(files: seq<File>, outcomes: seq<ReadOutcome>): (r: set<string>)
    requires |files| == |outcomes|
    ensures forall n :: n in r <==> exists i :: 0 <= i < |files| && outcomes[i].FailedAfter? && files[i].name == n
  {
    if files == [] then {}
    else
      var k := |files| - 1;
      FailedNames(files[..k], outcomes[..k]) + (if outcomes[k].FailedAfter? then {files[k].name} else {})
  }

  /** The error left after a batch: the one of the last upload that threw. */
  function LastFailure(files: seq<File>, outcomes: seq<ReadOutcome>): (r: Option<MergeError>)
    requires |files| == |outcomes|
    ensures r.None? <==> forall i :: 0 <= i < |files| ==> outcomes[i].Read?
  {
    if files == [] then None
    else
      var k := |files| - 1;
      if outcomes[k].FailedAfter? then Some(CannotProcess(files[k].name))
      else LastFailure(files[..k], outcomes[..k])
  }

  /** The test `p => p.id !== pageId`. */
  function OtherThan(id: string): PagePreview -> bool {
    (p: PagePreview) => p.id != id
  }

  /** `prev.filter(p => p.id !== pageId)`. */
  function WithoutId(pages: seq<PagePreview>, id: string): (r: seq<PagePreview>)
    ensures |r| <= |pages|
    ensures forall p :: p in r <==> p in pages && p.id != id
  {
    Filter(pages, OtherThan(id))
  }

  /** Removing an id keeps the other records in grid order: it works piece
      by piece, and one record goes exactly when it carries the id. */
  lemma WithoutIdInOrder(a: seq<PagePreview>, b: seq<PagePreview>, id: string, p: PagePreview)
    ensures WithoutId(a + b, id) == WithoutId(a, id) + WithoutId(b, id)
    ensures WithoutId([p], id) == if p.id != id then [p] else []
  {
    FilterConcat(a, b, OtherThan(id));
    FilterSingle(p, OtherThan(id));
  }

  /** The file names the records refer to. */
  function UsedNames(pages: seq<PagePreview>): set<string> {
    set p | p in pages :: p.sourceFileName
  }

  /** `Array.from(new Set(names))`: the names in order of first appearance. */
  function Distinct(names: seq<string>): (r: seq<string>)
    ensures forall n :: n in r <==> n in names
    ensures forall i, j :: 0 <= i < j < |r| ==> r[i] != r[j]
  {
    if names == [] then []
    else
      var d := Distinct(names[..|names| - 1]);
      var last := names[|names| - 1];
      assert forall n :: n in names <==> n in names[..|names| - 1] || n == last;
      if last in d then d else d + [last]
  }

  /** The merged document: one page per record whose file is in `docs`, in
      record order. */
  function MergedPages(pages: seq<PagePreview>, docs: map<string, File>): seq<MergedPage> {
    if pages == [] then []
    else
      var k := |pages| - 1;
      var p := pages[k];
      MergedPages(pages[..k], docs) + (if p.sourceFileName in docs then [MergedPage(docs[p.sourceFileName], p.sourcePageIndex)] else [])
  }

  // ---------------------------------------------------------------------------
  // Properties of the specification functions
  // ---------------------------------------------------------------------------

  /** Registering never overwrites: a name already in the map keeps its File,
      and a new name maps to the first upload that carries it. */
  lemma {:induction false} RegisteredKeepsFirst(m: map<string, File>, files: seq<File>, i: nat)
    requires i < |files|
    requires files[i].name !in m
    requires forall j :: 0 <= j < i ==> files[j].name != files[i].name
    ensures Registered(m, files)[files[i].name] == files[i]
    decreases i
  {
    var m' := if files[0].name in m then m else m[files[0].name := files[0]];
    if i == 0 {
      assert files[0].name in m';
    } else {
      assert files[1..][i - 1] == files[i];
      RegisteredKeepsFirst(m', files[1..], i - 1);
    }
  }

  /** Removing an id keeps every other record with its multiplicity. */
  lemma WithoutIdKeepsOthers(pages: seq<PagePreview>, id: string, p: PagePreview)
    requires p.id != id
    ensures multiset(WithoutId(pages, id))[p] == multiset(pages)[p]
  {
    FilterMultiset(pages, OtherThan(id), p);
  }

  /** When every record's file is available, the merged document has one page
      per record, in record order. */
  lemma {:induction false} MergedPagesFollowRecords(pages: seq<PagePreview>, docs: map<string, File>)
    requires forall p :: p in pages ==> p.sourceFileName in docs
    ensures |MergedPages(pages, docs)| == |pages|
    ensures forall i :: 0 <= i < |pages| ==>
              MergedPages(pages, docs)[i] == MergedPage(docs[pages[i].sourceFileName], pages[i].sourcePageIndex)
  {
    if pages != [] {
      var k := |pages| - 1;
      assert forall p :: p in pages[..k] ==> p in pages;
      MergedPagesFollowRecords(pages[..k], docs);
    }
  }

  /** Records whose file is missing from `docs` are dropped from the merge; the
      others keep their order. */
  lemma {:induction false} MergedPagesCount(pages: seq<PagePreview>, docs: map<string, File>)
    ensures |MergedPages(pages, docs)| <= |pages|
    ensures (exists p :: p in pages && p.sourceFileName !in docs) ==> |MergedPages(pages, docs)| < |pages|
  {
    if pages != [] {
      var k := |pages| - 1;
      MergedPagesCount(pages[..k], docs);
      assert forall p :: p in pages ==> p in pages[..k] || p == pages[k];
    }
  }

  /** Two file maps that agree on every name the records use give the same
      merged document. */
  lemma {:induction false} MergedPagesAgree(pages: seq<PagePreview>, d1: map<string, File>, d2: map<string, File>)
    requires forall p :: p in pages ==> (p.sourceFileName in d1 <==> p.sourceFileName in d2)
    requires forall p :: p in pages && p.sourceFileName in d1 ==> d1[p.sourceFileName] == d2[p.sourceFileName]
    ensures MergedPages(pages, d1) == MergedPages(pages, d2)
  {
    if pages != [] {
      var k := |pages| - 1;
      assert forall p :: p in pages[..k] ==> p in pages;
      MergedPagesAgree(pages[..k], d1, d2);
      assert pages[k] in pages;
    }
  }

  /** The pages a batch of fully read uploads contributes. */
  function TotalPages(outcomes: seq<ReadOutcome>): nat {
    if outcomes == [] then 0 else TotalPages(outcomes[..|outcomes| - 1]) + Rendered(outcomes[|outcomes| - 1])
  }

  /** A batch appends, with a canvas, one record per rendered page, and every
      record it appends names one of the uploads. */
  lemma {:induction false} BatchRecordsShape(files: seq<File>, outcomes: seq<ReadOutcome>, canvasOk: bool, now: nat)
    requires |files| == |outcomes|
    ensures canvasOk ==> |BatchRecords(files, outcomes, canvasOk, now)| == TotalPages(outcomes)
    ensures forall p :: p in BatchRecords(files, outcomes, canvasOk, now) ==> exists f :: f in files && f.name == p.sourceFileName
  {
    if files != [] {
      var k := |files| - 1;
      BatchRecordsShape(files[..k], outcomes[..k], canvasOk, now);
      var fr := FileRecords(files[k].name, Rendered(outcomes[k]), canvasOk, now);
      forall p | p in BatchRecords(files, outcomes, canvasOk, now)
        ensures exists f :: f in files && f.name == p.sourceFileName
      {
        if p in fr {
          var j :| 0 <= j < |fr| && fr[j] == p;
          assert files[k] in files;
        } else {
          var f :| f in files[..k] && f.name == p.sourceFileName;
          assert f in files;
        }
      }
    }
  }

  /** After a batch, every record still resolves to a file unless it names an
      upload that failed to read. */
  lemma BatchKeepsResolved(pages: seq<PagePreview>, m: map<string, File>, files: seq<File>,
                           outcomes: seq<ReadOutcome>, canvasOk: bool, now: nat)
    requires |files| == |outcomes|
    requires forall p :: p in pages ==> p.sourceFileName in m
    requires forall p :: p in pages + BatchRecords(files, outcomes, canvasOk, now) ==> p.sourceFileName !in FailedNames(files, outcomes)
    ensures forall p :: p in pages + BatchRecords(files, outcomes, canvasOk, now) ==>
              p.sourceFileName in Registered(m, files) - FailedNames(files, outcomes)
  {
    BatchRecordsShape(files, outcomes, canvasOk, now);
    var batch := BatchRecords(files, outcomes, canvasOk, now);
    forall p | p in pages + batch
      ensures p.sourceFileName in Registered(m, files)
    {
      if p !in pages {
        var f :| f in files && f.name == p.sourceFileName;
      }
    }
  }

  /** Uploading files that all read cleanly into an empty tool and merging
      gives a document whose page count is the sum of the page counts. */
  lemma MergeCountIsSumOfPageCounts(files: seq<File>, outcomes: seq<ReadOutcome>, now: nat)
    requires |files| == |outcomes|
    requires forall i :: 0 <= i < |outcomes| ==> outcomes[i].Read?
    ensures var records := BatchRecords(files, outcomes, true, now);
            var sources := Registered(map[], files) - FailedNames(files, outcomes);
            |MergedPages(records, sources)| == TotalPages(outcomes)
  {
    var records := BatchRecords(files, outcomes, true, now);
    var sources := Registered(map[], files) - FailedNames(files, outcomes);
    BatchRecordsShape(files, outcomes, true, now);
    assert FailedNames(files, outcomes) == {};
    forall p | p in records ensures p.sourceFileName in sources {
      var f :| f in files && f.name == p.sourceFileName;
    }
    MergedPagesFollowRecords(records, sources);
  }

  /** Re-uploading a file whose name the grid already uses, and failing to read
      it, deletes the name from the map although records in the grid still
      refer to it; every such record is then left out of the merge. */
  lemma FailedReuploadOrphansRecords(before: seq<PagePreview>, m: map<string, File>, files: seq<File>,
                                     outcomes: seq<ReadOutcome>, canvasOk: bool, now: nat, p: PagePreview)
    requires |files| == |outcomes|
    requires p in before && p.sourceFileName in FailedNames(files, outcomes)
    ensures var sources := Registered(m, files) - FailedNames(files, outcomes);
            var after := before + BatchRecords(files, outcomes, canvasOk, now);
            && p in after && p.sourceFileName !in sources
            && |MergedPages(after, sources)| < |after|
  {
    var sources := Registered(m, files) - FailedNames(files, outcomes);
    var after := before + BatchRecords(files, outcomes, canvasOk, now);
    assert p in after;
    MergedPagesCount(after, sources);
  }

  // ---------------------------------------------------------------------------
  // The loops of `processFiles` and `handleMerge`
  // ---------------------------------------------------------------------------

  /** The registration loop: each file whose name is not yet a key is added. */
  method RegisterFiles(m: map<string, File>, files: seq<File>) returns (r: map<string, File>)
    ensures r == Registered(m, files)
  {
    r := m;
    var i := 0;
    while i < |files|
      invariant 0 <= i <= |files|
      invariant Registered(r, files[i..]) == Registered(m, files)
    {
      assert files[i..][1..] == files[i + 1..];
      if files[i].name !in r {
        r := r[files[i].name := files[i]];
      }
      i := i + 1;
    }
    assert files[i..] == [];
  }

  /** The inner loop: one record per rendered page of one upload. */
  method ReadPages(name: string, count: nat, canvasOk: bool, now: nat) returns (records: seq<PagePreview>)
    ensures records == FileRecords(name, count, canvasOk, now)
  {
    records := [];
    var j := 0;
    while j < count
      invariant 0 <= j <= count
      invariant records == FileRecords(name, j, canvasOk, now)
    {
      if canvasOk {
        records := records + [PagePreview(PageId(name, j, now), name, j)];
      }
      j := j + 1;
    }
  }

  /** How the batch functions grow by one upload. */
  lemma BatchStep(files: seq<File>, outcomes: seq<ReadOutcome>, canvasOk: bool, now: nat, i: nat, registered: map<string, File>)
    requires |files| == |outcomes| && i < |files|
    ensures BatchRecords(files[..i + 1], outcomes[..i + 1], canvasOk, now)
            == BatchRecords(files[..i], outcomes[..i], canvasOk, now) + FileRecords(files[i].name, Rendered(outcomes[i]), canvasOk, now)
    ensures FailedNames(files[..i + 1], outcomes[..i + 1])
            == FailedNames(files[..i], outcomes[..i]) + (if outcomes[i].FailedAfter? then {files[i].name} else {})
    ensures LastFailure(files[..i + 1], outcomes[..i + 1])
            == if outcomes[i].FailedAfter? then Some(CannotProcess(files[i].name)) else LastFailure(files[..i], outcomes[..i])
    ensures registered - FailedNames(files[..i + 1], outcomes[..i + 1])
            == if outcomes[i].FailedAfter? then registered - FailedNames(files[..i], outcomes[..i]) - {files[i].name}
               else registered - FailedNames(files[..i], outcomes[..i])
  {
    assert files[..i + 1][..i] == files[..i];
    assert outcomes[..i + 1][..i] == outcomes[..i];
  }

  /** The outer loop: reads each upload in turn; an upload that throws loses
      its map entry and sets the error. */
  method ReadBatch(files: seq<File>, outcomes: seq<ReadOutcome>, canvasOk: bool, now: nat, registered: map<string, File>)
    returns (newPages: seq<PagePreview>, remaining: map<string, File>, err: Option<MergeError>)
    requires |files| == |outcomes|
    ensures newPages == BatchRecords(files, outcomes, canvasOk, now)
    ensures remaining == registered - FailedNames(files, outcomes)
    ensures err == LastFailure(files, outcomes)
  {
    newPages, remaining, err := [], registered, None;
    assert files[..0] == [] && outcomes[..0] == [];
    var i := 0;
    while i < |files|
      invariant 0 <= i <= |files|
      invariant newPages == BatchRecords(files[..i], outcomes[..i], canvasOk, now)
      invariant remaining == registered - FailedNames(files[..i], outcomes[..i])
      invariant err == LastFailure(files[..i], outcomes[..i])
    {
      BatchStep(files, outcomes, canvasOk, now, i, registered);
      var records := ReadPages(files[i].name, Rendered(outcomes[i]), canvasOk, now);
      newPages := newPages + records;
      if outcomes[i].FailedAfter? {
        err := Some(CannotProcess(files[i].name));
        remaining := remaining - {files[i].name};
      }
      i := i + 1;
    }
    assert files[..i] == files && outcomes[..i] == outcomes;
  }

  /** The loading loop of the merge: each distinct name, in order, is loaded
      once if its file is in the map. */
  method LoadDistinct(unique: seq<string>, sources: map<string, File>)
    returns (loadedDocs: map<string, File>, loadedNames: seq<string>)
    requires forall i, j :: 0 <= i < j < |unique| ==> unique[i] != unique[j]
    ensures forall n :: n in loadedDocs <==> n in unique && n in sources
    ensures forall n :: n in loadedDocs ==> loadedDocs[n] == sources[n]
    ensures forall n :: n in loadedNames <==> n in loadedDocs
    ensures forall i, j :: 0 <= i < j < |loadedNames| ==> loadedNames[i] != loadedNames[j]
  {
    loadedDocs, loadedNames := map[], [];
    var k := 0;
    while k < |unique|
      invariant 0 <= k <= |unique|
      invariant forall n :: n in loadedDocs <==> n in unique[..k] && n in sources
      invariant forall n :: n in loadedDocs ==> loadedDocs[n] == sources[n]
      invariant forall n :: n in loadedNames <==> n in loadedDocs
      invariant forall i, j :: 0 <= i < j < |loadedNames| ==> loadedNames[i] != loadedNames[j]
    {
      var fileName := unique[k];
      assert fileName !in unique[..k];
      if fileName in sources {
        loadedDocs := loadedDocs[fileName := sources[fileName]];
        loadedNames := loadedNames + [fileName];
      }
      assert unique[..k + 1] == unique[..k] + [fileName];
      k := k + 1;
    }
    assert unique[..k] == unique;
  }

  /** The copying loop of the merge: one page per record whose file loaded. */
  method CopyPages(pages: seq<PagePreview>, loadedDocs: map<string, File>) returns (merged: seq<MergedPage>)
    ensures merged == MergedPages(pages, loadedDocs)
  {
    merged := [];
    var i := 0;
    while i < |pages|
      invariant 0 <= i <= |pages|
      invariant merged == MergedPages(pages[..i], loadedDocs)
    {
      var pageInfo := pages[i];
      if pageInfo.sourceFileName in loadedDocs {
        merged := merged + [MergedPage(loadedDocs[pageInfo.sourceFileName], pageInfo.sourcePageIndex)];
      }
      assert pages[..i + 1][..i] == pages[..i];
      i := i + 1;
    }
    assert pages[..i] == pages;
  }

  /** The file names of the records, in record order. */
  function RecordNames(pages: seq<PagePreview>): (names: seq<string>)
    ensures |names| == |pages|
    ensures forall n :: n in names <==> n in UsedNames(pages)
  {
    var names := seq(|pages|, i requires 0 <= i < |pages| => pages[i].sourceFileName);
    assert forall i :: 0 <= i < |pages| ==> names[i] == pages[i].sourceFileName && pages[i] in pages;
    assert forall n :: n in UsedNames(pages) ==> n in names by {
      forall n | n in UsedNames(pages) ensures n in names {
        var p :| p in pages && p.sourceFileName == n;
        var i :| 0 <= i < |pages| && pages[i] == p;
        assert names[i] == n;
      }
    }
    names
  }

  // ---------------------------------------------------------------------------
  // The screen
  // ---------------------------------------------------------------------------

  class MergeTool {
    var pages: seq<PagePreview>
    var sourceFiles: map<string, File>
    var dragItem: Option<nat>
    var dragOverItem: Option<nat>
    var error: Option<MergeError>

    /** Every record's file is still in the source map. */
    ghost predicate Resolved()
      reads this
    {
      forall p :: p in pages ==> p.sourceFileName in sourceFiles
    }

    constructor ()
      ensures pages == [] && sourceFiles == map[] && error == None
      ensures dragItem == None && dragOverItem == None
    {
      pages := [];
      sourceFiles := map[];
      dragItem := None;
      dragOverItem := None;
      error := None;
    }

    /** `processFiles`: registers the batch in the source map, then reads the
        files one by one, appending one record per rendered page; a file whose
        reading throws is deleted from the map again. */
    method ProcessFiles(files: seq<File>, outcomes: seq<ReadOutcome>, canvasOk: bool, now: nat)
      requires |files| == |outcomes|
      modifies this`pages, this`sourceFiles, this`error
      ensures sourceFiles == Registered(old(sourceFiles), files) - FailedNames(files, outcomes)
      ensures pages == old(pages) + BatchRecords(files, outcomes, canvasOk, now)
      ensures error == LastFailure(files, outcomes)
    {
      error := None;
      var registered := RegisterFiles(sourceFiles, files);
      var newPages, remaining, err := ReadBatch(files, outcomes, canvasOk, now, registered);
      sourceFiles := remaining;
      error := err;
      pages := pages + newPages;
    }

    /** `onFilesSelected`: only PDF files are processed, and only if any. */
    method OnFilesSelected(selected: seq<File>, outcomes: seq<ReadOutcome>, canvasOk: bool, now: nat)
      requires |outcomes| == |PdfFiles(selected)|
      modifies this`pages, this`sourceFiles, this`error
      ensures PdfFiles(selected) == [] ==> pages == old(pages) && sourceFiles == old(sourceFiles) && error == old(error)
      ensures PdfFiles(selected) != [] ==>
                pages == old(pages) + BatchRecords(PdfFiles(selected), outcomes, canvasOk, now)
                && sourceFiles == Registered(old(sourceFiles), PdfFiles(selected)) - FailedNames(PdfFiles(selected), outcomes)
                && error == LastFailure(PdfFiles(selected), outcomes)
    {
      var pdfFiles := PdfFiles(selected);
      if |pdfFiles| > 0 {
        ProcessFiles(pdfFiles, outcomes, canvasOk, now);
      }
    }

    /** `handleRemovePage`: drops every record with the id, then deletes every
        map entry no remaining record refers to. */
    method RemovePage(pageId: string)
      modifies this`pages, this`sourceFiles
      ensures pages == WithoutId(old(pages), pageId)
      ensures sourceFiles == map n | n in old(sourceFiles) && n in UsedNames(pages) :: old(sourceFiles)[n]
      ensures forall n :: n in sourceFiles ==> exists p :: p in pages && p.sourceFileName == n
      ensures old(Resolved()) ==> Resolved()
    {
      var newPages := WithoutId(pages, pageId);
      var used := UsedNames(newPages);
      var files := sourceFiles;
      var keys := files.Keys;
      while keys != {}
        decreases keys
        invariant keys <= old(sourceFiles).Keys
        invariant files == map n | n in old(sourceFiles) && (n in keys || n in used) :: old(sourceFiles)[n]
      {
        var k :| k in keys;
        if k !in used {
          files := files - {k};
        }
        keys := keys - {k};
      }
      pages := newPages;
      sourceFiles := files;
    }

    /** `onDragStart` on the card at `index`. */
    method DragStart(index: nat)
      modifies this`dragItem
      ensures dragItem == Some(index)
    {
      dragItem := Some(index);
    }

    /** `onDragEnter` on the card at `index`. */
    method DragEnter(index: nat)
      modifies this`dragOverItem
      ensures dragOverItem == Some(index)
    {
      dragOverItem := Some(index);
    }

    /** `handleSort`: with both indices set and different, moves the dragged
        record to the hovered position; in every case clears both indices. */
    method HandleSort()
      requires dragItem.Some? ==> dragItem.value < |pages|
      requires dragOverItem.Some? ==> dragOverItem.value < |pages|
      modifies this`pages, this`dragItem, this`dragOverItem
      ensures dragItem == None && dragOverItem == None
      ensures old(dragItem).None? || old(dragOverItem).None? || old(dragItem) == old(dragOverItem) ==> pages == old(pages)
      ensures old(dragItem).Some? && old(dragOverItem).Some? && old(dragItem) != old(dragOverItem) ==>
                pages == Moved(old(pages), old(dragItem).value, old(dragOverItem).value)
                && pages[old(dragOverItem).value] == old(pages)[old(dragItem).value]
      ensures |pages| == |old(pages)| && multiset(pages) == multiset(old(pages))
    {
      if dragItem.None? || dragOverItem.None? || dragItem == dragOverItem {
        dragItem := None;
        dragOverItem := None;
        return;
      }
      var from, to := dragItem.value, dragOverItem.value;
      MovedAt(pages, from, to, to);
      MovedPermutation(pages, from, to);
      var newPages := Moved(pages, from, to);
      dragItem := None;
      dragOverItem := None;
      pages := newPages;
    }

    /** `handleMerge`: with no records, reports it; otherwise loads each
        distinct referenced file that is still in the map once, copies one page
        per record whose file was loaded, in record order, and resets. */
    method HandleMerge(libraryFails: bool) returns (out: Option<Download<seq<MergedPage>>>, loadedNames: seq<string>)
      modifies this`pages, this`sourceFiles, this`error
      ensures old(pages) == [] ==>
                out == None && error == Some(NothingToMerge) && pages == old(pages) && sourceFiles == old(sourceFiles)
      ensures old(pages) != [] ==> forall n :: n in loadedNames <==> n in UsedNames(old(pages)) && n in old(sourceFiles)
      ensures forall i, j :: 0 <= i < j < |loadedNames| ==> loadedNames[i] != loadedNames[j]
      ensures old(pages) != [] && libraryFails ==>
                out == None && error == Some(MergeFailed) && pages == old(pages) && sourceFiles == old(sourceFiles)
      ensures old(pages) != [] && !libraryFails ==>
                out == Some(Download(MergedPages(old(pages), old(sourceFiles)), MergedName, PdfMime))
                && error == None && pages == [] && sourceFiles == map[]
    {
      loadedNames := [];
      if |pages| < 1 {
        error := Some(NothingToMerge);
        return None, loadedNames;
      }
      error := None;
      var unique := Distinct(RecordNames(pages));
      var loadedDocs;
      loadedDocs, loadedNames := LoadDistinct(unique, sourceFiles);
      var merged := CopyPages(pages, loadedDocs);
      MergedPagesAgree(pages, loadedDocs, sourceFiles);
      if libraryFails {
        error := Some(MergeFailed);
        return None, loadedNames;
      }
      out := Some(Download(merged, MergedName, PdfMime));
      pages := [];
      sourceFiles := map[];
    }
  }
}

=== FILE: ocr_pdf.dfy ===
/** The OCR tool: each page of the chosen PDF is rendered, recognised, and
    copied into a new document as an image with the recognised words laid
    over it as invisible text, which makes the result searchable. */
module OcrPdf {
  import opened Base
  import opened FileNames
  import opened Lists
  import opened JsText

  // ---------------------------------------------------------------------------
  // Sanitising recognised words
  // ---------------------------------------------------------------------------

  /** U+200E LEFT-TO-RIGHT MARK and U+200F RIGHT-TO-LEFT MARK, which the
      embedded font cannot draw. */
  predicate IsDirectionMark(c: char) {
    c == '\U{200E}' || c == '\U{200F}'
  }

  /** `text.replace(/[‎‏]/g, '')`. */
  function Sanitize(s: string): (r: string)
    ensures |r| <= |s|
    ensures forall i :: 0 <= i < |r| ==> !IsDirectionMark(r[i])
  {
    if s == [] then []
    else (if IsDirectionMark(s[0]) then [] else [s[0]]) + Sanitize(s[1..])
  }

  /** Sanitising distributes over concatenation, so every character other
      than the two marks is kept, in order. */
  lemma {:induction false} SanitizeConcat(a: string, b: string)
    ensures Sanitize(a + b) == Sanitize(a) + Sanitize(b)
  {
    if a != [] {
      assert (a + b)[0] == a[0] && (a + b)[1..] == a[1..] + b;
      SanitizeConcat(a[1..], b);
    } else {
      assert a + b == b;
    }
  }

  /** A string with no marks is left as it is. */
  lemma {:induction false} SanitizeKeepsClean(s: string)
    requires forall i :: 0 <= i < |s| ==> !IsDirectionMark(s[i])
    ensures Sanitize(s) == s
  {
    if s != [] {
      SanitizeKeepsClean(s[1..]);
    }
  }

  /** Sanitising twice is sanitising once. */
  lemma SanitizeIdempotent(s: string)
    ensures Sanitize(Sanitize(s)) == Sanitize(s)
  {
    SanitizeKeepsClean(Sanitize(s));
  }

  /** A word sanitises to nothing exactly when it consists of marks only. */
  lemma {:induction false} SanitizeEmptyIffOnlyMarks(s: string)
    ensures Sanitize(s) == [] <==> forall i :: 0 <= i < |s| ==> IsDirectionMark(s[i])
  {
    if s != [] {
      SanitizeEmptyIffOnlyMarks(s[1..]);
      assert forall i :: 1 <= i < |s| ==> s[i] == s[1..][i - 1];
    }
  }

  // ---------------------------------------------------------------------------
  // Coordinates
  // ---------------------------------------------------------------------------

  /** A recognised word's box in canvas pixels, y growing downwards. */
  datatype BBox = BBox(x0: real, y0: real, x1: real, y1: real)

  datatype Word = Word(text: string, bbox: BBox)

  /** An invisible text run drawn on the output page, in PDF points with y
      growing upwards. */
  datatype TextRun = TextRun(text: string, x: real, y: real, size: real)

  /** The box mapping of `handleOcr`: x scales from canvas width to page
      width; y is measured from the page bottom to the box's lower edge. */
  function MapX(b: BBox, canvas: Size, page: Size): real
    requires canvas.width > 0.0
  {
    (b.x0 / canvas.width) * page.width
  }

  function MapY(b: BBox, canvas: Size, page: Size): real
    requires canvas.height > 0.0
  {
    page.height - (b.y1 / canvas.height) * page.height
  }

  function MapWidth(b: BBox, canvas: Size, page: Size): real
    requires canvas.width > 0.0
  {
    ((b.x1 - b.x0) / canvas.width) * page.width
  }

  /** A box inside the canvas maps inside the page: x in [0, page width],
      y in [0, page height], and the mapped run ends within the page. */
  lemma MappedBoxInsidePage(b: BBox, canvas: Size, page: Size)
    requires canvas.width > 0.0 && canvas.height > 0.0 && page.width >= 0.0 && page.height >= 0.0
    requires 0.0 <= b.x0 <= b.x1 <= canvas.width && 0.0 <= b.y1 <= canvas.height
    ensures 0.0 <= MapX(b, canvas, page) <= page.width
    ensures 0.0 <= MapY(b, canvas, page) <= page.height
    ensures 0.0 <= MapWidth(b, canvas, page)
    ensures MapX(b, canvas, page) + MapWidth(b, canvas, page) <= page.width
  {
    var fx0, fx1, fy := b.x0 / canvas.width, b.x1 / canvas.width, b.y1 / canvas.height;
    assert fx0 * canvas.width == b.x0 && fx1 * canvas.width == b.x1 && fy * canvas.height == b.y1;
    assert 0.0 <= fx0 <= fx1 <= 1.0;
    assert 0.0 <= fy <= 1.0;
    assert fx0 * page.width <= page.width;
    assert fy * page.height <= page.height;
    assert (b.x1 - b.x0) / canvas.width == fx1 - fx0;
    assert fx0 * page.width + (fx1 - fx0) * page.width == fx1 * page.width;
    assert fx1 * page.width <= page.width;
  }

  /** The font size that makes the run as wide as the box: width over length
      (in UTF-16 code units, as `text.length` counts), times 1.5. */
  function FontSize(width: real, length: nat): (size: real)
    requires length > 0
    ensures width > 0.0 ==> size > 0.0
    ensures size * (length as real) == width * 1.5
  {
    (width / (length as real)) * 1.5
  }

  /** The run drawn for one word, if any: none when the sanitised text is
      empty, and none when the font cannot draw it (`drawOk` false), in which
      case the error is swallowed. */
  function WordRun(w: Word, drawOk: bool, canvas: Size, page: Size): (r: seq<TextRun>)
    requires canvas.width > 0.0 && canvas.height > 0.0
    ensures |r| <= 1
    ensures |r| == 1 <==> drawOk && Sanitize(w.text) != []
    ensures |r| == 1 ==> r[0].text == Sanitize(w.text) && r[0].x == MapX(w.bbox, canvas, page)
                         && r[0].y == MapY(w.bbox, canvas, page)
    ensures |r| == 1 ==> r[0].size == FontSize(MapWidth(w.bbox, canvas, page), Utf16Length(r[0].text))
  {
    var sanitizedText := Sanitize(w.text);
    if |sanitizedText| > 0 && drawOk then
      [TextRun(sanitizedText, MapX(w.bbox, canvas, page), MapY(w.bbox, canvas, page),
               FontSize(MapWidth(w.bbox, canvas, page), Utf16Length(sanitizedText)))]
    else []
  }

  /** The text layer of one page: the runs of its words, in word order. */
  function TextLayer(words: seq<Word>, drawOk: seq<bool>, canvas: Size, page: Size): seq<TextRun>
    requires |drawOk| == |words|
    requires canvas.width > 0.0 && canvas.height > 0.0
  {
    if words == [] then []
    else
      var k := |words| - 1;
      TextLayer(words[..k], drawOk[..k], canvas, page) + WordRun(words[k], drawOk[k], canvas, page)
  }

  /** The layer of two runs of words is the two layers one after the other. */
  lemma {:induction false} TextLayerAppend(w1: seq<Word>, ok1: seq<bool>, w2: seq<Word>, ok2: seq<bool>, canvas: Size, page: Size)
    requires |ok1| == |w1| && |ok2| == |w2|
    requires canvas.width > 0.0 && canvas.height > 0.0
    ensures TextLayer(w1 + w2, ok1 + ok2, canvas, page) == TextLayer(w1, ok1, canvas, page) + TextLayer(w2, ok2, canvas, page)
    decreases |w2|
  {
    if w2 == [] {
      assert w1 + w2 == w1 && ok1 + ok2 == ok1;
    } else {
      var k := |w2| - 1;
      DropLastOfConcat(w1, w2);
      DropLastOfConcat(ok1, ok2);
      TextLayerAppend(w1, ok1, w2[..k], ok2[..k], canvas, page);
      AppendAssoc(TextLayer(w1, ok1, canvas, page), TextLayer(w2[..k], ok2[..k], canvas, page),
                  WordRun(w2[k], ok2[k], canvas, page));
    }
  }

  /** One word's failure only loses that word's run: the layer is the layer
      of the words before it, its own run, and the layer of the words after. */
  lemma TextLayerSplit(words: seq<Word>, drawOk: seq<bool>, canvas: Size, page: Size, k: nat)
    requires |drawOk| == |words| && k < |words|
    requires canvas.width > 0.0 && canvas.height > 0.0
    ensures TextLayer(words, drawOk, canvas, page)
            == TextLayer(words[..k], drawOk[..k], canvas, page) + WordRun(words[k], drawOk[k], canvas, page)
               + TextLayer(words[k + 1..], drawOk[k + 1..], canvas, page)
  {
    var pre, preOk := words[..k + 1], drawOk[..k + 1];
    assert words == pre + words[k + 1..] && drawOk == preOk + drawOk[k + 1..];
    TextLayerAppend(pre, preOk, words[k + 1..], drawOk[k + 1..], canvas, page);
    assert pre[..k] == words[..k] && preOk[..k] == drawOk[..k] && pre[k] == words[k] && preOk[k] == drawOk[k];
    assert TextLayer(pre, preOk, canvas, page)
           == TextLayer(words[..k], drawOk[..k], canvas, page) + WordRun(words[k], drawOk[k], canvas, page);
  }

  /** Every drawn run carries non-empty, mark-free text. */
  lemma {:induction false} TextLayerClean(words: seq<Word>, drawOk: seq<bool>, canvas: Size, page: Size)
    requires |drawOk| == |words|
    requires canvas.width > 0.0 && canvas.height > 0.0
    ensures |TextLayer(words, drawOk, canvas, page)| <= |words|
    ensures forall r :: r in TextLayer(words, drawOk, canvas, page) ==>
              r.text != [] && forall i :: 0 <= i < |r.text| ==> !IsDirectionMark(r.text[i])
  {
    if words != [] {
      var k := |words| - 1;
      TextLayerClean(words[..k], drawOk[..k], canvas, page);
    }
  }

  /** The word loop (`data.words.forEach`). */
  method DrawWords(words: seq<Word>, drawOk: seq<bool>, canvas: Size, page: Size) returns (runs: seq<TextRun>)
    requires |drawOk| == |words|
    requires canvas.width > 0.0 && canvas.height > 0.0
    ensures runs == TextLayer(words, drawOk, canvas, page)
  {
    runs := [];
    var i := 0;
    while i < |words|
      invariant 0 <= i <= |words|
      invariant runs == TextLayer(words[..i], drawOk[..i], canvas, page)
    {
      assert words[..i + 1][..i] == words[..i] && drawOk[..i + 1][..i] == drawOk[..i];
      var sanitizedText := Sanitize(words[i].text);
      if |sanitizedText| > 0 {
        var b := words[i].bbox;
        var x := MapX(b, canvas, page);
        var y := MapY(b, canvas, page);
        var width := MapWidth(b, canvas, page);
        if drawOk[i] {
          runs := runs + [TextRun(sanitizedText, x, y, FontSize(width, Utf16Length(sanitizedText)))];
        }
      }
      i := i + 1;
    }
    assert words[..i] == words && drawOk[..i] == drawOk;
  }

  // ---------------------------------------------------------------------------
  // Pages
  // ---------------------------------------------------------------------------

  /** What the renderer and the recogniser give for one source page: whether
      a 2D canvas context was available, the canvas size, the page's `view`
      box size, and the recognised words with whether each can be drawn. */
  datatype SourcePage = SourcePage(hasContext: bool, canvas: Size, view: Size, words: seq<Word>, drawOk: seq<bool>)

  predicate WellFormed(p: SourcePage) {
    |p.drawOk| == |p.words| && (p.hasContext ==> p.canvas.width > 0.0 && p.canvas.height > 0.0)
  }

  /** One page of the searchable document: its size and its text layer (the
      page image under it is left out). */
  datatype SearchablePage = SearchablePage(width: real, height: real, runs: seq<TextRun>)

  function PageFor(p: SourcePage): SearchablePage
    requires WellFormed(p) && p.hasContext
  {
    SearchablePage(p.view.width, p.view.height, TextLayer(p.words, p.drawOk, p.canvas, p.view))
  }

  /** The searchable document: one page per source page with a context. */
  function SearchablePages(pages: seq<SourcePage>): seq<SearchablePage>
    requires forall i :: 0 <= i < |pages| ==> WellFormed(pages[i])
  {
    if pages == [] then []
    else
      var k := |pages| - 1;
      SearchablePages(pages[..k]) + (if pages[k].hasContext then [PageFor(pages[k])] else [])
  }

  /** The number of source pages that had a context. */
  function RenderedCount(pages: seq<SourcePage>): nat {
    if pages == [] then 0
    else RenderedCount(pages[..|pages| - 1]) + (if pages[|pages| - 1].hasContext then 1 else 0)
  }

  predicate HasContext(p: SourcePage) {
    p.hasContext
  }

  /** The source pages that got a canvas context, in source order. */
  function RenderedPages(pages: seq<SourcePage>): seq<SourcePage> {
    Filter(pages, HasContext)
  }

  /** The searchable document follows the rendered source pages one to one
      and in order: output page `j` is built from the `j`-th source page that
      got a context, with that page's view size and text layer. */
  lemma {:induction false} SearchablePagesShape(pages: seq<SourcePage>)
    requires forall i :: 0 <= i < |pages| ==> WellFormed(pages[i])
    ensures |SearchablePages(pages)| == |RenderedPages(pages)| == RenderedCount(pages)
    ensures forall j :: 0 <= j < |RenderedPages(pages)| ==>
              RenderedPages(pages)[j] in pages && RenderedPages(pages)[j].hasContext
    ensures forall j :: 0 <= j < |RenderedPages(pages)| ==>
              WellFormed(RenderedPages(pages)[j]) && SearchablePages(pages)[j] == PageFor(RenderedPages(pages)[j])
  {
    if pages != [] {
      SearchablePagesShape(pages[..|pages| - 1]);
      RenderedPagesSnoc(pages);
    }
    var r := RenderedPages(pages);
    forall j | 0 <= j < |r| ensures r[j] in pages && r[j].hasContext && WellFormed(r[j]) {
      assert r[j] in r;
    }
  }

  /** One more source page is rendered exactly when it has a context. */
  lemma RenderedPagesSnoc(pages: seq<SourcePage>)
    requires pages != []
    ensures var k := |pages| - 1;
            RenderedPages(pages) == RenderedPages(pages[..k]) + (if pages[k].hasContext then [pages[k]] else [])
  {
    var k := |pages| - 1;
    assert pages == pages[..k] + [pages[k]];
    FilterConcat(pages[..k], [pages[k]], HasContext);
    FilterSingle(pages[k], HasContext);
  }

  /** The page loop of `handleOcr`. */
  method OcrPages(pages: seq<SourcePage>) returns (out: seq<SearchablePage>)
    requires forall i :: 0 <= i < |pages| ==> WellFormed(pages[i])
    ensures out == SearchablePages(pages)
  {
    out := [];
    var i := 1;
    while i <= |pages|
      invariant 1 <= i <= |pages| + 1
      invariant out == SearchablePages(pages[..i - 1])
    {
      var page := pages[i - 1];
      assert pages[..i][..i - 1] == pages[..i - 1];
      if !page.hasContext {
        i := i + 1;
        continue;
      }
      var runs := DrawWords(page.words, page.drawOk, page.canvas, page.view);
      out := out + [SearchablePage(page.view.width, page.view.height, runs)];
      i := i + 1;
    }
    assert pages[..i - 1] == pages;
  }

  // ---------------------------------------------------------------------------
  // The screen
  // ---------------------------------------------------------------------------

  datatype OcrError = OcrFailed

  const SearchableSuffix: string := "_searchable.pdf"

  class OcrTool {
    var file: Option<File>
    var error: Option<OcrError>
    var progress: nat
    var status: string

    constructor ()
      ensures file == None && error == None && progress == 0 && status == ""
    {
      file := None;
      error := None;
      progress := 0;
      status := "";
    }

    /** `onFilesSelected`: the first file becomes the document. */
    method OnFilesSelected(files: seq<File>)
      modifies this
      ensures files == [] ==> file == old(file) && error == old(error) && progress == old(progress) && status == old(status)
      ensures files != [] ==> file == Some(files[0]) && error == None && progress == 0 && status == ""
    {
      if |files| > 0 {
        file := Some(files[0]);
        error := None;
        progress := 0;
        status := "";
      }
    }

    /** `handleOcr`: builds the searchable document and offers it as
        stem + "_searchable.pdf"; whatever happens, progress and status are
        cleared at the end. */
    method HandleOcr(pages: seq<SourcePage>, libraryFails: bool) returns (out: Option<Download<seq<SearchablePage>>>)
      requires forall i :: 0 <= i < |pages| ==> WellFormed(pages[i])
      modifies this
      ensures old(file).None? ==> out == None && file == old(file) && error == old(error)
                                  && progress == old(progress) && status == old(status)
      ensures old(file).Some? ==> progress == 0 && status == ""
      ensures old(file).Some? && libraryFails ==> out == None && file == old(file) && error == Some(OcrFailed)
      ensures old(file).Some? && !libraryFails ==>
                out == Some(Download(SearchablePages(pages), OutputName(old(file).value.name, SearchableSuffix), PdfMime))
                && file == None && error == None
    {
      out := None;
      if file.None? {
        return;
      }
      error := None;
      if libraryFails {
        error := Some(OcrFailed);
      } else {
        var searchable := OcrPages(pages);
        out := Some(Download(searchable, OutputName(file.value.name, SearchableSuffix), PdfMime));
        file := None;
      }
      progress := 0;
      status := "";
    }
  }
}

=== FILE: page_numbers.dfy ===
/** The page-number tool: every page of the chosen PDF gets the label
    "i / n" at one of six anchors (top or bottom, left, centre or right). */
module AddPageNumbers {
  import opened Base
  import opened JsText
  import opened FileNames

  datatype Position = TopLeft | TopCenter | TopRight | BottomLeft | BottomCenter | BottomRight

  /** The position as the screen stores it; the anchor is chosen by testing
      this string for "bottom", "left" and "center". */
  function PositionName(p: Position): string {
    match p
    case TopLeft => "top-left"
    case TopCenter => "top-center"
    case TopRight => "top-right"
    case BottomLeft => "bottom-left"
    case BottomCenter => "bottom-center"
    case BottomRight => "bottom-right"
  }

  /** A label drawn on a page: its text and lower-left corner. */
  datatype Stamp = Stamp(text: string, x: real, y: real)

  datatype NumberingError = NumberingFailed

  const NumberedSuffix: string := "_numbered.pdf"

  // ---------------------------------------------------------------------------
  // Labels
  // ---------------------------------------------------------------------------

  /** `${i + 1} / ${n}`: the label of page `i` (from 0) of `n`. */
  function Label(i: nat, n: nat): (r: string)
    ensures StartsWith(r, NatToString(i + 1))
    ensures EndsWith(r, " / " + NatToString(n))
    ensures |r| == |NatToString(i + 1)| + 3 + |NatToString(n)|
    ensures r[..|NatToString(i + 1)|] == NatToString(i + 1) && r[|NatToString(i + 1)| + 3..] == NatToString(n)
  {
    var a, t := NatToString(i + 1), NatToString(n);
    var r := a + " / " + t;
    assert r[..|a|] == a;
    assert r[|r| - |" / " + t|..] == " / " + t;
    assert r[|a| + 3..] == t;
    r
  }

  /** Different pages of one document get different labels. */
  lemma LabelsDistinct(i: nat, j: nat, n: nat)
    requires i != j
    ensures Label(i, n) != Label(j, n)
  {
    NatToStringInjective(i + 1, j + 1);
    SeparatedRunsDiffer(NatToString(i + 1), NatToString(j + 1), NatToString(n));
  }

  /** Two different digit runs before the same " / " and total differ. */
  lemma SeparatedRunsDiffer(a: string, b: string, total: string)
    requires a != b
    requires forall k :: 0 <= k < |a| ==> '0' <= a[k] <= '9'
    requires forall k :: 0 <= k < |b| ==> '0' <= b[k] <= '9'
    ensures a + " / " + total != b + " / " + total
  {
    DigitRunsDiffer(a, b, " / " + total);
    assert a + " / " + total == a + (" / " + total);
    assert b + " / " + total == b + (" / " + total);
  }

  // ---------------------------------------------------------------------------
  // Anchors
  // ---------------------------------------------------------------------------

  /** A pattern between two strings is contained in their concatenation. */
  lemma FoundIn(a: string, pat: string, b: string)
    ensures Contains(a + pat + b, pat)
  {
    var s := a + pat + b;
    assert s[|a|..|a| + |pat|] == pat;
    assert OccursAt(s, pat, |a|);
  }

  /** A pattern whose first character never appears is not contained. */
  lemma FirstCharAbsent(s: string, pat: string)
    requires pat != [] && forall i :: 0 <= i < |s| ==> s[i] != pat[0]
    ensures !Contains(s, pat)
  {
    forall k: nat | k <= |s| ensures !OccursAt(s, pat, k) {
      if k + |pat| <= |s| {
        assert s[k..k + |pat|][0] == s[k];
      }
    }
  }

  /** `position.includes('bottom')` holds exactly for the bottom row. */
  lemma BottomTest(p: Position)
    ensures Contains(PositionName(p), "bottom") <==> p in {BottomLeft, BottomCenter, BottomRight}
  {
    match p
    case TopLeft => FirstCharAbsent("top-left", "bottom");
    case TopCenter => FirstCharAbsent("top-center", "bottom");
    case TopRight => FirstCharAbsent("top-right", "bottom");
    case BottomLeft => { FoundIn("", "bottom", "-left"); assert PositionName(p) == "" + "bottom" + "-left"; }
    case BottomCenter => { FoundIn("", "bottom", "-center"); assert PositionName(p) == "" + "bottom" + "-center"; }
    case BottomRight => { FoundIn("", "bottom", "-right"); assert PositionName(p) == "" + "bottom" + "-right"; }
  }

  /** `position.includes('left')` holds exactly for the left column. */
  lemma LeftTest(p: Position)
    ensures Contains(PositionName(p), "left") <==> p in {TopLeft, BottomLeft}
  {
    match p
    case TopLeft => { FoundIn("top-", "left", ""); assert PositionName(p) == "top-" + "left" + ""; }
    case TopCenter => FirstCharAbsent("top-center", "left");
    case TopRight => FirstCharAbsent("top-right", "left");
    case BottomLeft => { FoundIn("bottom-", "left", ""); assert PositionName(p) == "bottom-" + "left" + ""; }
    case BottomCenter => FirstCharAbsent("bottom-center", "left");
    case BottomRight => FirstCharAbsent("bottom-right", "left");
  }

  /** `position.includes('center')` holds exactly for the centre column. */
  lemma CenterTest(p: Position)
    ensures Contains(PositionName(p), "center") <==> p in {TopCenter, BottomCenter}
  {
    match p
    case TopLeft => FirstCharAbsent("top-left", "center");
    case TopCenter => { FoundIn("top-", "center", ""); assert PositionName(p) == "top-" + "center" + ""; }
    case TopRight => FirstCharAbsent("top-right", "center");
    case BottomLeft => FirstCharAbsent("bottom-left", "center");
    case BottomCenter => { FoundIn("bottom-", "center", ""); assert PositionName(p) == "bottom-" + "center" + ""; }
    case BottomRight => FirstCharAbsent("bottom-right", "center");
  }

  /** The label's lower-left corner on a page of `size` whose label is
      `textWidth` wide: bottom rows sit `margin` above the bottom edge, top rows
      `fontSize + margin` below the top edge; left labels start `margin` from
      the left edge, centred labels are centred, right labels end `margin`
      before the right edge. */
  function Anchor(p: Position, size: Size, textWidth: real, fontSize: real, margin: real): (a: (real, real))
    ensures p in {BottomLeft, BottomCenter, BottomRight} ==> a.1 == margin
    ensures p in {TopLeft, TopCenter, TopRight} ==> a.1 == size.height - fontSize - margin
    ensures p in {TopLeft, BottomLeft} ==> a.0 == margin
    ensures p in {TopCenter, BottomCenter} ==> a.0 == (size.width - textWidth) / 2.0
    ensures p in {TopRight, BottomRight} ==> a.0 == size.width - textWidth - margin
  {
    var name := PositionName(p);
    BottomTest(p);
    LeftTest(p);
    CenterTest(p);
    var y := if Contains(name, "bottom") then margin else size.height - fontSize - margin;
    var x := if Contains(name, "left") then margin
             else if Contains(name, "center") then (size.width - textWidth) / 2.0
             else size.width - textWidth - margin;
    (x, y)
  }

  /** Left and right labels mirror each other, centred labels have their
      midpoint on the page's vertical axis, and top labels mirror bottom
      labels (the top of a top label is as far from the top edge as a bottom
      label is from the bottom edge). */
  lemma AnchorsMirror(size: Size, textWidth: real, fontSize: real, margin: real)
    ensures Anchor(TopRight, size, textWidth, fontSize, margin).0 == size.width - textWidth - Anchor(TopLeft, size, textWidth, fontSize, margin).0
    ensures Anchor(BottomRight, size, textWidth, fontSize, margin).0 == size.width - textWidth - Anchor(BottomLeft, size, textWidth, fontSize, margin).0
    ensures Anchor(TopCenter, size, textWidth, fontSize, margin).0 + textWidth / 2.0 == size.width / 2.0
    ensures Anchor(BottomCenter, size, textWidth, fontSize, margin).0 + textWidth / 2.0 == size.width / 2.0
    ensures size.height - (Anchor(TopCenter, size, textWidth, fontSize, margin).1 + fontSize) == Anchor(BottomCenter, size, textWidth, fontSize, margin).1
  {
  }

  /** The page loop of `handleAddNumbers`: page `i` gets label "i+1 / n" at
      the chosen anchor. `textWidths[i]` is the width the font reports for the
      label of page `i`. */
  method NumberPages(pages: seq<Size>, textWidths: seq<real>, p: Position, fontSize: real, margin: real)
    returns (stamps: seq<Stamp>)
    requires |textWidths| == |pages|
    ensures |stamps| == |pages|
    ensures forall i :: 0 <= i < |stamps| ==>
              var a := Anchor(p, pages[i], textWidths[i], fontSize, margin);
              stamps[i] == Stamp(Label(i, |pages|), a.0, a.1)
  {
    stamps := [];
    var i := 0;
    while i < |pages|
      invariant 0 <= i <= |pages| && |stamps| == i
      invariant forall k :: 0 <= k < i ==>
                  var a := Anchor(p, pages[k], textWidths[k], fontSize, margin);
                  stamps[k] == Stamp(Label(k, |pages|), a.0, a.1)
    {
      var text := Label(i, |pages|);
      var xy := Anchor(p, pages[i], textWidths[i], fontSize, margin);
      stamps := stamps + [Stamp(text, xy.0, xy.1)];
      i := i + 1;
    }
  }

  // ---------------------------------------------------------------------------
  // The screen
  // ---------------------------------------------------------------------------

  class PageNumbersTool {
    var file: Option<File>
    var error: Option<NumberingError>
    var position: Position
    var fontSize: real
    var margin: real

    constructor ()
      ensures file == None && error == None && position == BottomCenter && fontSize == 12.0 && margin == 20.0
    {
      file := None;
      error := None;
      position := BottomCenter;
      fontSize := 12.0;
      margin := 20.0;
    }

    /** `onFilesSelected`: the first file becomes the document. */
    method OnFilesSelected(files: seq<File>)
      modifies this`file, this`error
      ensures files == [] ==> file == old(file) && error == old(error)
      ensures files != [] ==> file == Some(files[0]) && error == None
    {
      if |files| > 0 {
        file := Some(files[0]);
        error := None;
      }
    }

    /** The position selector. */
    method SetPosition(p: Position)
      modifies this`position
      ensures position == p
    {
      position := p;
    }

    /** `handleAddNumbers`: stamps every page with its label at the anchor
        of the chosen position, offers the result as stem + "_numbered.pdf"
        and clears the file. */
    method HandleAddNumbers(pages: seq<Size>, textWidths: seq<real>, libraryFails: bool)
      returns (out: Option<Download<seq<Stamp>>>)
      requires |textWidths| == |pages|
      modifies this`file, this`error
      ensures old(file).None? ==> out == None && file == old(file) && error == old(error)
      ensures old(file).Some? && libraryFails ==> out == None && file == old(file) && error == Some(NumberingFailed)
      ensures old(file).Some? && !libraryFails ==>
                out.Some? && out.value.name == OutputName(old(file).value.name, NumberedSuffix)
                && out.value.mime == PdfMime && |out.value.content| == |pages|
                && (forall i :: 0 <= i < |pages| ==>
                      var a := Anchor(position, pages[i], textWidths[i], fontSize, margin);
                      out.value.content[i] == Stamp(Label(i, |pages|), a.0, a.1))
                && file == None && error == None
    {
      if file.None? {
        return None;
      }
      error := None;
      if libraryFails {
        error := Some(NumberingFailed);
        return None;
      }
      var stamps := NumberPages(pages, textWidths, position, fontSize, margin);
      out := Some(Download(stamps, OutputName(file.value.name, NumberedSuffix), PdfMime));
      file := None;
    }
  }
}

=== FILE: pdf_to_image.dfy ===
/** The PDF-to-image tool: every page of the chosen PDF is rendered to a JPEG
    or PNG image, and the images are packed into one archive. */
module PdfToImage {
  import opened Base
  import opened JsText
  import opened FileNames

  datatype ImageFormat = Jpeg | Png

  /** The format's name as used in entry names and MIME types. */
  function FormatName(f: ImageFormat): string {
    match f
    case Jpeg => "jpeg"
    case Png => "png"
  }

  /** `image/${imageFormat}`. */
  function MimeFor(f: ImageFormat): (m: string)
    ensures IsImageMime(m)
    ensures m == "image/jpeg" || m == "image/png"
    ensures f == Jpeg <==> m == "image/jpeg"
  {
    var m := "image/" + FormatName(f);
    assert m[..6] == "image/";
    m
  }

  /** One archive entry: its name, the MIME type the page was encoded with,
      and the 1-based page it shows. */
  datatype ImageEntry = ImageEntry(name: string, mime: string, pageNumber: nat)

  /** The entry of page `n`. */
  function EntryFor(n: nat, f: ImageFormat): ImageEntry {
    ImageEntry(PageEntryName(n, FormatName(f)), MimeFor(f), n)
  }

  datatype ConversionError = NoFile | ConversionFailed

  /** The loop of `handleConversion`. `hasContext[i]` says whether page i+1
      got a drawing context; the first page without one aborts the whole
      conversion (`None`). Otherwise entry i is page i+1, named
      "page_{i+1}.{format}". */
  method ConvertPages(hasContext: seq<bool>, f: ImageFormat) returns (entries: Option<seq<ImageEntry>>)
    ensures entries.None? <==> exists i :: 0 <= i < |hasContext| && !hasContext[i]
    ensures entries.Some? ==> |entries.value| == |hasContext|
    ensures entries.Some? ==> forall i :: 0 <= i < |hasContext| ==> entries.value[i] == EntryFor(i + 1, f)
  {
    var zip: seq<ImageEntry> := [];
    var i := 1;
    while i <= |hasContext|
      invariant 1 <= i <= |hasContext| + 1
      invariant |zip| == i - 1
      invariant forall k :: 0 <= k < i - 1 ==> hasContext[k] && zip[k] == EntryFor(k + 1, f)
    {
      if !hasContext[i - 1] {
        return None;
      }
      var mimeType := MimeFor(f);
      zip := zip + [ImageEntry(PageEntryName(i, FormatName(f)), mimeType, i)];
      i := i + 1;
    }
    entries := Some(zip);
  }

  /** The entries of a successful conversion carry pairwise distinct names. */
  lemma EntryNamesUnique(entries: seq<ImageEntry>, f: ImageFormat)
    requires forall i :: 0 <= i < |entries| ==> entries[i] == EntryFor(i + 1, f)
    ensures forall i, j :: 0 <= i < j < |entries| ==> entries[i].name != entries[j].name
  {
    forall i, j | 0 <= i < j < |entries|
      ensures entries[i].name != entries[j].name
    {
      EntryNamesDistinct(i + 1, j + 1, FormatName(f));
    }
  }

  class PdfToImageTool {
    var file: Option<File>
    var isLoading: bool
    var error: Option<ConversionError>
    var status: string
    var imageFormat: ImageFormat

    constructor ()
      ensures file == None && !isLoading && error == None && status == "" && imageFormat == Jpeg
    {
      file := None;
      isLoading := false;
      error := None;
      status := "";
      imageFormat := Jpeg;
    }

    /** `onFilesSelected`. */
    method OnFilesSelected(files: seq<File>)
      modifies this`file, this`error, this`status
      ensures files == [] ==> file == old(file) && error == old(error) && status == old(status)
      ensures files != [] ==> file == Some(files[0]) && error == None && status == ""
    {
      if |files| > 0 {
        file := Some(files[0]);
        error := None;
        status := "";
      }
    }

    /** The format buttons. */
    method SetImageFormat(f: ImageFormat)
      modifies this`imageFormat
      ensures imageFormat == f
    {
      imageFormat := f;
    }

    /** `handleConversion`: with no file, an error; otherwise one image per
        page in the chosen format, offered as stem + ".zip", after which the
        file and status are cleared. A page without a drawing context, or any
        library failure, aborts with an error and no archive. */
    method HandleConversion(hasContext: seq<bool>, libraryFails: bool) returns (out: Option<Download<seq<ImageEntry>>>)
      modifies this`file, this`isLoading, this`error, this`status
      ensures old(file).None? ==> out == None && error == Some(NoFile) && file == old(file) && isLoading == old(isLoading)
                                  && status == old(status)
      ensures old(file).Some? ==> !isLoading
      ensures (old(file).Some? && (libraryFails || exists i :: 0 <= i < |hasContext| && !hasContext[i])) ==>
                out == None && error == Some(ConversionFailed) && file == old(file)
      ensures (old(file).Some? && !libraryFails && forall i :: 0 <= i < |hasContext| ==> hasContext[i]) ==>
                out.Some? && error == None && file == None && status == ""
                && out.value.name == OutputStem(old(file).value.name) + ".zip" && out.value.mime == ZipMime
                && |out.value.content| == |hasContext|
                && forall i :: 0 <= i < |hasContext| ==> out.value.content[i] == EntryFor(i + 1, imageFormat)
    {
      if file.None? {
        error := Some(NoFile);
        return None;
      }
      isLoading := true;
      error := None;
      out := None;
      if libraryFails {
        error := Some(ConversionFailed);
      } else {
        var entries := ConvertPages(hasContext, imageFormat);
        if entries.None? {
          error := Some(ConversionFailed);
        } else {
          out := Some(Download(entries.value, OutputStem(file.value.name) + ".zip", ZipMime));
          file := None;
          status := "";
        }
      }
      isLoading := false;
    }
  }
}

=== FILE: pdf_to_word.dfy ===
/** The PDF-to-Word tool: reads the text layer; when it is blank the screen
    asks the user to start recognition instead; non-blank text is sent to the
    remote model for HTML formatting and the result is downloaded as a Word
    document. */
module PdfToWord {
  import opened Base
  import opened JsText
  import opened FileNames
  import opened ExtractText

  const WordMime: string := "application/msword"

  /** The pages with at least one text item, in order. */
  function PagesWithItems(pages: seq<seq<string>>): (r: seq<seq<string>>)
    ensures |r| <= |pages|
    ensures forall q :: q in r ==> q != [] && q in pages
  {
    if pages == [] then []
    else
      var k := |pages| - 1;
      PagesWithItems(pages[..k]) + (if pages[k] != [] then [pages[k]] else [])
  }

  /** The text assembled by `handleInitialCheck`: like the text extractor's,
      except that a page with no items contributes nothing at all. */
  function WordLayerText(pages: seq<seq<string>>): string {
    if pages == [] then ""
    else
      var k := |pages| - 1;
      WordLayerText(pages[..k]) + (if pages[k] != [] then PageText(pages[k]) else "")
  }

  lemma LayerTextSnoc(pages: seq<seq<string>>, p: seq<string>)
    ensures LayerText(pages + [p]) == LayerText(pages) + PageText(p)
  {
    assert (pages + [p])[..|pages|] == pages;
  }

  /** The assembled text is the text extractor's text over the pages that
      have items. */
  lemma {:induction false} WordLayerSkipsEmptyPages(pages: seq<seq<string>>)
    ensures WordLayerText(pages) == LayerText(PagesWithItems(pages))
  {
    if pages != [] {
      var k := |pages| - 1;
      WordLayerSkipsEmptyPages(pages[..k]);
      if pages[k] != [] {
        LayerTextSnoc(PagesWithItems(pages[..k]), pages[k]);
      } else {
        calc {
          PagesWithItems(pages);
          PagesWithItems(pages[..k]) + [];
          PagesWithItems(pages[..k]);
        }
        calc {
          WordLayerText(pages);
          WordLayerText(pages[..k]) + "";
          WordLayerText(pages[..k]);
        }
      }
    }
  }

  /** Skipping empty pages does not change whether the text is blank: it is
      blank exactly when every item is, as for the text extractor. */
  lemma WordLayerBlankIffItemsBlank(pages: seq<seq<string>>)
    ensures IsBlank(WordLayerText(pages)) <==> AllItemsBlank(pages)
  {
    WordLayerSkipsEmptyPages(pages);
    LayerBlankIffItemsBlank(PagesWithItems(pages));
    if AllItemsBlank(pages) {
      var r := PagesWithItems(pages);
      forall p, i | 0 <= p < |r| && 0 <= i < |r[p]| ensures IsBlank(r[p][i]) {
        assert r[p] in pages;
        var j :| 0 <= j < |pages| && pages[j] == r[p];
      }
    } else {
      var p, i :| 0 <= p < |pages| && 0 <= i < |pages[p]| && !IsBlank(pages[p][i]);
      PagesWithItemsKeeps(pages, p);
      var j :| 0 <= j < |PagesWithItems(pages)| && PagesWithItems(pages)[j] == pages[p];
    }
  }

  /** Every page that has items survives the filter. */
  lemma {:induction false} PagesWithItemsKeeps(pages: seq<seq<string>>, p: nat)
    requires p < |pages| && pages[p] != []
    ensures pages[p] in PagesWithItems(pages)
  {
    var k := |pages| - 1;
    if p < k {
      PagesWithItemsKeeps(pages[..k], p);
    }
  }

  /** One more page of the prefix adds that page's contribution. */
  lemma WordLayerStep(pages: seq<seq<string>>, i: nat)
    requires 1 <= i <= |pages|
    ensures WordLayerText(pages[..i]) ==
            WordLayerText(pages[..i - 1]) + (if pages[i - 1] != [] then PageText(pages[i - 1]) else "")
  {
    assert pages[..i][..i - 1] == pages[..i - 1];
  }

  /** The first loop of `handleInitialCheck`. */
  method ReadWordLayer(pages: seq<seq<string>>) returns (fullText: string)
    ensures fullText == WordLayerText(pages)
  {
    fullText := "";
    var i := 1;
    while i <= |pages|
      invariant 1 <= i <= |pages| + 1
      invariant fullText == WordLayerText(pages[..i - 1])
    {
      WordLayerStep(pages, i);
      if |pages[i - 1]| == 0 {
        assert fullText + "" == fullText;
        i := i + 1;
        continue;
      }
      var pageText := Join(pages[i - 1], " ");
      assert fullText + pageText + PageBreak == fullText + PageText(pages[i - 1]);
      fullText := fullText + pageText + PageBreak;
      i := i + 1;
    }
    assert pages[..i - 1] == pages;
  }

  datatype WordError = NoTextAfterOcr | ConversionFailed | OcrFailed

  class WordTool {
    var file: Option<File>
    var isLoading: bool
    var status: string
    var error: Option<WordError>
    var needsOcr: bool
    var ocrProgress: nat

    ghost predicate Cleared()
      reads this
    {
      file.None? && !isLoading && status == "" && error.None? && !needsOcr && ocrProgress == 0
    }

    constructor ()
      ensures Cleared()
    {
      file := None;
      isLoading := false;
      status := "";
      error := None;
      needsOcr := false;
      ocrProgress := 0;
    }

    /** `resetState`. */
    method ResetState()
      modifies this
      ensures Cleared()
    {
      file := None;
      isLoading := false;
      status := "";
      error := None;
      needsOcr := false;
      ocrProgress := 0;
    }

    /** `onFilesSelected`: a reset, then the first file. */
    method OnFilesSelected(files: seq<File>)
      modifies this
      ensures files == [] ==> file == old(file) && isLoading == old(isLoading) && status == old(status)
                              && error == old(error) && needsOcr == old(needsOcr) && ocrProgress == old(ocrProgress)
      ensures files != [] ==> file == Some(files[0]) && !isLoading && status == "" && error.None?
                              && !needsOcr && ocrProgress == 0
    {
      if |files| > 0 {
        ResetState();
        file := Some(files[0]);
      }
    }

    /** `processConversion`: blank text is refused; otherwise the remote
        formatting result `html` (`None` when it rejects) is offered as
        stem + ".doc", after which the screen resets. */
    method ProcessConversion(text: string, html: Option<string>) returns (out: Option<Download<string>>)
      requires file.Some?
      modifies this
      ensures IsBlank(text) ==> out == None && error == Some(NoTextAfterOcr) && !isLoading && status == ""
                                && file == old(file) && needsOcr == old(needsOcr) && ocrProgress == old(ocrProgress)
      ensures !IsBlank(text) && html.None? ==> out == None && error == Some(ConversionFailed) && !isLoading
                                               && status == "" && file == old(file) && needsOcr == old(needsOcr)
                                               && ocrProgress == 0
      ensures !IsBlank(text) && html.Some? ==>
                out == Some(Download(html.value, OutputStem(old(file).value.name) + ".doc", WordMime)) && Cleared()
    {
      if IsBlank(text) {
        error := Some(NoTextAfterOcr);
        isLoading := false;
        status := "";
        return None;
      }
      ocrProgress := 0;
      if html.None? {
        error := Some(ConversionFailed);
        isLoading := false;
        status := "";
        return None;
      }
      out := Some(Download(html.value, OutputStem(file.value.name) + ".doc", WordMime));
      ResetState();
    }

    /** `handleInitialCheck`: blank text asks for recognition, other text is
        converted straight away. */
    method HandleInitialCheck(pages: seq<seq<string>>, html: Option<string>, libraryFails: bool)
      returns (out: Option<Download<string>>)
      modifies this
      ensures old(file).None? ==> out == None && file == old(file) && error == old(error) && needsOcr == old(needsOcr)
                                  && isLoading == old(isLoading)
      ensures old(file).Some? ==> !isLoading && status == ""
      ensures old(file).Some? && libraryFails ==> out == None && error == Some(ConversionFailed) && !needsOcr
                                                  && file == old(file)
      ensures old(file).Some? && !libraryFails && AllItemsBlank(pages) ==>
                out == None && needsOcr && error.None? && file == old(file)
      ensures old(file).Some? && !libraryFails && !AllItemsBlank(pages) ==>
                !needsOcr
                && (html.None? ==> out == None && error == Some(ConversionFailed) && file == old(file))
                && (html.Some? ==> out == Some(Download(html.value, OutputStem(old(file).value.name) + ".doc", WordMime))
                                   && Cleared())
    {
      out := None;
      if file.None? {
        return;
      }
      isLoading := true;
      error := None;
      needsOcr := false;
      if libraryFails {
        error := Some(ConversionFailed);
        isLoading := false;
        status := "";
        return;
      }
      var fullText := ReadWordLayer(pages);
      WordLayerBlankIffItemsBlank(pages);
      if IsBlank(fullText) {
        needsOcr := true;
        isLoading := false;
        status := "";
      } else {
        out := ProcessConversion(fullText, html);
      }
    }

    /** `runOcrAndConvert`: `recognised` holds each page's recognised text,
        `None` for a page without a drawing context, one entry per page of the
        document it opens afresh (so no other page list constrains it). */
    method RunOcrAndConvert(recognised: seq<Option<string>>, html: Option<string>, libraryFails: bool)
      returns (out: Option<Download<string>>)
      modifies this
      ensures old(file).None? ==> out == None && file == old(file) && error == old(error) && needsOcr == old(needsOcr)
                                  && isLoading == old(isLoading)
      ensures old(file).Some? ==> !needsOcr && !isLoading && status == ""
      ensures old(file).Some? && libraryFails ==> out == None && error == Some(OcrFailed) && file == old(file)
      ensures old(file).Some? && !libraryFails && IsBlank(RecognisedText(recognised)) ==>
                out == None && error == Some(NoTextAfterOcr) && file == old(file)
      ensures old(file).Some? && !libraryFails && !IsBlank(RecognisedText(recognised)) ==>
                (html.None? ==> out == None && error == Some(ConversionFailed) && file == old(file))
                && (html.Some? ==> out == Some(Download(html.value, OutputStem(old(file).value.name) + ".doc", WordMime))
                                   && Cleared())
    {
      out := None;
      if file.None? {
        return;
      }
      needsOcr := false;
      isLoading := true;
      error := None;
      if libraryFails {
        error := Some(OcrFailed);
        isLoading := false;
        status := "";
        return;
      }
      var fullText := RunOcr(recognised);
      out := ProcessConversion(fullText, html);
    }
  }
}

=== FILE: protect_pdf.dfy ===
/** The protect tool: either encrypts the chosen PDF with a user password
    (confirmed twice), an optional owner password and four permissions, or
    "redacts" it by covering every page with a black rectangle. A strength
    meter scores the user password. */
module ProtectPdf {
  import opened Base
  import opened JsText
  import opened FileNames

  // ---------------------------------------------------------------------------
  // Password strength
  // ---------------------------------------------------------------------------

  datatype StrengthLabel = NoLabel | VeryWeak | Weak | Medium | Strong | VeryStrong

  /** What the meter shows: a score out of 5 and its label. */
  datatype Strength = Strength(score: nat, verdict: StrengthLabel)

  predicate IsAsciiLower(c: char) { 'a' <= c <= 'z' }
  predicate IsAsciiUpper(c: char) { 'A' <= c <= 'Z' }
  predicate IsAsciiDigit(c: char) { '0' <= c <= '9' }

  /** `/[a-z]/.test(s)`, `/[A-Z]/.test(s)`, `/\d/.test(s)` and
      `/[^a-zA-Z0-9]/.test(s)`. */
  predicate HasLower(s: string) { exists i :: 0 <= i < |s| && IsAsciiLower(s[i]) }
  predicate HasUpper(s: string) { exists i :: 0 <= i < |s| && IsAsciiUpper(s[i]) }
  predicate HasDigit(s: string) { exists i :: 0 <= i < |s| && IsAsciiDigit(s[i]) }
  predicate HasOther(s: string) {
    exists i :: 0 <= i < |s| && !IsAsciiLower(s[i]) && !IsAsciiUpper(s[i]) && !IsAsciiDigit(s[i])
  }

  /** The number of the five criteria a password meets: at least 8
      UTF-16 code units, at least 12, both ASCII letter cases, a digit, and a
      character that is not an ASCII letter or digit. */
  function RawScore(s: string): (n: nat)
    ensures n <= 5
    ensures n == 5 <==> Utf16Length(s) >= 12 && HasLower(s) && HasUpper(s) && HasDigit(s) && HasOther(s)
  {
    (if Utf16Length(s) >= 8 then 1 else 0) + (if Utf16Length(s) >= 12 then 1 else 0)
    + (if HasLower(s) && HasUpper(s) then 1 else 0)
    + (if HasDigit(s) then 1 else 0) + (if HasOther(s) then 1 else 0)
  }

  /** The label shown next to a displayed score. */
  function LabelFor(score: nat): StrengthLabel {
    match score
    case 1 => VeryWeak
    case 2 => Weak
    case 3 => Medium
    case 4 => Strong
    case 5 => VeryStrong
    case _ => NoLabel
  }

  /** `calculatePasswordStrength`: empty passwords show nothing; otherwise the
      raw score is counted criterion by criterion, and raw scores 0 and 1 both
      show as 1. */
  method CalculatePasswordStrength(password: string) returns (s: Strength)
    ensures password == "" ==> s == Strength(0, NoLabel)
    ensures password != "" ==> 1 <= s.score <= 5 && s.verdict == LabelFor(s.score) && s.verdict != NoLabel
    ensures password != "" ==> s.score == if RawScore(password) <= 1 then 1 else RawScore(password)
  {
    var score := 0;
    if password == "" {
      return Strength(0, NoLabel);
    }
    var length := Utf16Length(password);
    if length >= 8 {
      score := score + 1;
    }
    if length >= 12 {
      score := score + 1;
    }
    if HasLower(password) && HasUpper(password) {
      score := score + 1;
    }
    if HasDigit(password) {
      score := score + 1;
    }
    if HasOther(password) {
      score := score + 1;
    }
    assert score == RawScore(password);
    match score
    case 0 => s := Strength(1, VeryWeak);
    case 1 => s := Strength(1, VeryWeak);
    case 2 => s := Strength(2, Weak);
    case 3 => s := Strength(3, Medium);
    case 4 => s := Strength(4, Strong);
    case 5 => s := Strength(5, VeryStrong);
  }

  /** Typing more characters never lowers the raw score. */
  lemma RawScoreMonotone(a: string, b: string)
    ensures RawScore(a) <= RawScore(a + b)
  {
    var s := a + b;
    Utf16LengthConcat(a, b);
    if HasLower(a) {
      var i :| 0 <= i < |a| && IsAsciiLower(a[i]);
      assert s[i] == a[i];
    }
    if HasUpper(a) {
      var i :| 0 <= i < |a| && IsAsciiUpper(a[i]);
      assert s[i] == a[i];
    }
    if HasDigit(a) {
      var i :| 0 <= i < |a| && IsAsciiDigit(a[i]);
      assert s[i] == a[i];
    }
    if HasOther(a) {
      var i :| 0 <= i < |a| && !IsAsciiLower(a[i]) && !IsAsciiUpper(a[i]) && !IsAsciiDigit(a[i]);
      assert s[i] == a[i];
    }
  }

  /** A password of lower-case letters only scores at most 2 ("weak")
      whatever its length: length alone cannot make it medium or better. */
  lemma LowerCaseOnlyAtMostWeak(s: string)
    requires forall i :: 0 <= i < |s| ==> IsAsciiLower(s[i])
    ensures RawScore(s) <= 2
  {
  }

  /** Four characters beyond the Basic Multilingual Plane (four emoji, say)
      are eight code units: the password passes the length test and, having
      no ASCII letter or digit, scores 2 ("weak"). */
  lemma AstralPasswordScore(s: string)
    requires |s| == 4 && forall i :: 0 <= i < |s| ==> s[i] as int > 0xFFFF
    ensures RawScore(s) == 2
  {
    Utf16LengthAllAstral(s);
    assert HasOther(s) by { assert !IsAsciiLower(s[0]) && !IsAsciiUpper(s[0]) && !IsAsciiDigit(s[0]); }
  }

  // ---------------------------------------------------------------------------
  // Validation and options
  // ---------------------------------------------------------------------------

  datatype ProtectionType = Encrypt | Redact

  datatype ProtectError = MissingPassword | PasswordMismatch | ProtectFailed

  /** The checks `handleProtect` makes before doing anything: in encrypt mode
      the user password must be non-empty and equal its confirmation. */
  function Validate(t: ProtectionType, user: string, confirm: string): (e: Option<ProtectError>)
    ensures e.None? <==> t.Redact? || (user != "" && user == confirm)
    ensures e == Some(MissingPassword) <==> t == Encrypt && user == ""
  {
    if t == Encrypt && user == "" then Some(MissingPassword)
    else if t == Encrypt && user != confirm then Some(PasswordMismatch)
    else None
  }

  /** `isButtonDisabled`: while idle, the button is disabled exactly when
      pressing it would fail validation. */
  function IsButtonDisabled(isLoading: bool, t: ProtectionType, user: string, confirm: string): (d: bool)
    ensures isLoading ==> d
    ensures !isLoading ==> (d <==> Validate(t, user, confirm).Some?)
  {
    isLoading || (t == Encrypt && (user == "" || user != confirm))
  }

  datatype Permissions = Permissions(printing: bool, copying: bool, modifying: bool, annotating: bool)

  /** The options the encrypted document is saved with. */
  datatype SaveOptions = SaveOptions(userPassword: string, ownerPassword: Option<string>, permissions: Permissions)

  /** `saveOptions`: the owner password is set only when one was typed. */
  function MakeSaveOptions(user: string, owner: string, permissions: Permissions): (o: SaveOptions)
    ensures o.userPassword == user && o.permissions == permissions
    ensures o.ownerPassword.Some? <==> owner != ""
    ensures o.ownerPassword.Some? ==> o.ownerPassword.value == owner
  {
    SaveOptions(user, if owner != "" then Some(owner) else None, permissions)
  }

  /** A rectangle drawn in black. */
  datatype Rect = Rect(x: real, y: real, width: real, height: real)

  /** The redact loop: one black rectangle per page, covering it entirely. */
  method RedactPages(pages: seq<Size>) returns (rects: seq<Rect>)
    ensures |rects| == |pages|
    ensures forall i :: 0 <= i < |rects| ==>
              rects[i].x == 0.0 && rects[i].y == 0.0
              && rects[i].width == pages[i].width && rects[i].height == pages[i].height
  {
    rects := [];
    for i := 0 to |pages|
      invariant |rects| == i
      invariant forall k :: 0 <= k < i ==>
                  rects[k].x == 0.0 && rects[k].y == 0.0
                  && rects[k].width == pages[k].width && rects[k].height == pages[k].height
    {
      rects := rects + [Rect(0.0, 0.0, pages[i].width, pages[i].height)];
    }
  }

  /** What the saved document carries. */
  datatype Protected = Encrypted(options: SaveOptions) | Redacted(rects: seq<Rect>)

  const ProtectedSuffix: string := "_protected.pdf"

  // ---------------------------------------------------------------------------
  // The screen
  // ---------------------------------------------------------------------------

  class ProtectTool {
    var file: Option<File>
    var error: Option<ProtectError>
    var protectionType: ProtectionType
    var userPassword: string
    var confirmUserPassword: string
    var ownerPassword: string
    var permissions: Permissions

    /** The options a newly chosen file starts with. */
    ghost predicate DefaultOptions()
      reads this
    {
      protectionType == Encrypt && userPassword == "" && confirmUserPassword == "" && ownerPassword == ""
      && permissions == Permissions(true, true, true, true)
    }

    constructor ()
      ensures file == None && error == None && DefaultOptions()
    {
      file := None;
      error := None;
      protectionType := Encrypt;
      userPassword := "";
      confirmUserPassword := "";
      ownerPassword := "";
      permissions := Permissions(true, true, true, true);
    }

    /** `onFilesSelected`: a new file resets every option. */
    method OnFilesSelected(files: seq<File>)
      modifies this
      ensures files == [] ==> file == old(file) && error == old(error) && protectionType == old(protectionType)
                              && userPassword == old(userPassword) && confirmUserPassword == old(confirmUserPassword)
                              && ownerPassword == old(ownerPassword) && permissions == old(permissions)
      ensures files != [] ==> file == Some(files[0]) && error == None && DefaultOptions()
    {
      if |files| > 0 {
        file := Some(files[0]);
        error := None;
        userPassword := "";
        confirmUserPassword := "";
        ownerPassword := "";
        protectionType := Encrypt;
        permissions := Permissions(true, true, true, true);
      }
    }

    /** `handleProtect`: validates, asks for confirmation before redacting,
        then encrypts or redacts, offers the result as stem + "_protected.pdf"
        and clears the file. */
    method HandleProtect(confirmed: bool, pages: seq<Size>, libraryFails: bool) returns (out: Option<Download<Protected>>)
      modifies this`file, this`error
      ensures old(file).None? ==> out == None && file == old(file) && error == old(error)
      ensures old(file).Some? && Validate(protectionType, userPassword, confirmUserPassword).Some? ==>
                out == None && file == old(file) && error == Validate(protectionType, userPassword, confirmUserPassword)
      ensures old(file).Some? && protectionType == Redact && !confirmed ==>
                out == None && file == old(file) && error == old(error)
      ensures (old(file).Some? && Validate(protectionType, userPassword, confirmUserPassword).None?
               && (protectionType == Encrypt || confirmed) && libraryFails) ==>
                out == None && file == old(file) && error == Some(ProtectFailed)
      ensures out.Some? ==>
                old(file).Some? && !libraryFails && file == None && error == None
                && out.value.name == OutputName(old(file).value.name, ProtectedSuffix) && out.value.mime == PdfMime
      ensures out.Some? && protectionType == Encrypt ==>
                out.value.content == Encrypted(MakeSaveOptions(userPassword, ownerPassword, permissions))
                && userPassword != "" && userPassword == confirmUserPassword
      ensures out.Some? && protectionType == Redact ==>
                confirmed && out.value.content.Redacted? && |out.value.content.rects| == |pages|
                && forall i :: 0 <= i < |pages| ==>
                     out.value.content.rects[i] == Rect(0.0, 0.0, pages[i].width, pages[i].height)
      ensures (old(file).Some? && Validate(protectionType, userPassword, confirmUserPassword).None?
               && (protectionType == Encrypt || confirmed) && !libraryFails) ==> out.Some?
    {
      if file.None? {
        return None;
      }
      var invalid := Validate(protectionType, userPassword, confirmUserPassword);
      if invalid.Some? {
        error := invalid;
        return None;
      }
      if protectionType == Redact && !confirmed {
        return None;
      }
      error := None;
      if libraryFails {
        error := Some(ProtectFailed);
        return None;
      }
      var content: Protected;
      if protectionType == Encrypt {
        content := Encrypted(MakeSaveOptions(userPassword, ownerPassword, permissions));
      } else {
        var rects := RedactPages(pages);
        content := Redacted(rects);
      }
      out := Some(Download(content, OutputName(file.value.name, ProtectedSuffix), PdfMime));
      file := None;
    }
  }
}

=== FILE: rotate_pdf.dfy ===
/** The rotate tool: one rotation per page of the chosen PDF, a page cursor
    moved with previous/next buttons, quarter-turn buttons that rotate the
    page under the cursor, and a save that writes the rotations into the
    document. */
module RotatePdf {
  import opened Base
  import opened Rotation
  import opened FileNames

  /** How opening the chosen file went: the renderer rejected it, it opened
      with `numPages` pages but reading a page threw, or every page gave its
      `rotate` attribute. */
  datatype DocLoad = Unreadable | PageFailed(numPages: nat) | Opened(rotates: seq<Option<int>>)

  datatype RotateError = CannotLoad | SaveFailed

  const RotatedSuffix: string := "_rotated.pdf"

  // ---------------------------------------------------------------------------
  // The rotations array
  // ---------------------------------------------------------------------------

  /** The loading loop of `onFilesSelected`: `page.rotate || 0` for each page. */
  method InitialRotations(rotates: seq<Option<int>>) returns (rotations: seq<int>)
    ensures |rotations| == |rotates|
    ensures forall i :: 0 <= i < |rotations| ==> rotations[i] == OrZero(rotates[i])
  {
    rotations := [];
    var i := 1;
    while i <= |rotates|
      invariant 1 <= i <= |rotates| + 1
      invariant |rotations| == i - 1
      invariant forall k :: 0 <= k < |rotations| ==> rotations[k] == OrZero(rotates[k])
    {
      rotations := rotations + [OrZero(rotates[i - 1])];
      i := i + 1;
    }
  }

  /** The array after `handleRotate` writes slot `idx`: a negative index names
      no slot and changes nothing; an index past the end extends the array,
      with 0 standing for the slots it skips. */
  function RotatedSlot(rotations: seq<int>, idx: int, degrees: int): (r: seq<int>)
    ensures idx < 0 ==> r == rotations
    ensures idx >= 0 ==> |r| == if idx < |rotations| then |rotations| else idx + 1
  {
    if idx < 0 then rotations
    else
      var padded := if idx < |rotations| then rotations else rotations + seq(idx + 1 - |rotations|, _ => 0);
      var current := if idx < |rotations| then rotations[idx] else 0;
      padded[idx := Rotate(current, degrees)]
  }

  /** Only slot `idx` changes; it becomes the stored value (or 0 when there is
      none) turned by `degrees`. */
  lemma RotatedSlotOnlyTouchesIndex(rotations: seq<int>, idx: int, degrees: int)
    requires idx >= 0
    ensures var r := RotatedSlot(rotations, idx, degrees);
            && r[idx] == Rotate(if idx < |rotations| then rotations[idx] else 0, degrees)
            && (forall i :: 0 <= i < |rotations| && i != idx ==> r[i] == rotations[i])
            && (forall i :: |rotations| <= i < idx ==> r[i] == 0)
  {
  }

  /** Every slot is a quarter turn. */
  predicate AllQuarterTurns(rotations: seq<int>) {
    forall i :: 0 <= i < |rotations| ==> IsQuarterTurn(rotations[i])
  }

  /** A quarter-turn button keeps every slot a quarter turn. */
  lemma RotatedSlotKeepsQuarterTurns(rotations: seq<int>, idx: int, degrees: int)
    requires AllQuarterTurns(rotations) && IsStep(degrees)
    ensures AllQuarterTurns(RotatedSlot(rotations, idx, degrees))
  {
    if idx >= 0 {
      RotatedSlotOnlyTouchesIndex(rotations, idx, degrees);
      var r := RotatedSlot(rotations, idx, degrees);
      forall i | 0 <= i < |r| ensures IsQuarterTurn(r[i]) {
        if i == idx {
          StepKeepsQuarterTurn(if idx < |rotations| then rotations[idx] else 0, degrees);
        }
      }
    }
  }

  /** Four clockwise turns of the same page give back the array. */
  lemma FourTurnsRestore(rotations: seq<int>, idx: int)
    requires 0 <= idx < |rotations| && 0 <= rotations[idx] < 360
    ensures RotatedSlot(RotatedSlot(RotatedSlot(RotatedSlot(rotations, idx, 90), idx, 90), idx, 90), idx, 90) == rotations
  {
    FourStepsRestore(rotations[idx]);
  }

  /** A turn one way followed by a turn the other way gives back the array. */
  lemma OppositeTurnsCancel(rotations: seq<int>, idx: int)
    requires 0 <= idx < |rotations| && 0 <= rotations[idx] < 360
    ensures RotatedSlot(RotatedSlot(rotations, idx, 90), idx, -90) == rotations
    ensures RotatedSlot(RotatedSlot(rotations, idx, -90), idx, 90) == rotations
  {
    OppositeStepsCancel(rotations[idx]);
  }

  /** `handleRotate`'s update: copy the array and write one slot. */
  method RotateSlot(rotations: seq<int>, idx: int, degrees: int) returns (newRotations: seq<int>)
    ensures newRotations == RotatedSlot(rotations, idx, degrees)
  {
    newRotations := rotations;
    if idx < 0 {
      return;
    }
    var current := 0;
    if idx < |newRotations| {
      current := newRotations[idx];
    }
    while |newRotations| <= idx
      decreases idx - |newRotations|
      invariant |rotations| <= |newRotations| <= if idx < |rotations| then |rotations| else idx + 1
      invariant newRotations == rotations + seq(|newRotations| - |rotations|, _ => 0)
    {
      newRotations := newRotations + [0];
    }
    newRotations := newRotations[idx := Rotate(current, degrees)];
  }

  // ---------------------------------------------------------------------------
  // Navigation and saving
  // ---------------------------------------------------------------------------

  /** The previous-page button: `Math.max(1, p - 1)`. */
  function PrevPage(p: int): (r: int)
    ensures r >= 1 && r <= (if p > 1 then p else 1)
    ensures p > 1 ==> r == p - 1
  {
    if p - 1 > 1 then p - 1 else 1
  }

  /** The next-page button: `Math.min(totalPages, p + 1)`. */
  function NextPage(p: int, totalPages: nat): (r: int)
    ensures r <= totalPages
    ensures p < totalPages ==> r == p + 1
    ensures p >= totalPages ==> r == totalPages
    ensures 1 <= p <= totalPages ==> 1 <= r
  {
    if p + 1 < totalPages then p + 1 else totalPages
  }

  /** The `forEach` of `handleSave`: output page `i` gets `rotations[i]`. */
  method ApplyRotations(docRotations: seq<int>, rotations: seq<int>) returns (out: seq<int>)
    requires |docRotations| == |rotations|
    ensures |out| == |docRotations|
    ensures forall i :: 0 <= i < |out| ==> out[i] == rotations[i]
  {
    out := docRotations;
    var index := 0;
    while index < |rotations|
      invariant 0 <= index <= |rotations| && |out| == |docRotations|
      invariant forall i :: 0 <= i < index ==> out[i] == rotations[i]
    {
      out := out[index := rotations[index]];
      index := index + 1;
    }
  }

  // ---------------------------------------------------------------------------
  // The screen
  // ---------------------------------------------------------------------------

  class RotateTool {
    var file: Option<File>
    var hasDoc: bool
    var totalPages: nat
    var currentPage: int
    var rotations: seq<int>
    var error: Option<RotateError>

    /** The state the screen starts in and returns to after a save. */
    ghost predicate Initial()
      reads this
    {
      file.None? && !hasDoc && totalPages == 0 && currentPage == 1 && rotations == []
    }

    constructor ()
      ensures Initial() && error == None
    {
      file := None;
      hasDoc := false;
      totalPages := 0;
      currentPage := 1;
      rotations := [];
      error := None;
    }

    /** `onFilesSelected`: resets everything for the first chosen file, then
        reads one rotation per page. */
    method OnFilesSelected(files: seq<File>, load: DocLoad)
      modifies this
      ensures files == [] ==> file == old(file) && hasDoc == old(hasDoc) && totalPages == old(totalPages)
                              && currentPage == old(currentPage) && rotations == old(rotations) && error == old(error)
      ensures files != [] ==> currentPage == 1
      ensures files != [] && load.Unreadable? ==>
                file == None && error == Some(CannotLoad) && !hasDoc && totalPages == 0 && rotations == []
      ensures files != [] && load.PageFailed? ==>
                file == None && error == Some(CannotLoad) && hasDoc && totalPages == load.numPages && rotations == []
      ensures files != [] && load.Opened? ==>
                file == Some(files[0]) && error == None && hasDoc && totalPages == |load.rotates|
                && |rotations| == totalPages
                && forall i :: 0 <= i < |rotations| ==> rotations[i] == OrZero(load.rotates[i])
    {
      if |files| == 0 {
        return;
      }
      file := Some(files[0]);
      error := None;
      hasDoc := false;
      totalPages := 0;
      currentPage := 1;
      rotations := [];
      match load
      case Unreadable =>
        error := Some(CannotLoad);
        file := None;
      case PageFailed(n) =>
        hasDoc := true;
        totalPages := n;
        error := Some(CannotLoad);
        file := None;
      case Opened(rotates) =>
        hasDoc := true;
        totalPages := |rotates|;
        var initial := InitialRotations(rotates);
        rotations := initial;
    }

    /** `handleRotate`: turns the page under the cursor by `degrees`. */
    method HandleRotate(degrees: int)
      modifies this`rotations
      ensures rotations == RotatedSlot(old(rotations), currentPage - 1, degrees)
      ensures IsStep(degrees) && old(AllQuarterTurns(rotations)) ==> AllQuarterTurns(rotations)
    {
      if IsStep(degrees) && AllQuarterTurns(rotations) {
        RotatedSlotKeepsQuarterTurns(rotations, currentPage - 1, degrees);
      }
      var newRotations := RotateSlot(rotations, currentPage - 1, degrees);
      rotations := newRotations;
    }

    /** The previous-page button. */
    method Prev()
      modifies this`currentPage
      ensures currentPage == PrevPage(old(currentPage))
      ensures 1 <= old(currentPage) <= totalPages ==> 1 <= currentPage <= totalPages
    {
      currentPage := PrevPage(currentPage);
    }

    /** The next-page button. */
    method Next()
      modifies this`currentPage
      ensures currentPage == NextPage(old(currentPage), totalPages)
      ensures 1 <= old(currentPage) <= totalPages ==> 1 <= currentPage <= totalPages
    {
      currentPage := NextPage(currentPage, totalPages);
    }

    /** `handleSave`: with no file, nothing. Otherwise the document's page count
        must equal the number of rotations ("Page count mismatch."); then page
        `i` gets `rotations[i]`, the result is offered for download and the
        screen resets. Any failure leaves the save error and the state. */
    method HandleSave(docRotations: seq<int>, libraryFails: bool) returns (out: Option<Download<seq<int>>>)
      modifies this
      ensures old(file).None? ==> out == None && file == old(file) && rotations == old(rotations) && error == old(error)
                                  && hasDoc == old(hasDoc) && totalPages == old(totalPages) && currentPage == old(currentPage)
      ensures old(file).Some? && (libraryFails || |docRotations| != |old(rotations)|) ==>
                out == None && error == Some(SaveFailed) && file == old(file) && rotations == old(rotations)
                && hasDoc == old(hasDoc) && currentPage == old(currentPage) && totalPages == old(totalPages)
      ensures old(file).Some? && !libraryFails && |docRotations| == |old(rotations)| ==>
                out == Some(Download(old(rotations), OutputName(old(file).value.name, RotatedSuffix), PdfMime))
                && error == None && Initial()
    {
      if file.None? {
        return None;
      }
      error := None;
      if libraryFails || |docRotations| != |rotations| {
        error := Some(SaveFailed);
        return None;
      }
      var pages := ApplyRotations(docRotations, rotations);
      assert pages == rotations;
      out := Some(Download(pages, OutputName(file.value.name, RotatedSuffix), PdfMime));
      file := None;
      hasDoc := false;
      totalPages := 0;
      currentPage := 1;
      rotations := [];
    }
  }
}

=== FILE: rotation.dfy ===
/** Page rotation arithmetic shared by the rotate tool and the page editor:
    a rotation step of `d` degrees maps `r` to `(r + d + 360) % 360`, with
    JavaScript's remainder. */
module Rotation {
  import opened JsText

  /** `(r + d + 360) % 360`. */
  function Rotate(r: int, d: int): (n: int)
    ensures -360 < n < 360
    ensures r + d + 360 >= 0 ==> 0 <= n < 360 && (n - (r + d)) % 360 == 0
  {
    JsRem(r + d + 360, 360)
  }

  /** The rotations a PDF page can carry. */
  predicate IsQuarterTurn(r: int) {
    r == 0 || r == 90 || r == 180 || r == 270
  }

  /** The steps the rotate buttons pass: a quarter turn either way. */
  predicate IsStep(d: int) {
    d == 90 || d == -90
  }

  /** A step from an angle in [0, 360) stays in [0, 360). */
  lemma StepStaysInRange(r: int, d: int)
    requires 0 <= r < 360 && IsStep(d)
    ensures 0 <= Rotate(r, d) < 360
  {
  }

  /** A step from a quarter turn gives a quarter turn. */
  lemma StepKeepsQuarterTurn(r: int, d: int)
    requires IsQuarterTurn(r) && IsStep(d)
    ensures IsQuarterTurn(Rotate(r, d))
  {
  }

  /** The effect of a clockwise step on an angle in [0, 360). */
  lemma ClockwiseStep(r: int)
    requires 0 <= r < 360
    ensures Rotate(r, 90) == if r < 270 then r + 90 else r - 270
  {
  }

  /** The effect of a counter-clockwise step on an angle in [0, 360). */
  lemma CounterClockwiseStep(r: int)
    requires 0 <= r < 360
    ensures Rotate(r, -90) == if r < 90 then r + 270 else r - 90
  {
  }

  /** Four clockwise steps give back the starting angle. */
  lemma FourStepsRestore(r: int)
    requires 0 <= r < 360
    ensures Rotate(Rotate(Rotate(Rotate(r, 90), 90), 90), 90) == r
  {
    ClockwiseStep(r);
    ClockwiseStep(Rotate(r, 90));
    ClockwiseStep(Rotate(Rotate(r, 90), 90));
    ClockwiseStep(Rotate(Rotate(Rotate(r, 90), 90), 90));
  }

  /** A step one way followed by a step the other way gives back the angle. */
  lemma OppositeStepsCancel(r: int)
    requires 0 <= r < 360
    ensures Rotate(Rotate(r, 90), -90) == r
    ensures Rotate(Rotate(r, -90), 90) == r
  {
    ClockwiseStep(r);
    CounterClockwiseStep(r);
    CounterClockwiseStep(Rotate(r, 90));
    ClockwiseStep(Rotate(r, -90));
  }

  /** The +360 guard keeps the result non-negative only from -360 degrees
      upwards: the result is negative exactly when `r + d` lies below -360
      and is not a whole number of turns (JavaScript's `%` keeps the sign of
      a negative dividend, so -450 gives -90 where a Euclidean `%` gives 270). */
  lemma NegativeExactlyBelowGuard(r: int, d: int)
    ensures Rotate(r, d) < 0 <==> r + d < -360 && (r + d) % 360 != 0
  {
    var x := r + d + 360;
    if x < 0 {
      assert Rotate(r, d) == -((-x) % 360);
      assert ((-x) % 360 == 0) <==> ((r + d) % 360 == 0) by {
        assert -x == -(r + d) - 360;
        NegatedRemainderZero(r + d);
      }
    }
  }

  /** An integer is a whole number of turns exactly when its negation plus a
      turn is. */
  lemma NegatedRemainderZero(a: int)
    ensures ((-a - 360) % 360 == 0) <==> (a % 360 == 0)
  {
    var q, m := a / 360, a % 360;
    assert a == 360 * q + m;
    if m == 0 {
      RemainderOf(-q - 1, 0);
      assert -a - 360 == 360 * (-q - 1) + 0;
    } else {
      RemainderOf(-q - 2, 360 - m);
      assert -a - 360 == 360 * (-q - 2) + (360 - m);
    }
  }

  /** The remainder of `360 * k + m` is `m` for `m` in [0, 360). */
  lemma RemainderOf(k: int, m: int)
    requires 0 <= m < 360
    ensures (360 * k + m) % 360 == m
  {
  }
}

=== FILE: split_pdf.dfy ===
/** The split tool: every page of the chosen PDF becomes a one-page PDF, and
    all of them are packed into one archive. */
module SplitPdf {
  import opened Base
  import opened FileNames

  /** One archive entry: its name and the source page indexes (0-based) the
      one-page document copies. */
  datatype Entry = Entry(name: string, pages: seq<nat>)

  datatype SplitError = NoFile | SplitFailed

  const SplitSuffix: string := "_split.zip"

  /** The loop of `handleSplit`: entry `i` is "page_{i+1}.pdf" and holds
      source page `i` only; no two entries share a name. */
  method SplitEntries(pageCount: nat) returns (entries: seq<Entry>)
    ensures |entries| == pageCount
    ensures forall i :: 0 <= i < pageCount ==> entries[i] == Entry(PageEntryName(i + 1, "pdf"), [i])
    ensures forall i, j :: 0 <= i < j < pageCount ==> entries[i].name != entries[j].name
  {
    entries := [];
    for i := 0 to pageCount
      invariant |entries| == i
      invariant forall k :: 0 <= k < i ==> entries[k] == Entry(PageEntryName(k + 1, "pdf"), [k])
    {
      entries := entries + [Entry(PageEntryName(i + 1, "pdf"), [i])];
    }
    forall k, l | 0 <= k < l < pageCount
      ensures entries[k].name != entries[l].name
    {
      EntryNamesDistinct(k + 1, l + 1, "pdf");
    }
  }

  class SplitTool {
    var file: Option<File>
    var isLoading: bool
    var error: Option<SplitError>

    constructor ()
      ensures file == None && !isLoading && error == None
    {
      file := None;
      isLoading := false;
      error := None;
    }

    /** `onFilesSelected`: the first file replaces the current one. */
    method OnFilesSelected(files: seq<File>)
      modifies this
      ensures files == [] ==> file == old(file) && error == old(error) && isLoading == old(isLoading)
      ensures files != [] ==> file == Some(files[0]) && error == None && isLoading == old(isLoading)
    {
      if |files| > 0 {
        file := Some(files[0]);
        error := None;
      }
    }

    /** `handleSplit`: with no file, an error; otherwise one entry per page
        and the archive offered as stem + "_split.zip", after which the file
        is cleared. A library failure sets the error and keeps the file. */
    method HandleSplit(pageCount: nat, libraryFails: bool) returns (out: Option<Download<seq<Entry>>>)
      modifies this
      ensures old(file).None? ==> out == None && error == Some(NoFile) && file == old(file) && isLoading == old(isLoading)
      ensures old(file).Some? ==> !isLoading
      ensures old(file).Some? && libraryFails ==> out == None && error == Some(SplitFailed) && file == old(file)
      ensures old(file).Some? && !libraryFails ==>
                out.Some? && error == None && file == None
                && out.value.name == OutputName(old(file).value.name, SplitSuffix) && out.value.mime == ZipMime
                && |out.value.content| == pageCount
                && (forall i :: 0 <= i < pageCount ==> out.value.content[i] == Entry(PageEntryName(i + 1, "pdf"), [i]))
    {
      if file.None? {
        error := Some(NoFile);
        return None;
      }
      isLoading := true;
      error := None;
      if libraryFails {
        error := Some(SplitFailed);
        out := None;
      } else {
        var entries := SplitEntries(pageCount);
        out := Some(Download(entries, OutputName(file.value.name, SplitSuffix), ZipMime));
        file := None;
      }
      isLoading := false;
    }
  }
}

=== FILE: watermark.dfy ===
/** The watermark tool: a text watermark (colour given as `#rrggbb`) or an
    image watermark drawn centred on every page of the chosen PDF. */
module AddWatermark {
  import opened Base
  import opened FileNames

  datatype WatermarkType = TextMark | ImageMark

  /** A colour with channels in [0, 1], as the PDF library takes it. */
  datatype Rgb = Rgb(r: real, g: real, b: real)

  /** What is drawn on one page. `rotate` is in degrees; `png` says which
      decoder embedded the image. */
  datatype Mark =
    | DrawnText(text: string, x: real, y: real, size: real, color: Rgb, rotate: int)
    | DrawnImage(x: real, y: real, width: real, height: real, png: bool)

  datatype WatermarkError = InvalidImage | ImageRequired | WatermarkFailed

  const WatermarkedSuffix: string := "_watermarked.pdf"
  const Black: Rgb := Rgb(0.0, 0.0, 0.0)

  // ---------------------------------------------------------------------------
  // hexToRgb
  // ---------------------------------------------------------------------------

  /** `[a-f\d]` under the case-insensitive flag. */
  predicate IsHexDigit(c: char) {
    ('0' <= c <= '9') || ('a' <= c <= 'f') || ('A' <= c <= 'F')
  }

  function HexValue(c: char): (v: nat)
    requires IsHexDigit(c)
    ensures v < 16
  {
    if '0' <= c <= '9' then (c as int) - ('0' as int)
    else if 'a' <= c <= 'f' then (c as int) - ('a' as int) + 10
    else (c as int) - ('A' as int) + 10
  }

  predicate AllHex(s: string) {
    forall i :: 0 <= i < |s| ==> IsHexDigit(s[i])
  }

  /** The strings `/^#?([a-f\d]{2})([a-f\d]{2})([a-f\d]{2})$/i` matches: an
      optional '#' and exactly six hexadecimal digits. */
  predicate IsHexColor(s: string) {
    (|s| == 6 && AllHex(s)) || (|s| == 7 && s[0] == '#' && AllHex(s[1..]))
  }

  /** `parseInt(pair, 16)` on two hex digits. */
  function PairValue(hi: char, lo: char): (v: nat)
    requires IsHexDigit(hi) && IsHexDigit(lo)
    ensures v < 256
  {
    HexValue(hi) * 16 + HexValue(lo)
  }

  /** `hexToRgb`: each two-digit group divided by 255; anything the pattern
      does not match is black. */
  function HexToRgb(hex: string): (c: Rgb)
    ensures !IsHexColor(hex) ==> c == Black
    ensures 0.0 <= c.r <= 1.0 && 0.0 <= c.g <= 1.0 && 0.0 <= c.b <= 1.0
    ensures IsHexColor(hex) ==>
              var d := if |hex| == 7 then hex[1..] else hex;
              c == Rgb((PairValue(d[0], d[1]) as real) / 255.0, (PairValue(d[2], d[3]) as real) / 255.0,
                       (PairValue(d[4], d[5]) as real) / 255.0)
  {
    if IsHexColor(hex) then
      var d := if |hex| == 7 then hex[1..] else hex;
      Rgb((PairValue(d[0], d[1]) as real) / 255.0, (PairValue(d[2], d[3]) as real) / 255.0,
          (PairValue(d[4], d[5]) as real) / 255.0)
    else Black
  }

  /** Lower-case hexadecimal digit of `v`. */
  function HexDigit(v: nat): (c: char)
    requires v < 16
    ensures IsHexDigit(c) && HexValue(c) == v
  {
    "0123456789abcdef"[v]
  }

  /** `#rrggbb` as a colour picker writes it. */
  function FormatHex(r: nat, g: nat, b: nat): (s: string)
    requires r < 256 && g < 256 && b < 256
    ensures |s| == 7 && s[0] == '#'
  {
    ['#', HexDigit(r / 16), HexDigit(r % 16), HexDigit(g / 16), HexDigit(g % 16), HexDigit(b / 16), HexDigit(b % 16)]
  }

  /** Parsing a formatted colour gives back its channels over 255. */
  lemma HexRoundTrip(r: nat, g: nat, b: nat)
    requires r < 256 && g < 256 && b < 256
    ensures HexToRgb(FormatHex(r, g, b)) == Rgb((r as real) / 255.0, (g as real) / 255.0, (b as real) / 255.0)
  {
    var s := FormatHex(r, g, b);
    assert IsHexColor(s) by {
      assert forall i :: 0 <= i < 6 ==> s[1..][i] == s[i + 1];
    }
    var d := s[1..];
    assert PairValue(d[0], d[1]) == r;
    assert PairValue(d[2], d[3]) == g;
    assert PairValue(d[4], d[5]) == b;
  }

  /** The leading '#' is optional and changes nothing. */
  lemma HashIsOptional(s: string)
    requires |s| == 6 && AllHex(s)
    ensures HexToRgb("#" + s) == HexToRgb(s)
  {
    assert ("#" + s)[1..] == s;
  }

  /** ASCII upper-case letters to lower case; every other character as is. */
  function LowerAscii(c: char): char {
    if 'A' <= c <= 'Z' then ((c as int) + 32) as char else c
  }

  /** The string with every ASCII letter in lower case. */
  function LowerCase(s: string): (r: string)
    ensures |r| == |s| && forall i :: 0 <= i < |s| ==> r[i] == LowerAscii(s[i])
  {
    seq(|s|, i requires 0 <= i < |s| => LowerAscii(s[i]))
  }

  /** A digit is a hex digit in either case, with the same value. */
  lemma HexDigitIgnoresCase(c: char)
    ensures IsHexDigit(LowerAscii(c)) <==> IsHexDigit(c)
    ensures IsHexDigit(c) ==> HexValue(LowerAscii(c)) == HexValue(c)
  {
  }

  /** The `i` flag: a colour reads the same as its lower-case spelling, so
      "#FF8000", "#ff8000" and "#Ff8000" give the same colour, and a string
      is rejected in one case exactly when it is rejected in the other. */
  lemma CaseInsensitive(hex: string)
    ensures IsHexColor(LowerCase(hex)) <==> IsHexColor(hex)
    ensures HexToRgb(LowerCase(hex)) == HexToRgb(hex)
  {
    var low := LowerCase(hex);
    forall i | 0 <= i < |hex| ensures IsHexDigit(low[i]) <==> IsHexDigit(hex[i]) {
      HexDigitIgnoresCase(hex[i]);
    }
    if |hex| == 7 {
      assert low[1..] == LowerCase(hex[1..]);
      assert AllHex(low[1..]) <==> AllHex(hex[1..]) by {
        forall i | 0 <= i < 6 ensures IsHexDigit(low[1..][i]) <==> IsHexDigit(hex[1..][i]) {
          assert low[1..][i] == low[i + 1];
        }
      }
    }
    if IsHexColor(hex) {
      var d := if |hex| == 7 then hex[1..] else hex;
      var e := if |hex| == 7 then low[1..] else low;
      forall i | 0 <= i < 6 ensures IsHexDigit(d[i]) && HexValue(e[i]) == HexValue(d[i]) {
        HexDigitIgnoresCase(d[i]);
      }
    }
  }

  /** A short form, a doubled '#' or a stray character gives black. */
  lemma MalformedIsBlack()
    ensures HexToRgb("#f00") == Black
    ensures HexToRgb("##ff0000") == Black
    ensures HexToRgb("#ff00zz") == Black
  {
    assert !IsHexDigit("#ff00zz"[1..][4]);
  }

  // ---------------------------------------------------------------------------
  // Placement
  // ---------------------------------------------------------------------------

  /** The text watermark on one page: starts `(width - textWidth) / 2` from
      the left edge, at half the page height, turned 45 degrees. */
  function TextMarkOn(page: Size, text: string, textWidth: real, textSize: real, color: Rgb): (m: Mark)
    ensures m.DrawnText? && m.text == text && m.rotate == 45 && m.size == textSize && m.color == color
    ensures m.x + textWidth / 2.0 == page.width / 2.0 && m.y == page.height / 2.0
  {
    DrawnText(text, (page.width - textWidth) / 2.0, page.height / 2.0, textSize, color, 45)
  }

  /** The image watermark on one page: the image at half its size, its centre
      on the page centre. */
  function ImageMarkOn(page: Size, image: Size, png: bool): (m: Mark)
    ensures m.DrawnImage? && m.png == png
    ensures m.width == image.width / 2.0 && m.height == image.height / 2.0
    ensures m.x + m.width / 2.0 == page.width / 2.0 && m.y + m.height / 2.0 == page.height / 2.0
  {
    var w, h := image.width / 2.0, image.height / 2.0;
    DrawnImage((page.width - w) / 2.0, (page.height - h) / 2.0, w, h, png)
  }

  /** The page loop of the text branch. */
  method MarkWithText(pages: seq<Size>, text: string, textWidth: real, textSize: real, color: Rgb)
    returns (marks: seq<Mark>)
    ensures |marks| == |pages|
    ensures forall i :: 0 <= i < |marks| ==> marks[i] == TextMarkOn(pages[i], text, textWidth, textSize, color)
  {
    marks := [];
    for i := 0 to |pages|
      invariant |marks| == i
      invariant forall k :: 0 <= k < i ==> marks[k] == TextMarkOn(pages[k], text, textWidth, textSize, color)
    {
      marks := marks + [TextMarkOn(pages[i], text, textWidth, textSize, color)];
    }
  }

  /** The page loop of the image branch. */
  method MarkWithImage(pages: seq<Size>, image: Size, png: bool) returns (marks: seq<Mark>)
    ensures |marks| == |pages|
    ensures forall i :: 0 <= i < |marks| ==> marks[i] == ImageMarkOn(pages[i], image, png)
  {
    marks := [];
    for i := 0 to |pages|
      invariant |marks| == i
      invariant forall k :: 0 <= k < i ==> marks[k] == ImageMarkOn(pages[k], image, png)
    {
      marks := marks + [ImageMarkOn(pages[i], image, png)];
    }
  }

  // ---------------------------------------------------------------------------
  // The screen
  // ---------------------------------------------------------------------------

  class WatermarkTool {
    var pdfFile: Option<File>
    var imageFile: Option<File>
    var error: Option<WatermarkError>
    var watermarkType: WatermarkType
    var text: string
    var textColor: string
    var textSize: real

    constructor ()
      ensures pdfFile == None && imageFile == None && error == None && watermarkType == TextMark
      ensures textColor == "#ff0000" && textSize == 50.0
    {
      pdfFile := None;
      imageFile := None;
      error := None;
      watermarkType := TextMark;
      text := "سري للغاية";
      textColor := "#ff0000";
      textSize := 50.0;
    }

    /** `onPdfSelected`: the first file becomes the document. */
    method OnPdfSelected(files: seq<File>)
      modifies this`pdfFile, this`error
      ensures files == [] ==> pdfFile == old(pdfFile) && error == old(error)
      ensures files != [] ==> pdfFile == Some(files[0]) && error == None
    {
      if |files| > 0 {
        pdfFile := Some(files[0]);
        error := None;
      }
    }

    /** The two watermark-type buttons. */
    method SetWatermarkType(t: WatermarkType)
      modifies this`watermarkType
      ensures watermarkType == t
    {
      watermarkType := t;
    }

    /** The text and colour inputs of a text watermark. */
    method SetTextOptions(newText: string, newColor: string)
      modifies this`text, this`textColor
      ensures text == newText && textColor == newColor
    {
      text := newText;
      textColor := newColor;
    }

    /** `onImageSelected`: accepts the first file only if it is an image. */
    method OnImageSelected(files: seq<File>)
      modifies this`imageFile, this`error
      ensures files != [] && IsImageMime(files[0].mime) ==> imageFile == Some(files[0]) && error == None
      ensures !(files != [] && IsImageMime(files[0].mime)) ==> imageFile == old(imageFile) && error == Some(InvalidImage)
    {
      if |files| > 0 && IsImageMime(files[0].mime) {
        imageFile := Some(files[0]);
        error := None;
      } else {
        error := Some(InvalidImage);
      }
    }

    /** `handleAddWatermark`: with no document, nothing; an image watermark
        without an image is an error; otherwise every page is marked, the
        result is offered as stem + "_watermarked.pdf" and both files are
        cleared. `textWidth` is the width the font reports for the text and
        `image` the embedded image's size. */
    method HandleAddWatermark(pages: seq<Size>, textWidth: real, image: Size, libraryFails: bool)
      returns (out: Option<Download<seq<Mark>>>)
      modifies this`pdfFile, this`imageFile, this`error
      ensures old(pdfFile).None? ==> out == None && pdfFile == old(pdfFile) && imageFile == old(imageFile) && error == old(error)
      ensures old(pdfFile).Some? && watermarkType == ImageMark && old(imageFile).None? ==>
                out == None && error == Some(ImageRequired) && pdfFile == old(pdfFile) && imageFile == old(imageFile)
      ensures old(pdfFile).Some? && (watermarkType == TextMark || old(imageFile).Some?) && libraryFails ==>
                out == None && error == Some(WatermarkFailed) && pdfFile == old(pdfFile) && imageFile == old(imageFile)
      ensures old(pdfFile).Some? && watermarkType == TextMark && !libraryFails ==>
                out.Some? && out.value.name == OutputName(old(pdfFile).value.name, WatermarkedSuffix)
                && |out.value.content| == |pages|
                && (forall i :: 0 <= i < |pages| ==>
                      out.value.content[i] == TextMarkOn(pages[i], text, textWidth, textSize, HexToRgb(textColor)))
                && pdfFile == None && imageFile == None && error == None
      ensures old(pdfFile).Some? && watermarkType == ImageMark && old(imageFile).Some? && !libraryFails ==>
                out.Some? && out.value.name == OutputName(old(pdfFile).value.name, WatermarkedSuffix)
                && |out.value.content| == |pages|
                && (forall i :: 0 <= i < |pages| ==>
                      out.value.content[i] == ImageMarkOn(pages[i], image, old(imageFile).value.mime == "image/png"))
                && pdfFile == None && imageFile == None && error == None
    {
      if pdfFile.None? {
        return None;
      }
      if watermarkType == ImageMark && imageFile.None? {
        error := Some(ImageRequired);
        return None;
      }
      error := None;
      if libraryFails {
        error := Some(WatermarkFailed);
        return None;
      }
      var marks: seq<Mark>;
      if watermarkType == TextMark {
        var rgbColor := HexToRgb(textColor);
        marks := MarkWithText(pages, text, textWidth, textSize, rgbColor);
      } else {
        marks := MarkWithImage(pages, image, imageFile.value.mime == "image/png");
      }
      out := Some(Download(marks, OutputName(pdfFile.value.name, WatermarkedSuffix), PdfMime));
      pdfFile := None;
      imageFile := None;
    }
  }
}
